=== FILE: README.md ===
# Vulkan wrapper layer: device memory and device bookkeeping

A Dafny model of the core of the Vulkan wrapper layer in
`src/vulkan/wrapper`. The layer sits between an application and the real
driver. It has two parts.

**Device memory** (`wrapper_device_memory.c`). When `EXT_map_memory_placed`
is on, it intercepts host-visible allocations:
- It gets each one backed by a dma-buf or an AHardwareBuffer, so that a
  placed `vkMapMemory2KHR` can later `mmap` it at the application's address.
- It keeps one record per intercepted `VkDeviceMemory` in a per-device hash
  table.

**Device bookkeeping** (`wrapper_device.c`):
- It builds the extension list passed to the driver's `vkCreateDevice`.
- It keeps wrapper objects for command buffers.
- It translates them back to the driver's handles on submit, free,
  pool destruction and device destruction.

Files:

- `wrappers.dfy`: `Option`.
- `vk.dfy`: the Vulkan result codes, handles, flag bits and the
  `MAP_FAILED` / `VK_WHOLE_SIZE` constants the layer uses.
- `kernel_heap.dfy`:
  - `safe_ioctl`, the dma-heap and ION allocation ioctls, and the fallback
    from dma-heap to ION.
  - The kernel is an oracle: the sequence of answers it gives to successive
    issues of one ioctl.
- `memory_records.dfy`:
  - The registry: `map<Handle, MemoryRecord>` with the fields
    `alloc_size`, `dmabuf_fd`, `ahardware_buffer`, `map_address` and
    `map_size`.
  - A multiset `live` of the descriptors and AHardwareBuffer references the
    layer owns.
  - A ghost `Holdings` sum with its insert, remove and update lemmas.
    `Consistent` says the ledger is exact.
- `device_memory.dfy`:
  - `vkAllocateMemory` as a chain of small stages:
    - take the import;
    - first native allocation;
    - heap-import retry (`wrapper_get_import_dmabuf_info`);
    - AHardwareBuffer-export retry;
    - conclude: release or register, then fetch the export.
  - `vkFreeMemory`.
  - Every driver call, syscall and AHardwareBuffer call is an oracle field
    of `AllocEnv`. Each call the layer makes is logged in a `Trace`.
  - A `Trace` keeps the calls and the multisets of resources they acquired
    and released. It also records whether a native allocation succeeded,
    which hands resources to the driver.
- `memory_map.dfy`: placed `vkMapMemory2KHR` and `vkUnmapMemory2KHR`, with
  `lseek`, `mmap` and the AHardwareBuffer native handle as oracles.
- `memory_properties.dfy`: properties that span calls:
  - the trace summaries are faithful to the calls;
  - no leak and no change on failure;
  - the ledger stays exact;
  - allocate-then-free round trip;
  - the fallback order;
  - the placed-mapping rules.
- `device_extensions.dfy`: `wrapper_filter_enabled_extensions` and
  `wrapper_append_required_extensions` over boolean extension tables. The
  combined list has no duplicates and fits in its array.
- `command_buffers.dfy`: the wrapper list for command buffers:
  - allocate with rollback, free, destroy by pool, destroy the device;
  - the allocate-then-free round trip.
- `queue_submit.dfy`: `vkQueueSubmit` and `vkQueueSubmit2` with each command
  buffer replaced by the driver's handle.

Source paths below are relative to the repository root.

## Model

| member | source | states |
|---|---|---|
| KernelHeap.SafeIoctl | src/vulkan/wrapper/wrapper_device_memory.c:18-28 | the ioctl is reissued exactly while it answers -1 with EINTR or EAGAIN; the answer returned is the first other one |
| KernelHeap.HeapIoctl | src/vulkan/wrapper/wrapper_device_memory.c:30-40 | the request is issued unchanged on every retry; a negative return gives -1, otherwise the descriptor the kernel wrote |
| KernelHeap.DmabufAlloc | src/vulkan/wrapper/wrapper_device_memory.c:64-75 | the result is negative exactly when both dma-heap and ION failed; it is the dma-heap descriptor when dma-heap succeeded and the ION descriptor otherwise |
| KernelHeap.DmabufAllocOrder | src/vulkan/wrapper/wrapper_device_memory.c:64-75 | the first ioctl is the dma-heap request with O_RDWR \| O_CLOEXEC; every ioctl is that request or the ION one (heap mask bits 0 and 25, flags 0); an ION request is issued exactly when dma-heap returned a negative value |
| DeviceMemory.FindStruct | src/vulkan/wrapper/wrapper_device_memory.c:167-172 | the first structure of the asked type in the chain, and none exactly when no structure has that type |
| DeviceMemory.HeapIoctlAcquires | src/vulkan/wrapper/wrapper_device_memory.c:30-62 | the ioctls of a heap allocation acquire exactly the descriptor it returns, because interrupted answers carry none |
| DeviceMemory.DmabufTrace | src/vulkan/wrapper/wrapper_device_memory.c:64-75 | the calls of wrapper_dmabuf_alloc acquire exactly the returned descriptor and release nothing |
| DeviceMemory.TakeImport | src/vulkan/wrapper/wrapper_device_memory.c:163-191 | an AHardwareBuffer import is acquired; otherwise an fd import is duplicated into the record; with no import and no export a dma-buf export is put at the front of the chain; the calls acquired exactly what the record holds |
| DeviceMemory.Attempt | src/vulkan/wrapper/wrapper_device_memory.c:193-195 | one native allocation of the request as it stands; a failing one acquires and releases nothing |
| DeviceMemory.GetImportDmabufInfo | src/vulkan/wrapper/wrapper_device_memory.c:77-125 | every failure is VK_ERROR_INVALID_EXTERNAL_HANDLE with the request untouched and every acquired descriptor closed; once the heap gave a descriptor, a failure's last call closes it; success leaves the descriptor open, imported at the front of the application's chain, with the memory type the selection chose |
| DeviceMemory.ImportReadyWhenSelectable | src/vulkan/wrapper/wrapper_device_memory.c:87-124 | when the heap gives a descriptor, its properties query succeeds and a memory type is selectable, the import succeeds with that descriptor |
| DeviceMemory.ImportFailsWithoutProperties | src/vulkan/wrapper/wrapper_device_memory.c:96-101 | once the heap gave a descriptor, a failed vkGetMemoryFdPropertiesKHR fails the import with VK_ERROR_INVALID_EXTERNAL_HANDLE, the request untouched, and the descriptor closed as the last call |
| DeviceMemory.ImportFailsWithoutType | src/vulkan/wrapper/wrapper_device_memory.c:104-112 | after a successful query, a memory type the selection cannot find fails the import the same way |
| DeviceMemory.ImportHeapFd | src/vulkan/wrapper/wrapper_device_memory.c:92-102 | the import can be ready only after a successful properties query; a failed one fails the import and closes the heap descriptor; with a successful query and a selectable type the import is ready |
| DeviceMemory.SelectImportType | src/vulkan/wrapper/wrapper_device_memory.c:104-124 | the type is selected from the request type's property flags OR the fd's memory-type bits; no type closes the descriptor |
| DeviceMemory.ImportRetry | src/vulkan/wrapper/wrapper_device_memory.c:197-220 | runs only while the layer's own export is failing; success drops the export, puts an import of the kernel-heap descriptor wrapper_dmabuf_alloc returned in front of the application's chain, and keeps a duplicate of that descriptor in the record; failure keeps the record, at most resetting its descriptor to -1; the stage invariant (acquired = released + held while failing) is kept |
| DeviceMemory.AllocateImported | src/vulkan/wrapper/wrapper_device_memory.c:203-219 | success stores the duplicate in the record and drops the export request; a failed import allocation resets the record's descriptor to -1 and keeps the stage invariant |
| DeviceMemory.ImportRefused | src/vulkan/wrapper/wrapper_device_memory.c:211-216 | a refused import closes the heap descriptor and its duplicate, which gives back both, and sets the record's descriptor to -1 |
| DeviceMemory.AhbRetry | src/vulkan/wrapper/wrapper_device_memory.c:222-232 | runs only while the layer's own export is failing; it retries with an AHardwareBuffer export in front of the application's chain |
| DeviceMemory.Negotiate | src/vulkan/wrapper/wrapper_device_memory.c:163-232 | after the three stages the invariant holds, a success comes from the driver, and the fetch can overwrite what the record holds only when the request imports a descriptor of any handle type and exports a dma-buf, or imports an AHardwareBuffer and exports one |
| DeviceMemory.Release | src/vulkan/wrapper/wrapper_device_memory.c:234-238 | releases exactly what the record holds |
| DeviceMemory.FreeMemory | src/vulkan/wrapper/wrapper_device_memory.c:277-303 | a tracked, non-null handle loses its record and the ledger loses exactly what the record held, which the calls release; other handles change nothing; the driver's vkFreeMemory is the last call in every case |
| DeviceMemory.Conclude | src/vulkan/wrapper/wrapper_device_memory.c:234-274 | failure registers nothing and releases what the record holds; success registers the record under the driver's handle and fetches the dma-buf or AHardwareBuffer only for an export of exactly that type; a failed fetch frees the object, nulls *pMemory and returns the query's error |
| DeviceMemory.FetchFd | src/vulkan/wrapper/wrapper_device_memory.c:250-258 | the queried descriptor goes into the registered record, or the query's error is returned |
| DeviceMemory.FetchAhb | src/vulkan/wrapper/wrapper_device_memory.c:259-266 | the queried AHardwareBuffer goes into the registered record, or the query's error is returned |
| DeviceMemory.QueryFailed | src/vulkan/wrapper/wrapper_device_memory.c:268-272 | after a failed fetch, the object is freed through wrapper_FreeMemory; the registry and ledger return to where they were, and the last call is the native free |
| DeviceMemory.AllocateMemory | src/vulkan/wrapper/wrapper_device_memory.c:127-275 | without the extension, the feature or a host-visible type, the request is forwarded unchanged and nothing is recorded; if the record allocation fails, the result is VK_ERROR_OUT_OF_HOST_MEMORY with no call; a failure registers nothing when the driver never answers success with VK_NULL_HANDLE; a failure before any native success has acquired what it released; an intercepted success registers an unmapped record of the requested size |
| MemoryRecords.HoldingsInsert | src/vulkan/wrapper/wrapper_device_memory.c:243 | inserting a record under a new handle adds exactly what it holds to the registry's holdings |
| MemoryRecords.HoldingsRemove | src/vulkan/wrapper/wrapper_device_memory.c:297 | removing a record subtracts exactly what it held |
| MemoryMap.FirstLargeEnough | src/vulkan/wrapper/wrapper_device_memory.c:353-359 | the first descriptor whose end offset, as a size_t, is at least alloc_size; all earlier ones are smaller |
| MemoryMap.BackingFd | src/vulkan/wrapper/wrapper_device_memory.c:346-364 | an AHardwareBuffer record maps the first large-enough fd of its native handle, after one lseek per fd tried; otherwise the record's own descriptor |
| MemoryMap.MapLength | src/vulkan/wrapper/wrapper_device_memory.c:366-370 | VK_WHOLE_SIZE maps alloc_size when positive and the fd's end offset otherwise; any other size is used as given |
| MemoryMap.MapMemory2 | src/vulkan/wrapper/wrapper_device_memory.c:305-387 | without the placed flag or a record, the call is forwarded to vkMapMemory with flags 0; if already mapped, the same address gives base + offset with no call and another address gives VK_ERROR_MEMORY_MAP_FAILED with the state unchanged; otherwise a shared fixed mmap, whose failure clears the map state; only the map state of that record ever changes |
| MemoryMap.MapAgain | src/vulkan/wrapper/wrapper_device_memory.c:335-343 | an existing mapping is reused only at the same placed address |
| MemoryMap.MapFresh | src/vulkan/wrapper/wrapper_device_memory.c:344-386 | mmap at the placed address; success records address and length and returns address + offset |
| MemoryMap.UnmapMemory2 | src/vulkan/wrapper/wrapper_device_memory.c:394-426 | a tracked record is munmapped or reserved and its map state cleared; a failed reserve remap returns VK_ERROR_MEMORY_MAP_FAILED, leaves MAP_FAILED as the address and skips the native unmap; otherwise the native unmap is called and the result is VK_SUCCESS |
| MemoryProperties.AllocateFaithful | src/vulkan/wrapper/wrapper_device_memory.c:127-275 | what vkAllocateMemory's summary says was acquired, released and handed to the driver is what its calls did |
| MemoryProperties.FailedAllocationLeaksNothing | src/vulkan/wrapper/wrapper_device_memory.c:234-241 | a failed allocation with no successful native allocation gives back every descriptor and AHardwareBuffer reference its calls acquired |
| MemoryProperties.FailedAllocationBalances | src/vulkan/wrapper/wrapper_device_memory.c:234-272 | every failed allocation, including a failed fetch after the driver accepted it, gives back every descriptor and AHardwareBuffer reference its calls acquired, as often as acquired |
| MemoryProperties.NegotiateBalanced | src/vulkan/wrapper/wrapper_device_memory.c:163-232 | while an export is still requested, the negotiation's calls acquired exactly what they released plus what the record holds; without one the same holds, except that after a successful heap-import retry the heap descriptor itself has also been handed to the driver and is acquired beyond what the record holds |
| MemoryProperties.ImportRetryLedger | src/vulkan/wrapper/wrapper_device_memory.c:197-219 | a successful heap-import retry acquires exactly the heap descriptor and the record's duplicate of it, and releases nothing |
| MemoryProperties.HeapImportLedger | src/vulkan/wrapper/wrapper_device_memory.c:163-232 | after a successful heap-import retry the calls acquired what they released, what the record holds, and the heap descriptor handed to the driver |
| MemoryProperties.FailedAllocationChangesNothing | src/vulkan/wrapper/wrapper_device_memory.c:268-272 | every failed vkAllocateMemory leaves the registry and ledger unchanged, including a failed fetch after registration |
| MemoryProperties.AllocationKeepsLedger | src/vulkan/wrapper/wrapper_device_memory.c:243-266 | vkAllocateMemory keeps the ledger equal to what the records hold, unless the request imports a descriptor of any handle type and exports a dma-buf, or imports an AHardwareBuffer and exports one |
| MemoryProperties.AllocateThenFree | src/vulkan/wrapper/wrapper_device_memory.c:285-302 | when the driver hands out a fresh handle and the fetch does not overwrite the import, freeing the handle a successful allocation returned restores the registry and ledger and releases what the new record held |
| MemoryProperties.AllocateThenFreeRegistry | src/vulkan/wrapper/wrapper_device_memory.c:285-302 | when the driver hands out a fresh handle, for every request, including one whose fetch overwrites its import, freeing the handle a successful allocation returned leaves exactly the records there were before |
| MemoryProperties.NoRetryForApplicationChains | src/vulkan/wrapper/wrapper_device_memory.c:174-222 | a request with an import or export structure gets exactly one native allocation |
| MemoryProperties.NoRetryAfterSuccess | src/vulkan/wrapper/wrapper_device_memory.c:197-232 | the retry stages run only while the allocation fails |
| MemoryProperties.ImportedMemoryIsNotFetched | src/vulkan/wrapper/wrapper_device_memory.c:216-218 | a successful import retry clears the export, so the request imports the heap descriptor and no export query follows |
| MemoryProperties.HeapImportBacksMemory | src/vulkan/wrapper/wrapper_device_memory.c:193-232 | the kernel-heap fallback: with no import and no export in the chain, when the driver refuses the dma-buf export and accepts the import of a selectable heap descriptor, the allocation succeeds with that import request, nothing is exported, and the record holds the heap descriptor's duplicate and no AHardwareBuffer |
| MemoryProperties.HeapImportAccepted | src/vulkan/wrapper/wrapper_device_memory.c:197-219 | the import retry with a selectable heap descriptor the driver accepts succeeds with the import request, drops the export and stores the duplicate in the record |
| MemoryProperties.FallbackOrder | src/vulkan/wrapper/wrapper_device_memory.c:183-232 | with a refusing driver, the dma-buf export is tried first and the AHardwareBuffer export last, and the last error is reported |
| MemoryProperties.ImportExportOverwrite | src/vulkan/wrapper/wrapper_device_memory.c:245-258 | for every accepted request that imports a descriptor of any handle type (and no AHardwareBuffer) and also exports a dma-buf, with a successful fetch, the record ends up holding the exported descriptor; unless the driver exports the number of the duplicate taken at line 178, that duplicate is acquired, never released, not held by the record, and freeing the memory gives back only the exported descriptor |
| MemoryProperties.ImportExportOverwriteExample | src/vulkan/wrapper/wrapper_device_memory.c:245-258 | the same on one request: imported descriptor 5 duplicated as 7, exported 9; 7 is never closed and freeing closes only 9 |
| MemoryProperties.FreeCalls | src/vulkan/wrapper/wrapper_device_memory.c:289-302 | the calls of a tracked free are, in order: munmap exactly when address and size are set, AHardwareBuffer release, close, native free |
| MemoryProperties.FreeKeepsLedger | src/vulkan/wrapper/wrapper_device_memory.c:289-298 | freeing keeps the ledger exact |
| MemoryProperties.MapKeepsLedger | src/vulkan/wrapper/wrapper_device_memory.c:335-386 | mapping keeps the ledger exact |
| MemoryProperties.UnmapKeepsLedger | src/vulkan/wrapper/wrapper_device_memory.c:407-421 | unmapping keeps the ledger exact |
| MemoryProperties.MapAgainAfterMap | src/vulkan/wrapper/wrapper_device_memory.c:335-342 | after a placed map, mapping at the same address returns the same pointer without calls, and another address fails, with the state unchanged |
| MemoryProperties.UnmapAfterMap | src/vulkan/wrapper/wrapper_device_memory.c:415-420 | a plain unmap after a placed map munmaps that mapping and restores the registry |
| MemoryProperties.MapAfterFreeForwards | src/vulkan/wrapper/wrapper_device_memory.c:320-333 | after vkFreeMemory, a map request for the handle goes to the driver |
| MemoryProperties.FailedReserveSticks | src/vulkan/wrapper/wrapper_device_memory.c:408-414 | after a failed reserve remap, every later placed map at a real address fails, and the later free munmaps at MAP_FAILED |
| DeviceExtensions.FilterEnabledExtensions | src/vulkan/wrapper/wrapper_device.c:36-54 | appends, in index order, exactly the enabled names that the layer neither implements nor filters |
| DeviceExtensions.KeptDistinct | src/vulkan/wrapper/wrapper_device.c:41-53 | the filtered names are distinct and all enabled |
| DeviceExtensions.AppendRequiredExtensions | src/vulkan/wrapper/wrapper_device.c:56-82 | appends "VK_" + each listed extension that is supported but not enabled, in list order |
| DeviceExtensions.AppendedDistinct | src/vulkan/wrapper/wrapper_device.c:65-80 | the appended names are distinct |
| DeviceExtensions.CreateInfoExtensions | src/vulkan/wrapper/wrapper_device.c:165-170 | the list passed to the driver has no duplicates and is no longer than the VK_DEVICE_EXTENSION_COUNT array |
| CommandBuffers.Unlink | src/vulkan/wrapper/wrapper_device.c:303-308 | unlinking removes exactly the wrapper with that handle |
| CommandBuffers.UnlinkOldest | src/vulkan/wrapper/wrapper_device.c:340-343 | destroying the oldest of the pushed wrappers undoes its push |
| CommandBuffers.AllocateCommandBuffers | src/vulkan/wrapper/wrapper_device.c:310-352 | a native failure returns at once with no wrapper and no further driver call; a wrapper failure calls the driver's vkFreeCommandBuffers with the pool and all the driver's handles, destroys the wrappers already made, nulls every slot and returns VK_ERROR_OUT_OF_HOST_MEMORY; success pushes one wrapper per native handle, in order, and frees nothing |
| CommandBuffers.CreateWrappers | src/vulkan/wrapper/wrapper_device.c:326-333 | one wrapper per native handle, each pushed on the list, until an allocation fails |
| CommandBuffers.DestroyCreated | src/vulkan/wrapper/wrapper_device.c:340-343 | destroying the created wrappers restores the list |
| CommandBuffers.FreeCommandBuffers | src/vulkan/wrapper/wrapper_device.c:355-372 | removes each named wrapper from the list and forwards the driver handles in the application's order (NULL entries skipped, see Findings) |
| CommandBuffers.UnwrapAsWritten | src/vulkan/wrapper/wrapper_device.c:365-366 | the dereference as written: a tracked handle gives its driver handle, a NULL entry faults |
| CommandBuffers.NullEntryFaults | src/vulkan/wrapper/wrapper_device.c:365-366 | a NULL entry faults as written and maps to VK_NULL_HANDLE in the corrected model |
| CommandBuffers.FreeCommandBuffersAsWritten | src/vulkan/wrapper/wrapper_device.c:357-372 | as written, the call faults exactly when the array holds a NULL entry; otherwise it unlinks the named wrappers and forwards their driver handles in order |
| CommandBuffers.DestroyCommandPool | src/vulkan/wrapper/wrapper_device.c:374-387 | removes exactly the wrappers of the pool and keeps all others, in order and with multiplicity |
| CommandBuffers.OtherPoolsCount | src/vulkan/wrapper/wrapper_device.c:379-384 | each wrapper of another pool is kept as often as it occurs; none of the pool is kept |
| CommandBuffers.DestroyDevice | src/vulkan/wrapper/wrapper_device.c:389-408 | every wrapper is destroyed in list order, the list ends empty, and the driver's vkDestroyDevice is called only for a non-null driver device |
| CommandBuffers.PushAllWellFormed | src/vulkan/wrapper/wrapper_device.c:287-296 | pushing wrappers with fresh handles keeps the handles distinct and non-null |
| CommandBuffers.AllocateThenFree | src/vulkan/wrapper/wrapper_device.c:355-372 | after a successful allocation each returned handle unwraps to its driver buffer, and freeing the returned array restores the list |
| QueueSubmit.Submit | src/vulkan/wrapper/wrapper_device.c:231-254 | corrected: with a scratch list as long as each submit's, the submits reach the driver unchanged except that each command buffer is replaced by its driver handle, for any number of command buffers |
| QueueSubmit.Submit2 | src/vulkan/wrapper/wrapper_device.c:255-279 | corrected the same way for VkSubmitInfo2: each command buffer info keeps its device mask and chain and only its command buffer changes |
| QueueSubmit.DispatchesInjective | src/vulkan/wrapper/wrapper_device.c:240-244 | when driver handles are distinct, two submits that reach the driver identical named the same wrappers |
| QueueSubmit.DispatchInfosInjective | src/vulkan/wrapper/wrapper_device.c:264-271 | when driver handles are distinct, two command buffer info lists that reach the driver identical were identical, wrappers, chains and device masks alike |
| QueueSubmit.SubmitAsWritten | src/vulkan/wrapper/wrapper_device.c:237-245 | as written, the call faults exactly when some submit names more than 32 command buffers, and otherwise is the corrected call |
| QueueSubmit.Submit2AsWritten | src/vulkan/wrapper/wrapper_device.c:261-270 | the same for vkQueueSubmit2: faults exactly when some submit has more than 32 command buffer infos |
| QueueSubmit.OverflowingSubmit | src/vulkan/wrapper/wrapper_device.c:237-270 | a valid submit naming a live wrapper 33 times overflows the 32-entry row in both entry points, while the corrected rewrite forwards the driver handle 33 times |

## Left out

- System calls, the driver and the AHardwareBuffer API are oracles: `ioctl`, `close`, `os_dupfd_cloexec`, `lseek`, `mmap`, `munmap`, and the driver's allocate, map, query and free. Each call the layer makes appears in the trace; none is executed.
- `wrapper_select_memory_type` is not part of this model. It is an oracle from the flags word to an index or failure (UINT32_MAX). The argument it receives, the property flags OR the memory-type bits, is modelled as written.
- The `_mesa_hash_table` is a Dafny map. `vk_zalloc2` / `vk_free2` of the record are reduced to the `recordAllocated` flag. `vk_error` logging and the `fprintf` diagnostics are left out.
- A failing `vkGetMemoryFdKHR` or `vkGetMemoryAndroidHardwareBufferANDROID` is taken not to write its output into the record.
- KernelHeap.SafeIoctl: a kernel that answers EINTR or EAGAIN forever is not modelled (safe_ioctl would spin). The answer sequence must end with a settled answer.
- MemoryMap.BackingFd: when no native-handle fd is large enough, the source asserts and a release build reads one past the fds. The model maps descriptor -1 instead.
- MemoryMap.MapFresh: the assert at line 344 (a descriptor or an AHardwareBuffer exists) is not checked.
- `wrapper_UnmapMemory` / `vk_common_UnmapMemory` are left out.
- Sizes and offsets are unbounded naturals. The only conversion modelled is off_t to size_t for lseek results (`ToSize`).
- MemoryProperties.AllocationKeepsLedger: excludes a request that imports a descriptor of any handle type and exports a dma-buf, or imports an AHardwareBuffer and exports one (`ExportOverwritesImport`). There the fetch replaces the imported handle in the record, and the replaced handle is not given back (MemoryProperties.ImportExportOverwrite).
- DeviceMemory.AllocateMemory: that a failure registers nothing is stated only for a driver that never answers a successful allocation with VK_NULL_HANDLE; with a NULL handle the failed fetch's free skips the lookup (lines 285-287) and the registered record stays.
- MemoryProperties.FailedAllocationBalances: assumes the driver never answers a successful allocation with VK_NULL_HANDLE (`NonNullOnSuccess`); with a NULL handle the failed fetch's free would find no record to give back. MemoryProperties.FailedAllocationLeaksNothing states the same balance without that assumption, for failures in which no native allocation succeeded.
- MemoryProperties.AllocateThenFree: assumes the driver returns a non-null handle that is not already registered (`FreshFromDriver`), and excludes requests whose fetch overwrites the import (`ExportOverwritesImport`). For those, the duplicate of the imported descriptor stays in the ledger after the free (MemoryProperties.ImportExportOverwrite). The registry half holds without the exclusion (MemoryProperties.AllocateThenFreeRegistry).
- MemoryProperties.FailedAllocationChangesNothing: assumes the driver returns a non-null handle that is not already registered (`FreshFromDriver`).
- CommandBuffers.DestroyCommandPool: the driver's `vkDestroyCommandPool`, which always follows, is not returned as a call.
- CommandBuffers.FreeCommandBuffers: requires distinct, tracked non-null entries and a well-formed list. The driver's `vkFreeCommandBuffers` call is represented by the forwarded handle array.
- CommandBuffers.DestroyDevice: queue teardown, the memory hash table and `vk_device_finish` are left out.
- `wrapper_CreateDevice` is left out except for the extension list it builds. So are queue creation, `GetDeviceProcAddr`, dispatch-table loading and the `textureCompressionBC` feature masking.
- Concurrency is left out: the layer takes no locks.

## Findings

| source | as written | input that shows it | evidently intended | confidence | as-written member | corrected member |
|---|---|---|---|---|---|---|
| src/vulkan/wrapper/wrapper_device.c:365-366 | every entry of pCommandBuffers is dereferenced as a wrapper | a vkFreeCommandBuffers array with a VK_NULL_HANDLE entry, which the Vulkan API allows | NULL entries are skipped and forwarded as VK_NULL_HANDLE | not executed | CommandBuffers.FreeCommandBuffersAsWritten | CommandBuffers.FreeCommandBuffers |
| src/vulkan/wrapper/wrapper_device.c:237-245 | the dispatch handles of each submit are copied into a 32-entry row of a stack array | a vkQueueSubmit whose submit names 33 command buffers, which the Vulkan API allows | a scratch list as long as the submit's command buffer list | not executed | QueueSubmit.SubmitAsWritten | QueueSubmit.Submit |
| src/vulkan/wrapper/wrapper_device.c:261-270 | the command buffer infos of each submit are copied into a 32-entry row of a stack array | a vkQueueSubmit2 whose submit has 33 command buffer infos | a scratch list as long as the submit's info list | not executed | QueueSubmit.Submit2AsWritten | QueueSubmit.Submit2 |

=== FILE: command_buffers.dfy ===
/** The device's list of command-buffer wrappers: each wrapper is a layer object
    standing for one driver command buffer. Allocation prepends wrappers, freeing
    and pool destruction unlink them, and device destruction empties the list. */
module CommandBuffers {
  import opened Wrappers
  import opened Vk

  /** struct wrapper_command_buffer: the layer's handle (the wrapper object
      itself), its pool, and the driver's handle it stands for. */
  datatype CommandBuffer = CommandBuffer(handle: Handle, pool: Handle, dispatch: Handle)

  /** The handles of a list of wrappers. */
  function Handles(list: seq<CommandBuffer>): (hs: seq<Handle>)
    ensures |hs| == |list| && forall i :: 0 <= i < |list| ==> hs[i] == list[i].handle
  {
    if |list| == 0 then [] else [list[0].handle] + Handles(list[1..])
  }

  /** Every wrapper is a distinct, non-null object. */
  predicate WellFormed(list: seq<CommandBuffer>) {
    && (forall i :: 0 <= i < |list| ==> list[i].handle != NullHandle)
    && (forall i, j :: 0 <= i < j < |list| ==> list[i].handle != list[j].handle)
  }

  predicate Tracks(list: seq<CommandBuffer>, h: Handle) {
    h in Handles(list)
  }

  /** VK_FROM_HANDLE on a wrapper handle: the wrapper it points at. */
  function Lookup(list: seq<CommandBuffer>, h: Handle): (w: CommandBuffer)
    requires Tracks(list, h)
    ensures w in list && w.handle == h
  {
    if list[0].handle == h then list[0] else Lookup(list[1..], h)
  }

  /** The dispatch handle forwarded for one entry of an application array: the
      wrapper's driver handle, and VK_NULL_HANDLE for a NULL entry. */
  function Unwrap(list: seq<CommandBuffer>, h: Handle): (d: Handle)
    requires h == NullHandle || Tracks(list, h)
    ensures h != NullHandle ==> d == Lookup(list, h).dispatch
  {
    if h == NullHandle then NullHandle else Lookup(list, h).dispatch
  }

  /** wrapper_command_buffer_destroy: unlink the wrapper with handle `h`. */
  function Unlink(list: seq<CommandBuffer>, h: Handle): (r: seq<CommandBuffer>)
    ensures forall w :: w in r <==> w in list && w.handle != h
    ensures |r| <= |list|
  {
    if |list| == 0 then []
    else if list[0].handle == h then Unlink(list[1..], h)
    else [list[0]] + Unlink(list[1..], h)
  }

  /** list_add of each wrapper in turn: the last one added ends up first. */
  function PushAll(list: seq<CommandBuffer>, added: seq<CommandBuffer>): (r: seq<CommandBuffer>)
    ensures |r| == |list| + |added|
    ensures forall w :: w in r <==> w in list || w in added
  {
    if |added| == 0 then list
    else [added[|added| - 1]] + PushAll(list, added[..|added| - 1])
  }

  // ---------------------------------------------------------------------------
  // Lemmas about unlinking

  lemma {:induction false} UnlinkAbsent(list: seq<CommandBuffer>, h: Handle)
    requires !Tracks(list, h)
    ensures Unlink(list, h) == list
  {
    if |list| > 0 {
      assert Handles(list)[0] == list[0].handle;
      assert Handles(list[1..]) == Handles(list)[1..];
      UnlinkAbsent(list[1..], h);
    }
  }

  /** Unlinking the oldest of the wrappers just pushed gives the list as it was
      before that one was pushed, with the younger ones on top. */
  lemma {:induction false} UnlinkOldest(list: seq<CommandBuffer>, added: seq<CommandBuffer>)
    requires |added| > 0
    requires !Tracks(list, added[0].handle)
    requires forall j :: 1 <= j < |added| ==> added[j].handle != added[0].handle
    ensures Unlink(PushAll(list, added), added[0].handle) == PushAll(list, added[1..])
    decreases |added|
  {
    var h := added[0].handle;
    if |added| == 1 {
      UnlinkAbsent(list, h);
      assert added[1..] == [];
    } else {
      var last := added[|added| - 1];
      var init := added[..|added| - 1];
      assert init[0] == added[0];
      assert forall j :: 1 <= j < |init| ==> init[j] == added[j];
      UnlinkOldest(list, init);
      assert added[1..][..|added[1..]| - 1] == init[1..];
      assert added[1..][|added[1..]| - 1] == last;
    }
  }

  lemma {:induction false} HandlesAppend(a: seq<CommandBuffer>, b: seq<CommandBuffer>)
    ensures Handles(a + b) == Handles(a) + Handles(b)
  {
    var l := Handles(a + b);
    var r := Handles(a) + Handles(b);
    assert |l| == |r|;
    assert forall i :: 0 <= i < |l| ==> l[i] == r[i] by {
      forall i | 0 <= i < |l|
        ensures l[i] == r[i]
      {
        if i < |a| {
          assert (a + b)[i] == a[i];
        } else {
          assert (a + b)[i] == b[i - |a|];
        }
      }
    }
  }

  // ---------------------------------------------------------------------------
  // vkAllocateCommandBuffers

  /** The driver's vkAllocateCommandBuffers: its result and the handles it wrote. */
  datatype NativeCommandBuffers = NativeCommandBuffers(result: VkResult, handles: seq<Handle>)

  /** The driver's vkFreeCommandBuffers as the layer calls it: the pool and the
      driver handles. */
  datatype NativeFree = NativeFree(pool: Handle, buffers: seq<Handle>)

  /** vk_object_zalloc hands out new objects: non-null, distinct from every
      wrapper in the list and from each other. `wrapperAlloc(i)` is the outcome of
      the i-th allocation; None is an allocation failure. */
  predicate FreshAllocations(list: seq<CommandBuffer>, wrapperAlloc: nat -> Option<Handle>, count: nat) {
    && (forall i :: 0 <= i < count && wrapperAlloc(i).Some? ==>
          wrapperAlloc(i).value != NullHandle && !Tracks(list, wrapperAlloc(i).value))
    && (forall i, j :: 0 <= i < j < count && wrapperAlloc(i).Some? && wrapperAlloc(j).Some? ==>
          wrapperAlloc(i).value != wrapperAlloc(j).value)
  }

  /** The wrappers standing for the driver's handles `native`, with the layer
      handles `handles`, all in `pool`. */
  function NewWrappers(pool: Handle, native: seq<Handle>, handles: seq<Handle>): (ws: seq<CommandBuffer>)
    requires |handles| == |native|
    ensures |ws| == |native| && forall j :: 0 <= j < |ws| ==> ws[j] == CommandBuffer(handles[j], pool, native[j])
  {
    seq(|native|, j requires 0 <= j < |native| => CommandBuffer(handles[j], pool, native[j]))
  }

  /** wrapper_AllocateCommandBuffers (wrapper_device.c lines 320-351). `out` is
      what pCommandBuffers holds afterwards (None: not written). */
  method AllocateCommandBuffers(list: seq<CommandBuffer>, pool: Handle, count: nat,
                                native: NativeCommandBuffers, wrapperAlloc: nat -> Option<Handle>)
    returns (result: VkResult, list': seq<CommandBuffer>, out: Option<seq<Handle>>, nativeFree: Option<NativeFree>)
    requires native.result == Success ==> |native.handles| == count
    requires FreshAllocations(list, wrapperAlloc, count)
    ensures native.result != Success ==> result == native.result && list' == list && out.None? && nativeFree.None?
    ensures native.result == Success && (forall i :: 0 <= i < count ==> wrapperAlloc(i).Some?) ==>
              && result == Success && nativeFree.None?
              && out.Some? && |out.value| == count
              && (forall i :: 0 <= i < count ==> out.value[i] == wrapperAlloc(i).value)
              && list' == PushAll(list, NewWrappers(pool, native.handles, out.value))
    ensures native.result == Success && (exists i :: 0 <= i < count && wrapperAlloc(i).None?) ==>
              && result == ErrorOutOfHostMemory && list' == list
              && nativeFree == Some(NativeFree(pool, native.handles))
              && out == Some(seq(count, _ => NullHandle))
  {
    if native.result != Success {
      return native.result, list, None, None;
    }
    var created;
    created, list' := CreateWrappers(list, pool, native.handles, wrapperAlloc);
    if |created| < count {
      // Lines 338-348: free the driver's buffers, destroy the wrappers made so far, null every slot.
      list' := DestroyCreated(list, created, wrapperAlloc, count);
      return ErrorOutOfHostMemory, list', Some(seq(count, _ => NullHandle)), Some(NativeFree(pool, native.handles));
    }
    out := Some(Handles(created));
    assert created == NewWrappers(pool, native.handles, out.value);
    return Success, list', out, None;
  }

  /** Lines 330-336: one wrapper per driver handle, each added to the front of
      the list, until an allocation fails. */
  method CreateWrappers(list: seq<CommandBuffer>, pool: Handle, native: seq<Handle>, wrapperAlloc: nat -> Option<Handle>)
    returns (created: seq<CommandBuffer>, list': seq<CommandBuffer>)
    ensures |created| <= |native|
    ensures forall j :: 0 <= j < |created| ==>
              wrapperAlloc(j).Some? && created[j] == CommandBuffer(wrapperAlloc(j).value, pool, native[j])
    ensures |created| < |native| ==> wrapperAlloc(|created|).None?
    ensures list' == PushAll(list, created)
  {
    created := [];
    list' := list;
    var i := 0;
    while i < |native|
      invariant 0 <= i <= |native| && |created| == i
      invariant forall j :: 0 <= j < i ==>
                  wrapperAlloc(j).Some? && created[j] == CommandBuffer(wrapperAlloc(j).value, pool, native[j])
      invariant list' == PushAll(list, created)
    {
      var w := wrapperAlloc(i);
      if w.None? {
        return;
      }
      created := created + [CommandBuffer(w.value, pool, native[i])];
      assert created[..|created| - 1] == created[..i];
      list' := [created[i]] + list';
      i := i + 1;
    }
  }

  /** Lines 342-345: destroy the wrappers created so far, oldest first; the
      list is back where it started. */
  method DestroyCreated(list: seq<CommandBuffer>, created: seq<CommandBuffer>, wrapperAlloc: nat -> Option<Handle>, count: nat)
    returns (list': seq<CommandBuffer>)
    requires |created| <= count && FreshAllocations(list, wrapperAlloc, count)
    requires forall j :: 0 <= j < |created| ==> wrapperAlloc(j).Some? && created[j].handle == wrapperAlloc(j).value
    ensures list' == list
  {
    list' := PushAll(list, created);
    var q := 0;
    while q < |created|
      invariant 0 <= q <= |created|
      invariant list' == PushAll(list, created[q..])
    {
      var rest := created[q..];
      assert rest[0] == created[q];
      assert forall j :: 1 <= j < |rest| ==> rest[j] == created[q + j];
      UnlinkOldest(list, rest);
      assert rest[1..] == created[q + 1..];
      list' := Unlink(list', created[q].handle);
      q := q + 1;
    }
    assert created[q..] == [];
  }

  // ---------------------------------------------------------------------------
  // vkFreeCommandBuffers

  /** The application's array names distinct wrappers the list tracks, or NULL. */
  predicate Freeable(list: seq<CommandBuffer>, handles: seq<Handle>) {
    && (forall i :: 0 <= i < |handles| && handles[i] != NullHandle ==> Tracks(list, handles[i]))
    && (forall i, j :: 0 <= i < j < |handles| && handles[i] != NullHandle ==> handles[i] != handles[j])
  }

  /** The list without the wrappers whose handles occur in `handles`. */
  function Without(list: seq<CommandBuffer>, handles: seq<Handle>): (r: seq<CommandBuffer>)
    ensures forall w :: w in r <==> w in list && w.handle !in handles
  {
    if |handles| == 0 then list
    else Unlink(Without(list, handles[..|handles| - 1]), handles[|handles| - 1])
  }

  /** wrapper_FreeCommandBuffers (lines 357-372), with NULL entries skipped:
      unlink each wrapper and forward the driver handles in the application's
      order. */
  method FreeCommandBuffers(list: seq<CommandBuffer>, handles: seq<Handle>)
    returns (list': seq<CommandBuffer>, forwarded: seq<Handle>)
    requires WellFormed(list) && Freeable(list, handles)
    ensures |forwarded| == |handles|
    ensures forall i :: 0 <= i < |handles| ==> forwarded[i] == Unwrap(list, handles[i])
    ensures forall w :: w in list' <==> w in list && w.handle !in handles
    ensures list' == Without(list, handles)
  {
    list' := list;
    forwarded := [];
    var i := 0;
    while i < |handles|
      invariant 0 <= i <= |handles|
      invariant list' == Without(list, handles[..i])
      invariant |forwarded| == i && forall j :: 0 <= j < i ==> forwarded[j] == Unwrap(list, handles[j])
    {
      var h := handles[i];
      FreeStep(list, handles, i);
      var d := if h == NullHandle then NullHandle else Lookup(list', h).dispatch;
      assert d == Unwrap(list, h);
      ForwardStep(list, handles, forwarded, d);
      forwarded := forwarded + [d];
      list' := Unlink(list', h);
      i := i + 1;
    }
    assert handles[..i] == handles;
  }

  lemma ForwardStep(list: seq<CommandBuffer>, handles: seq<Handle>, forwarded: seq<Handle>, d: Handle)
    requires |forwarded| < |handles| && Freeable(list, handles)
    requires forall j :: 0 <= j < |forwarded| ==> forwarded[j] == Unwrap(list, handles[j])
    requires d == Unwrap(list, handles[|forwarded|])
    ensures forall j :: 0 <= j < |forwarded| + 1 ==> (forwarded + [d])[j] == Unwrap(list, handles[j])
  {
  }

  /** One entry of the array: its wrapper is still linked, since no earlier entry
      named it, and unlinking it extends the prefix freed so far. */
  lemma FreeStep(list: seq<CommandBuffer>, handles: seq<Handle>, i: nat)
    requires WellFormed(list) && Freeable(list, handles) && i < |handles|
    ensures Without(list, handles[..i + 1]) == Unlink(Without(list, handles[..i]), handles[i])
    ensures handles[i] != NullHandle ==>
              && Tracks(Without(list, handles[..i]), handles[i])
              && Lookup(Without(list, handles[..i]), handles[i]) == Lookup(list, handles[i])
  {
    assert handles[..i + 1][..i] == handles[..i];
    var h := handles[i];
    if h != NullHandle {
      assert h !in handles[..i];
      var sub := Without(list, handles[..i]);
      assert Lookup(list, h) in sub;
      LookupIn(list, sub, h);
    }
  }

  /** A wrapper found in a sub-list is the one the full list yields, when the full
      list's handles are distinct. */
  lemma LookupIn(list: seq<CommandBuffer>, sub: seq<CommandBuffer>, h: Handle)
    requires Tracks(list, h) && Lookup(list, h) in sub
    requires forall w :: w in sub ==> w in list
    requires WellFormed(list)
    ensures Tracks(sub, h) && Lookup(sub, h) == Lookup(list, h)
  {
    var w := Lookup(sub, h);
    assert w in list;
    var k :| 0 <= k < |sub| && sub[k] == Lookup(list, h);
    assert Handles(sub)[k] == h;
  }

  /** The dereference wrapper_FreeCommandBuffers performs on each entry, as
      written: a NULL entry is dereferenced too, which faults (None). */
  function UnwrapAsWritten(list: seq<CommandBuffer>, h: Handle): (d: Option<Handle>)
    requires h == NullHandle || Tracks(list, h)
    ensures h != NullHandle ==> d == Some(Unwrap(list, h))
  {
    if h == NullHandle then None else Some(Lookup(list, h).dispatch)
  }

  /** A NULL entry, which vkFreeCommandBuffers must ignore, faults as written
      and is forwarded as VK_NULL_HANDLE by the corrected model. */
  lemma NullEntryFaults(list: seq<CommandBuffer>)
    ensures UnwrapAsWritten(list, NullHandle).None?
    ensures Unwrap(list, NullHandle) == NullHandle
  {
  }

  /** What a completed vkFreeCommandBuffers leaves: the list and the driver
      handles forwarded. */
  datatype Freed = Freed(list: seq<CommandBuffer>, forwarded: seq<Handle>)

  /** wrapper_FreeCommandBuffers as written (lines 357-372): every entry is
      dereferenced, so the call faults (None), wherever the entry sits, exactly
      when the array holds a NULL entry; otherwise it frees as the corrected
      FreeCommandBuffers does. */
  method FreeCommandBuffersAsWritten(list: seq<CommandBuffer>, handles: seq<Handle>) returns (r: Option<Freed>)
    requires WellFormed(list) && Freeable(list, handles)
    ensures r.None? <==> exists i :: 0 <= i < |handles| && UnwrapAsWritten(list, handles[i]).None?
    ensures r.Some? ==>
              && r.value.list == Without(list, handles) && |r.value.forwarded| == |handles|
              && forall i :: 0 <= i < |handles| ==> Some(r.value.forwarded[i]) == UnwrapAsWritten(list, handles[i])
  {
    if exists i :: 0 <= i < |handles| && handles[i] == NullHandle {
      return None;
    }
    var list', forwarded := FreeCommandBuffers(list, handles);
    return Some(Freed(list', forwarded));
  }

  // ---------------------------------------------------------------------------
  // vkDestroyCommandPool

  /** The wrappers that do not belong to `pool`, in list order. */
  function OtherPools(list: seq<CommandBuffer>, pool: Handle): (r: seq<CommandBuffer>)
  {
    if |list| == 0 then []
    else (if list[0].pool == pool then [] else [list[0]]) + OtherPools(list[1..], pool)
  }

  /** wrapper_DestroyCommandPool (lines 374-387): walk the list and destroy every
      wrapper of the pool; the driver's vkDestroyCommandPool follows. */
  method DestroyCommandPool(list: seq<CommandBuffer>, pool: Handle) returns (list': seq<CommandBuffer>)
    ensures list' == OtherPools(list, pool)
    ensures forall w :: multiset(list')[w] == if w.pool == pool then 0 else multiset(list)[w]
  {
    list' := [];
    var i := 0;
    while i < |list|
      invariant 0 <= i <= |list|
      invariant list' == OtherPools(list[..i], pool)
    {
      OtherPoolsAppend(list[..i], [list[i]], pool);
      assert list[..i + 1] == list[..i] + [list[i]];
      if list[i].pool != pool {
        list' := list' + [list[i]];
      }
      i := i + 1;
    }
    assert list[..i] == list;
    OtherPoolsCount(list, pool);
  }

  lemma {:induction false} OtherPoolsAppend(a: seq<CommandBuffer>, b: seq<CommandBuffer>, pool: Handle)
    ensures OtherPools(a + b, pool) == OtherPools(a, pool) + OtherPools(b, pool)
    decreases |a|
  {
    if |a| == 0 {
      assert a + b == b;
    } else {
      assert (a + b)[0] == a[0] && (a + b)[1..] == a[1..] + b;
      OtherPoolsAppend(a[1..], b, pool);
    }
  }

  lemma {:induction false} OtherPoolsCount(list: seq<CommandBuffer>, pool: Handle)
    ensures forall w :: multiset(OtherPools(list, pool))[w] == if w.pool == pool then 0 else multiset(list)[w]
  {
    if |list| > 0 {
      OtherPoolsCount(list[1..], pool);
      assert list == [list[0]] + list[1..];
    }
  }

  // ---------------------------------------------------------------------------
  // vkDestroyDevice

  /** The device as far as its destruction is concerned. */
  datatype Device = Device(dispatch: Handle, commandBuffers: seq<CommandBuffer>)

  /** wrapper_DestroyDevice (lines 389-409): destroy every wrapper in list order,
      then call the driver's vkDestroyDevice only if the driver device exists. */
  method DestroyDevice(device: Device) returns (destroyed: seq<Handle>, list': seq<CommandBuffer>, nativeDestroy: bool)
    ensures destroyed == Handles(device.commandBuffers)
    ensures list' == []
    ensures nativeDestroy <==> device.dispatch != NullHandle
  {
    list' := device.commandBuffers;
    destroyed := [];
    while |list'| > 0
      invariant Handles(device.commandBuffers) == destroyed + Handles(list')
      decreases |list'|
    {
      HandlesAppend([list'[0]], list'[1..]);
      assert [list'[0]] + list'[1..] == list';
      destroyed := destroyed + [list'[0].handle];
      list' := list'[1..];
    }
    nativeDestroy := device.dispatch != NullHandle;
  }

  // ---------------------------------------------------------------------------
  // Allocation followed by free

  /** Handles a successful allocation may hand out to `list`. */
  predicate FreshHandles(list: seq<CommandBuffer>, hs: seq<Handle>) {
    && (forall j :: 0 <= j < |hs| ==> hs[j] != NullHandle && !Tracks(list, hs[j]))
    && (forall i, j :: 0 <= i < j < |hs| ==> hs[i] != hs[j])
  }

  lemma WellFormedCons(x: CommandBuffer, r: seq<CommandBuffer>)
    requires WellFormed(r) && x.handle != NullHandle
    requires forall w :: w in r ==> w.handle != x.handle
    ensures WellFormed([x] + r)
  {
    var l := [x] + r;
    forall i, j | 0 <= i < j < |l|
      ensures l[i].handle != l[j].handle
    {
      assert l[j] == r[j - 1];
      if i == 0 {
        assert r[j - 1] in r;
      }
    }
  }

  /** Pushing wrappers with fresh handles keeps the list well formed. */
  lemma {:induction false} PushAllWellFormed(list: seq<CommandBuffer>, added: seq<CommandBuffer>)
    requires WellFormed(list) && FreshHandles(list, Handles(added))
    ensures WellFormed(PushAll(list, added))
  {
    if |added| > 0 {
      var n := |added| - 1;
      var init := added[..n];
      assert Handles(init) == Handles(added)[..n];
      PushAllWellFormed(list, init);
      forall w | w in PushAll(list, init)
        ensures w.handle != added[n].handle
      {
        if w in list {
          var k :| 0 <= k < |list| && list[k] == w;
          assert Handles(list)[k] == w.handle;
        } else {
          var k :| 0 <= k < n && init[k] == w;
          assert Handles(added)[k] == w.handle;
        }
      }
      WellFormedCons(added[n], PushAll(list, init));
    }
  }

  /** Freeing the new handles, in the application's order, unlinks the wrappers
      pushed for them one by one, oldest first. */
  lemma {:induction false} WithoutPushed(list: seq<CommandBuffer>, added: seq<CommandBuffer>, k: nat)
    requires k <= |added| && FreshHandles(list, Handles(added))
    ensures Without(PushAll(list, added), Handles(added)[..k]) == PushAll(list, added[k..])
  {
    var hs := Handles(added);
    if k == 0 {
      assert added[0..] == added;
    } else {
      var rest := added[k - 1..];
      assert rest[0].handle == hs[k - 1];
      forall j | 1 <= j < |rest|
        ensures rest[j].handle != rest[0].handle
      {
        assert rest[j] == added[k - 1 + j];
        assert rest[j].handle == hs[k - 1 + j];
      }
      assert !Tracks(list, rest[0].handle);
      UnlinkOldest(list, rest);
      assert rest[1..] == added[k..];
      WithoutPushed(list, added, k - 1);
      var prefix := hs[..k];
      ShorterPrefix(hs, k);
      assert Without(PushAll(list, added), prefix)
          == Unlink(Without(PushAll(list, added), hs[..k - 1]), hs[k - 1]);
    }
  }

  lemma ShorterPrefix(s: seq<Handle>, k: nat)
    requires 1 <= k <= |s|
    ensures s[..k][..k - 1] == s[..k - 1] && s[..k][k - 1] == s[k - 1]
  {
  }

  /** The wrapper with a given handle is the only one: in a well-formed list
      Lookup finds that very wrapper. */
  lemma LookupUnique(list: seq<CommandBuffer>, w: CommandBuffer)
    requires WellFormed(list) && w in list
    ensures Tracks(list, w.handle) && Lookup(list, w.handle) == w
  {
    var k :| 0 <= k < |list| && list[k] == w;
    assert Handles(list)[k] == w.handle;
    var l := Lookup(list, w.handle);
    var m :| 0 <= m < |list| && list[m] == l;
  }

  /** Round trip of vkAllocateCommandBuffers and vkFreeCommandBuffers: after a
      successful allocation the list is well formed, each returned handle
      unwraps to the driver's buffer it stands for, and freeing the returned
      array restores the list. */
  lemma AllocateThenFree(list: seq<CommandBuffer>, pool: Handle, native: seq<Handle>, hs: seq<Handle>)
    requires WellFormed(list) && |hs| == |native| && FreshHandles(list, hs)
    ensures var list' := PushAll(list, NewWrappers(pool, native, hs));
            && WellFormed(list') && Freeable(list', hs)
            && (forall j :: 0 <= j < |hs| ==> Unwrap(list', hs[j]) == native[j])
            && Without(list', hs) == list
  {
    var ws := NewWrappers(pool, native, hs);
    var list' := PushAll(list, ws);
    assert Handles(ws) == hs;
    PushAllWellFormed(list, ws);
    forall j | 0 <= j < |hs|
      ensures Tracks(list', hs[j]) && Unwrap(list', hs[j]) == native[j]
    {
      assert ws[j] in list';
      LookupUnique(list', ws[j]);
    }
    WithoutPushed(list, ws, |ws|);
    assert hs[..|ws|] == hs;
    assert ws[|ws|..] == [];
  }
}

=== FILE: device_extensions.dfy ===
/** The extension list the layer passes to the driver's vkCreateDevice: the
    application's enabled extensions minus those the layer implements or hides,
    followed by the extensions the layer itself needs from the driver. */
module DeviceExtensions {

  /** wrapper_device_extensions: implemented by the layer. VK_EXT_display_control
      only where VK_USE_PLATFORM_DISPLAY_KHR is defined. */
  function LayerExtensions(displayPlatform: bool): set<string> {
    {"VK_KHR_swapchain", "VK_EXT_swapchain_maintenance1", "VK_KHR_swapchain_mutable_format",
     "VK_KHR_present_id", "VK_KHR_present_wait", "VK_KHR_incremental_present",
     "VK_KHR_map_memory2", "VK_EXT_map_memory_placed"}
    + (if displayPlatform then {"VK_EXT_display_control"} else {})
  }

  /** wrapper_filter_extensions: never passed down. */
  const FilteredExtensions: set<string> :=
    {"VK_EXT_hdr_metadata", "VK_GOOGLE_display_timing", "VK_KHR_shared_presentable_image",
     "VK_EXT_image_compression_control_swapchain"}

  /** The REQUIRED_EXTENSION list of wrapper_append_required_extensions, in order,
      without the "VK_" prefix. */
  const RequiredExtensions: seq<string> :=
    ["KHR_external_fence", "KHR_external_semaphore", "KHR_external_memory",
     "KHR_external_fence_fd", "KHR_external_semaphore_fd", "KHR_external_memory_fd",
     "KHR_dedicated_allocation", "EXT_queue_family_foreign", "KHR_maintenance1",
     "KHR_maintenance2", "KHR_image_format_list", "KHR_timeline_semaphore",
     "EXT_external_memory_host", "EXT_external_memory_dma_buf", "EXT_image_drm_format_modifier",
     "ANDROID_external_memory_android_hardware_buffer"]

  /** vk_device_extensions: one name per extension index, all distinct. A table
      (struct vk_device_extension_table) is one flag per index. */
  predicate Distinct(names: seq<string>) {
    forall i, j :: 0 <= i < j < |names| ==> names[i] != names[j]
  }

  /** The flag a table holds for the extension called `name`; false for a name
      the table does not know. */
  predicate Has(names: seq<string>, table: seq<bool>, name: string)
    requires |table| == |names|
  {
    exists i :: 0 <= i < |names| && names[i] == name && table[i]
  }

  /** The filter's test for index `idx`: enabled, not implemented by the layer,
      not filtered. */
  predicate PassedDown(names: seq<string>, enabled: seq<bool>, displayPlatform: bool, idx: nat)
    requires |enabled| == |names| && idx < |names|
  {
    enabled[idx] && names[idx] !in LayerExtensions(displayPlatform) && names[idx] !in FilteredExtensions
  }

  /** Reference definition: the names passed down among the first `n` indices,
      in index order. */
  function Kept(names: seq<string>, enabled: seq<bool>, displayPlatform: bool, n: nat): seq<string>
    requires |enabled| == |names| && n <= |names|
  {
    if n == 0 then []
    else Kept(names, enabled, displayPlatform, n - 1)
         + (if PassedDown(names, enabled, displayPlatform, n - 1) then [names[n - 1]] else [])
  }

  /** wrapper_filter_enabled_extensions (wrapper_device.c lines 36-54): append
      to `exts` the name of every index the filter passes, in index order. */
  method FilterEnabledExtensions(names: seq<string>, enabled: seq<bool>, displayPlatform: bool, exts: seq<string>)
    returns (exts': seq<string>)
    requires |enabled| == |names|
    ensures exts' == exts + Kept(names, enabled, displayPlatform, |names|)
    ensures forall s :: s in exts'[|exts|..] <==>
              exists i :: 0 <= i < |names| && names[i] == s && PassedDown(names, enabled, displayPlatform, i)
  {
    exts' := exts;
    var idx := 0;
    while idx < |names|
      invariant 0 <= idx <= |names|
      invariant exts' == exts + Kept(names, enabled, displayPlatform, idx)
    {
      if !enabled[idx] {
        idx := idx + 1;
        continue;
      }
      if names[idx] in LayerExtensions(displayPlatform) {
        idx := idx + 1;
        continue;
      }
      if names[idx] in FilteredExtensions {
        idx := idx + 1;
        continue;
      }
      exts' := exts' + [names[idx]];
      idx := idx + 1;
    }
    assert exts'[|exts|..] == Kept(names, enabled, displayPlatform, |names|);
    KeptMembers(names, enabled, displayPlatform, |names|);
  }

  /** A name is kept exactly when some index with that name is passed down. */
  lemma {:induction false} KeptMembers(names: seq<string>, enabled: seq<bool>, displayPlatform: bool, n: nat)
    requires |enabled| == |names| && n <= |names|
    ensures forall s :: s in Kept(names, enabled, displayPlatform, n) <==>
              exists i :: 0 <= i < n && names[i] == s && PassedDown(names, enabled, displayPlatform, i)
  {
    if n > 0 {
      KeptMembers(names, enabled, displayPlatform, n - 1);
    }
  }

  /** The kept names are enabled ones, and with distinct names they are distinct. */
  lemma {:induction false} KeptDistinct(names: seq<string>, enabled: seq<bool>, displayPlatform: bool, n: nat)
    requires |enabled| == |names| && n <= |names| && Distinct(names)
    ensures Distinct(Kept(names, enabled, displayPlatform, n))
    ensures forall s :: s in Kept(names, enabled, displayPlatform, n) ==> Has(names, enabled, s)
  {
    if n > 0 {
      KeptDistinct(names, enabled, displayPlatform, n - 1);
      KeptMembers(names, enabled, displayPlatform, n - 1);
      var k := Kept(names, enabled, displayPlatform, n - 1);
      if PassedDown(names, enabled, displayPlatform, n - 1) {
        assert names[n - 1] !in k;
        assert Has(names, enabled, names[n - 1]);
      }
    }
  }

  /** The REQUIRED_EXTENSION test: supported by the physical device but not enabled. */
  predicate Missing(names: seq<string>, enabled: seq<bool>, supported: seq<bool>, ext: string)
    requires |enabled| == |names| && |supported| == |names|
  {
    !Has(names, enabled, "VK_" + ext) && Has(names, supported, "VK_" + ext)
  }

  /** Reference definition: "VK_" + each of the first `n` required extensions
      that is missing, in list order. */
  function Appended(names: seq<string>, enabled: seq<bool>, supported: seq<bool>, n: nat): seq<string>
    requires |enabled| == |names| && |supported| == |names| && n <= |RequiredExtensions|
  {
    if n == 0 then []
    else Appended(names, enabled, supported, n - 1)
         + (if Missing(names, enabled, supported, RequiredExtensions[n - 1]) then ["VK_" + RequiredExtensions[n - 1]] else [])
  }

  /** wrapper_append_required_extensions (lines 56-81). */
  method AppendRequiredExtensions(names: seq<string>, enabled: seq<bool>, supported: seq<bool>, exts: seq<string>)
    returns (exts': seq<string>)
    requires |enabled| == |names| && |supported| == |names|
    ensures exts' == exts + Appended(names, enabled, supported, |RequiredExtensions|)
    ensures forall s :: s in exts'[|exts|..] ==> !Has(names, enabled, s) && Has(names, supported, s)
  {
    exts' := exts;
    var k := 0;
    while k < |RequiredExtensions|
      invariant 0 <= k <= |RequiredExtensions|
      invariant exts' == exts + Appended(names, enabled, supported, k)
    {
      var ext := RequiredExtensions[k];
      if !Has(names, enabled, "VK_" + ext) && Has(names, supported, "VK_" + ext) {
        exts' := exts' + ["VK_" + ext];
      }
      k := k + 1;
    }
    assert exts'[|exts|..] == Appended(names, enabled, supported, |RequiredExtensions|);
    AppendedMissing(names, enabled, supported, |RequiredExtensions|);
  }

  lemma {:induction false} AppendedMissing(names: seq<string>, enabled: seq<bool>, supported: seq<bool>, n: nat)
    requires |enabled| == |names| && |supported| == |names| && n <= |RequiredExtensions|
    ensures forall s :: s in Appended(names, enabled, supported, n) ==> !Has(names, enabled, s) && Has(names, supported, s)
  {
    if n > 0 {
      AppendedMissing(names, enabled, supported, n - 1);
    }
  }

  /** Each appended name is "VK_" followed by one of the first `n` required extensions. */
  lemma {:induction false} AppendedFrom(names: seq<string>, enabled: seq<bool>, supported: seq<bool>, n: nat)
    requires |enabled| == |names| && |supported| == |names| && n <= |RequiredExtensions|
    ensures forall s :: s in Appended(names, enabled, supported, n) ==>
              exists j :: 0 <= j < n && s == "VK_" + RequiredExtensions[j]
  {
    if n > 0 {
      AppendedFrom(names, enabled, supported, n - 1);
    }
  }

  lemma RequiredDistinct()
    ensures Distinct(RequiredExtensions)
  {
  }

  lemma PrefixCancel(p: string, a: string, b: string)
    requires p + a == p + b
    ensures a == b
  {
    assert a == (p + a)[|p|..];
    assert b == (p + b)[|p|..];
  }

  lemma {:induction false} AppendedDistinct(names: seq<string>, enabled: seq<bool>, supported: seq<bool>, n: nat)
    requires |enabled| == |names| && |supported| == |names| && n <= |RequiredExtensions|
    ensures Distinct(Appended(names, enabled, supported, n))
  {
    if n > 0 {
      AppendedDistinct(names, enabled, supported, n - 1);
      AppendedFrom(names, enabled, supported, n - 1);
      var last := "VK_" + RequiredExtensions[n - 1];
      if last in Appended(names, enabled, supported, n - 1) {
        var j :| 0 <= j < n - 1 && last == "VK_" + RequiredExtensions[j];
        PrefixCancel("VK_", RequiredExtensions[n - 1], RequiredExtensions[j]);
        RequiredDistinct();
        assert false;
      }
    }
  }

  /** A list of distinct names, all drawn from a list of distinct names, is no longer than it. */
  lemma {:induction false} DistinctBound(s: seq<string>, t: seq<string>)
    requires Distinct(s) && Distinct(t)
    requires forall x :: x in s ==> x in t
    ensures |s| <= |t|
    decreases |s|
  {
    if |s| > 0 {
      assert s[0] in s;
      var k :| 0 <= k < |t| && t[k] == s[0];
      var t' := t[..k] + t[k + 1..];
      forall x | x in s[1..]
        ensures x in t'
      {
        assert x in s;
        var m :| 0 <= m < |t| && t[m] == x;
        assert m != k;
        if m < k {
          assert t'[m] == x;
        } else {
          assert t'[m - 1] == x;
        }
      }
      forall i, j | 0 <= i < j < |t'|
        ensures t'[i] != t'[j]
      {
        var i' := if i < k then i else i + 1;
        var j' := if j < k then j else j + 1;
        assert t'[i] == t[i'] && t'[j] == t[j'];
      }
      DistinctBound(s[1..], t');
    }
  }

  /** The list handed to the driver's vkCreateDevice (lines 165-173): the kept
      names followed by the appended ones. It has no duplicates, and it fits in the
      VK_DEVICE_EXTENSION_COUNT-sized array the layer builds it in. */
  lemma CreateInfoExtensions(names: seq<string>, enabled: seq<bool>, supported: seq<bool>, displayPlatform: bool)
    requires |enabled| == |names| && |supported| == |names| && Distinct(names)
    ensures var all := Kept(names, enabled, displayPlatform, |names|) + Appended(names, enabled, supported, |RequiredExtensions|);
            Distinct(all) && |all| <= |names|
  {
    var kept := Kept(names, enabled, displayPlatform, |names|);
    var appended := Appended(names, enabled, supported, |RequiredExtensions|);
    var all := kept + appended;
    KeptDistinct(names, enabled, displayPlatform, |names|);
    AppendedDistinct(names, enabled, supported, |RequiredExtensions|);
    AppendedMissing(names, enabled, supported, |RequiredExtensions|);
    forall i, j | 0 <= i < j < |all|
      ensures all[i] != all[j]
    {
      if j >= |kept| && i < |kept| {
        assert all[i] in kept && all[j] in appended;
      } else if i >= |kept| {
        assert all[i] == appended[i - |kept|] && all[j] == appended[j - |kept|];
      }
    }
    assert forall x :: x in all ==> x in names by {
      forall x | x in all
        ensures x in names
      {
        if x in kept {
          assert Has(names, enabled, x);
        } else {
          assert Has(names, supported, x);
        }
      }
    }
    DistinctBound(all, names);
  }
}

=== FILE: device_memory.dfy ===
/** The device-memory interception layer: vkAllocateMemory with its export /
    heap-import / AHardwareBuffer-export fallback, vkFreeMemory, and placed
    vkMapMemory2KHR / vkUnmapMemory2KHR. Every driver call, syscall and
    AHardwareBuffer call is an oracle; every one the layer issues is appended to
    a trace of `Call`s together with the answer it got. */
module DeviceMemory {
  import opened Wrappers
  import opened Vk
  import opened MemoryRecords
  import KernelHeap

  // ---------------------------------------------------------------------------
  // Allocation requests

  /** The structures of a VkMemoryAllocateInfo pNext chain the layer looks for;
      any other structure is `OtherStruct`. */
  datatype ChainStruct =
    | ImportAhbInfo(buffer: Ahb)
    | ImportFdInfo(handleType: bv32, fd: int)
    | ExportAllocateInfo(handleTypes: bv32)
    | OtherStruct(sType: nat)

  datatype StructType = ImportAhbType | ImportFdType | ExportType | OtherType

  function TypeOf(s: ChainStruct): StructType {
    match s
    case ImportAhbInfo(_) => ImportAhbType
    case ImportFdInfo(_, _) => ImportFdType
    case ExportAllocateInfo(_) => ExportType
    case OtherStruct(_) => OtherType
  }

  /** vk_find_struct_const: the first structure of type `t` in the chain. */
  function FindStruct(chain: seq<ChainStruct>, t: StructType): (r: Option<ChainStruct>)
    ensures r.Some? ==> TypeOf(r.value) == t
    ensures r.Some? ==> exists i :: 0 <= i < |chain| && chain[i] == r.value &&
                          forall j :: 0 <= j < i ==> TypeOf(chain[j]) != t
    ensures r.None? <==> forall i :: 0 <= i < |chain| ==> TypeOf(chain[i]) != t
  {
    if |chain| == 0 then None
    else if TypeOf(chain[0]) == t then Some(chain[0])
    else
      var r := FindStruct(chain[1..], t);
      assert forall i :: 1 <= i < |chain| ==> chain[i] == chain[1..][i - 1];
      r
  }

  /** VkMemoryAllocateInfo. */
  datatype AllocateInfo = AllocateInfo(allocationSize: nat, memoryTypeIndex: nat, next: seq<ChainStruct>)

  /** What the device enabled, and the property flags of each memory type. */
  datatype DeviceConfig = DeviceConfig(mapMemoryPlaced: bool, memoryMapPlaced: bool, memoryTypes: seq<bv32>)

  /** The layer indexes the memory-type table with the request's index unchecked. */
  predicate ValidRequest(config: DeviceConfig, info: AllocateInfo) {
    info.memoryTypeIndex < |config.memoryTypes|
  }

  /** The allocation is intercepted only with EXT_map_memory_placed enabled, the
      memoryMapPlaced feature on and a HOST_VISIBLE memory type. */
  predicate Intercepts(config: DeviceConfig, info: AllocateInfo)
    requires ValidRequest(config, info)
  {
    && config.mapMemoryPlaced
    && config.memoryMapPlaced
    && config.memoryTypes[info.memoryTypeIndex] & MemoryPropertyHostVisible != 0
  }

  // ---------------------------------------------------------------------------
  // The trace

  /** One call the layer makes, with the answer it got where that matters. */
  datatype Call =
    | NativeAllocateMemory(info: AllocateInfo, result: VkResult)
    | NativeFreeMemory(memory: Handle)
    | NativeMapMemory(memory: Handle, offset: nat, size: nat, flags: bv32)
    | NativeUnmapMemory(memory: Handle)
    | HeapIoctl(ioctl: KernelHeap.Ioctl)
    | GetMemoryFdProperties(handleType: bv32, fd: int)
    | DupCloexec(fd: int, dup: int)
    | Close(fd: int)
    | AhbAcquire(buffer: Ahb)
    | AhbRelease(buffer: Ahb)
    | AhbGetNativeHandle(buffer: Ahb)
    | GetMemoryFd(memory: Handle, handleType: bv32, queryResult: VkResult, queriedFd: int)
    | GetMemoryAhb(memory: Handle, queryResult: VkResult, queriedBuffer: Ahb)
    | LseekEnd(fd: int, endOffset: int)
    | MmapShared(addr: Address, len: nat, fd: int, mapped: Address)
    | MmapReserve(addr: Address, len: nat, mapped: Address)
    | Munmap(addr: Address, len: nat)

  /** The resource a call hands to the layer. */
  function Acquired(c: Call): multiset<Resource> {
    match c
    case HeapIoctl(io) => if io.answer.ret >= 0 then multiset{Fd(io.answer.fd)} else multiset{}
    case DupCloexec(_, d) => FdRef(d)
    case AhbAcquire(b) => multiset{AhbRef(b)}
    case GetMemoryFd(_, _, r, fd) => if r == Success then FdRef(fd) else multiset{}
    case GetMemoryAhb(_, r, b) => if r == Success then multiset{AhbRef(b)} else multiset{}
    case _ => multiset{}
  }

  /** The resource a call gives back. */
  function Released(c: Call): multiset<Resource> {
    match c
    case Close(fd) => FdRef(fd)
    case AhbRelease(b) => multiset{AhbRef(b)}
    case _ => multiset{}
  }

  /** A native allocation that succeeded: from then on the driver owns a memory object. */
  predicate NativeSuccess(c: Call) {
    c.NativeAllocateMemory? && c.result == Success
  }

  function AcquiredBy(calls: seq<Call>): multiset<Resource> {
    if |calls| == 0 then multiset{}
    else AcquiredBy(calls[..|calls| - 1]) + Acquired(calls[|calls| - 1])
  }

  function ReleasedBy(calls: seq<Call>): multiset<Resource> {
    if |calls| == 0 then multiset{}
    else ReleasedBy(calls[..|calls| - 1]) + Released(calls[|calls| - 1])
  }

  /** No native allocation in the trace succeeded. */
  predicate NoNativeSuccess(calls: seq<Call>) {
    forall i :: 0 <= i < |calls| ==> !NativeSuccess(calls[i])
  }

  lemma {:induction false} TraceConcat(a: seq<Call>, b: seq<Call>)
    ensures AcquiredBy(a + b) == AcquiredBy(a) + AcquiredBy(b)
    ensures ReleasedBy(a + b) == ReleasedBy(a) + ReleasedBy(b)
    decreases |b|
  {
    if |b| == 0 {
      assert a + b == a;
    } else {
      var b' := b[..|b| - 1];
      assert (a + b)[..|a + b| - 1] == a + b';
      assert (a + b)[|a + b| - 1] == b[|b| - 1];
      TraceConcat(a, b');
    }
  }

  /** The calls made so far, what they acquired and released, and whether a
      native allocation among them succeeded. `Faithful` ties the three
      summaries to the calls. */
  datatype Trace = Trace(calls: seq<Call>, acquired: multiset<Resource>, released: multiset<Resource>, handedOver: bool)

  const NoCalls := Trace([], multiset{}, multiset{}, false)

  /** Record one more call. */
  function Log(t: Trace, c: Call): Trace {
    Trace(t.calls + [c], t.acquired + Acquired(c), t.released + Released(c), t.handedOver || NativeSuccess(c))
  }

  /** One trace followed by another. */
  function Join(t: Trace, u: Trace): Trace {
    Trace(t.calls + u.calls, t.acquired + u.acquired, t.released + u.released, t.handedOver || u.handedOver)
  }

  /** Appending calls that give back everything they take keeps a balance. */
  lemma JoinBalanced(t: Trace, u: Trace, held: multiset<Resource>)
    ensures t.acquired == t.released + held && u.acquired == u.released ==>
              Join(t, u).acquired == Join(t, u).released + held
  {
    if t.acquired == t.released + held && u.acquired == u.released {
      assert t.released + held + u.released == t.released + u.released + held;
    }
  }

  /** Taking and giving back the same resources keeps a balance. */
  lemma TakeBackBalanced(acquired: multiset<Resource>, released: multiset<Resource>, held: multiset<Resource>, x: multiset<Resource>)
    ensures acquired == released + held ==> acquired + x == released + x + held
  {
    if acquired == released + held {
      assert released + held + x == released + x + held;
    }
  }

  ghost predicate Faithful(t: Trace) {
    && t.acquired == AcquiredBy(t.calls)
    && t.released == ReleasedBy(t.calls)
    && (t.handedOver <==> !NoNativeSuccess(t.calls))
  }

  lemma LogFaithful(t: Trace, c: Call)
    requires Faithful(t)
    ensures Faithful(Log(t, c))
  {
    var calls := t.calls + [c];
    assert calls[..|t.calls|] == t.calls;
    NoNativeSuccessConcat(t.calls, [c]);
  }

  lemma NoNativeSuccessConcat(a: seq<Call>, b: seq<Call>)
    ensures NoNativeSuccess(a + b) <==> NoNativeSuccess(a) && NoNativeSuccess(b)
  {
    var calls := a + b;
    assert forall i :: 0 <= i < |a| ==> calls[i] == a[i];
    assert forall i :: 0 <= i < |b| ==> calls[|a| + i] == b[i];
  }

  lemma JoinFaithful(t: Trace, u: Trace)
    requires Faithful(t) && Faithful(u)
    ensures Faithful(Join(t, u))
  {
    TraceConcat(t.calls, u.calls);
    NoNativeSuccessConcat(t.calls, u.calls);
  }

  // ---------------------------------------------------------------------------
  // The heap ioctls

  /** The ioctls of a heap allocation, one call each. */
  function HeapTrace(ioctls: seq<KernelHeap.Ioctl>): (t: Trace)
    ensures |t.calls| == |ioctls| && forall i :: 0 <= i < |ioctls| ==> t.calls[i] == HeapIoctl(ioctls[i])
    ensures t.released == multiset{} && !t.handedOver
  {
    if |ioctls| == 0 then NoCalls
    else Log(HeapTrace(ioctls[..|ioctls| - 1]), HeapIoctl(ioctls[|ioctls| - 1]))
  }

  lemma {:induction false} HeapTraceFaithful(ioctls: seq<KernelHeap.Ioctl>)
    ensures Faithful(HeapTrace(ioctls))
  {
    if |ioctls| > 0 {
      HeapTraceFaithful(ioctls[..|ioctls| - 1]);
      LogFaithful(HeapTrace(ioctls[..|ioctls| - 1]), HeapIoctl(ioctls[|ioctls| - 1]));
    }
  }

  lemma {:induction false} InterruptedAcquireNothing(ioctls: seq<KernelHeap.Ioctl>)
    requires forall i :: 0 <= i < |ioctls| ==> KernelHeap.Interrupted(ioctls[i].answer)
    ensures HeapTrace(ioctls).acquired == multiset{}
  {
    if |ioctls| > 0 {
      InterruptedAcquireNothing(ioctls[..|ioctls| - 1]);
    }
  }

  /** Only a settled answer can carry a descriptor, so a heap allocation's ioctls
      acquire exactly the descriptor it returns. */
  lemma {:induction false} HeapIoctlAcquires(request: KernelHeap.HeapRequest, answers: KernelHeap.KernelAnswers)
    ensures var r := KernelHeap.HeapIoctl(request, answers);
            HeapTrace(r.ioctls).acquired == FdRef(r.fd)
  {
    var r := KernelHeap.HeapIoctl(request, answers);
    var n := |r.ioctls|;
    HeapIoctlRetries(request, answers);
    InterruptedAcquireNothing(r.ioctls[..n - 1]);
    assert HeapTrace(r.ioctls).acquired == multiset{} + Acquired(HeapIoctl(r.ioctls[n - 1]));
  }

  /** The ioctls before the last were interrupted; the last carries the settled answer. */
  lemma HeapIoctlRetries(request: KernelHeap.HeapRequest, answers: KernelHeap.KernelAnswers)
    ensures var r := KernelHeap.HeapIoctl(request, answers);
            && (forall i :: 0 <= i < |r.ioctls| - 1 ==> KernelHeap.Interrupted(r.ioctls[i].answer))
            && r.ioctls[|r.ioctls| - 1].answer == KernelHeap.SettledAnswer(answers)
  {
    KernelHeap.KernelAnswersSettle(answers);
  }

  /** The calls of wrapper_dmabuf_alloc: the dma-heap ioctls, then the ION ones if
      the dma-heap failed. They acquire exactly the descriptor it returns. */
  function DmabufTrace(size: nat, h: KernelHeap.HeapAnswers): (t: Trace)
    ensures t.acquired == FdRef(KernelHeap.DmabufAlloc(size, h).fd) && t.released == multiset{} && !t.handedOver
  {
    var dma := KernelHeap.DmaHeapAlloc(size, h.dmaHeap);
    HeapIoctlAcquires(KernelHeap.DmaHeapAllocation(size, KernelHeap.O_RDWR | KernelHeap.O_CLOEXEC), h.dmaHeap);
    if dma.fd < 0 then IonFallbackTrace(size, h) else HeapTrace(dma.ioctls)
  }

  function IonFallbackTrace(size: nat, h: KernelHeap.HeapAnswers): (t: Trace)
    requires KernelHeap.DmaHeapAlloc(size, h.dmaHeap).fd < 0
    ensures t.acquired == FdRef(KernelHeap.DmabufAlloc(size, h).fd) && t.released == multiset{} && !t.handedOver
  {
    var dma := KernelHeap.DmaHeapAlloc(size, h.dmaHeap);
    var ion := KernelHeap.IonHeapAlloc(size, h.ion);
    HeapIoctlAcquires(KernelHeap.DmaHeapAllocation(size, KernelHeap.O_RDWR | KernelHeap.O_CLOEXEC), h.dmaHeap);
    HeapIoctlAcquires(KernelHeap.IonAllocation(size, KernelHeap.IonSystemHeapMask, KernelHeap.IonUncached), h.ion);
    Join(HeapTrace(dma.ioctls), HeapTrace(ion.ioctls))
  }

  lemma DmabufTraceFaithful(size: nat, h: KernelHeap.HeapAnswers)
    ensures Faithful(DmabufTrace(size, h))
  {
    var dma := KernelHeap.DmaHeapAlloc(size, h.dmaHeap);
    HeapTraceFaithful(dma.ioctls);
    if dma.fd < 0 {
      var ion := KernelHeap.IonHeapAlloc(size, h.ion);
      HeapTraceFaithful(ion.ioctls);
      JoinFaithful(HeapTrace(dma.ioctls), HeapTrace(ion.ioctls));
    }
  }

  // ---------------------------------------------------------------------------
  // The environment of an allocation

  datatype NativeAllocation = NativeAllocation(result: VkResult, memory: Handle)
  datatype FdProperties = FdProperties(result: VkResult, memoryTypeBits: bv32)
  datatype FdQuery = FdQuery(result: VkResult, fd: int)
  datatype AhbQuery = AhbQuery(result: VkResult, buffer: Ahb)

  /** Everything outside the layer an allocation consults. A query that fails is
      taken not to write its output. */
  datatype AllocEnv = AllocEnv(
    recordAllocated: bool,                      // vk_zalloc2 of the tracking record
    allocate: AllocateInfo -> NativeAllocation, // the driver's vkAllocateMemory
    heap: KernelHeap.HeapAnswers,               // dma-heap and ION ioctls
    fdProperties: int -> FdProperties,          // vkGetMemoryFdPropertiesKHR for a dma-buf
    selectMemoryType: bv32 -> Option<nat>,      // wrapper_select_memory_type; None is UINT32_MAX
    dup: int -> int,                            // os_dupfd_cloexec; -1 on failure
    getMemoryFd: Handle -> FdQuery,             // vkGetMemoryFdKHR for a dma-buf
    getMemoryAhb: Handle -> AhbQuery)           // vkGetMemoryAndroidHardwareBufferANDROID

  /** The driver never reports success with VK_NULL_HANDLE. */
  ghost predicate NonNullOnSuccess(env: AllocEnv) {
    forall info :: env.allocate(info).result == Success ==> env.allocate(info).memory != NullHandle
  }

  /** Which export structure `export_info` points at: none, the application's, or
      the layer's own `local_export_info` with its current handle type. */
  datatype ExportRequest = NoExport | AppExport(handleTypes: bv32) | LocalExport(handleTypes: bv32)

  function ExportTypes(e: ExportRequest): Option<bv32> {
    match e
    case NoExport => None
    case AppExport(t) => Some(t)
    case LocalExport(t) => Some(t)
  }

  /** An allocation in flight: the record being filled in, the rewritten request,
      the last native result and handle, and the trace so far. */
  datatype Negotiation = Negotiation(
    record: MemoryRecord,
    exportRequest: ExportRequest,
    info: AllocateInfo,
    result: VkResult,
    memory: Handle,
    trace: Trace)

  /** What stays true between the stages of an allocation: the record is not
      mapped; a local export means the record holds nothing yet; and while the
      allocation is failing, no native allocation has succeeded and the calls
      have acquired exactly what they released plus what the record holds. */
  predicate Accounted(n: Negotiation, size: nat) {
    && n.record.allocSize == size && n.info.allocationSize == size
    && n.record.mapAddress == Null && n.record.mapSize == 0
    && (n.exportRequest.LocalExport? ==> n.record.dmabufFd == -1 && n.record.ahb.None?)
    && (n.result != Success ==>
          !n.trace.handedOver && n.trace.acquired == n.trace.released + Held(n.record))
  }

  /** A successful negotiation ends in the driver's successful allocation of the
      current request, whose handle it holds. */
  predicate FromDriver(n: Negotiation, env: AllocEnv) {
    n.result == Success ==> n.trace.handedOver && env.allocate(n.info) == NativeAllocation(Success, n.memory)
  }


  /** The fetch after a successful allocation would overwrite what the record
      already holds. */
  predicate Overwrites(n: Negotiation) {
    || (FetchesDmabuf(n.exportRequest) && n.record.dmabufFd != -1)
    || (FetchesAhb(n.exportRequest) && n.record.ahb.Some?)
  }

  /** The export the request asks for is fetched into the record slot its
      import already filled: an imported AHardwareBuffer with an AHardwareBuffer
      export, or an imported descriptor of any handle type (line 178 duplicates
      every one) with a dma-buf export. */
  predicate ExportOverwritesImport(info: AllocateInfo) {
    var e := FindStruct(info.next, ExportType);
    && e.Some?
    && (|| (FindStruct(info.next, ImportAhbType).Some? && e.value.handleTypes == HandleTypeAndroidHardwareBuffer)
        || (&& FindStruct(info.next, ImportAhbType).None? && FindStruct(info.next, ImportFdType).Some?
            && e.value.handleTypes == HandleTypeDmaBuf))
  }

  // ---------------------------------------------------------------------------
  // Taking the import

  /** Where an allocation starts: nothing allocated yet, nothing mapped, and the
      calls so far acquired exactly what the record holds. */
  predicate Started(n: Negotiation, info: AllocateInfo) {
    && n.result == Success && n.memory == NullHandle
    && n.info.allocationSize == info.allocationSize && n.info.memoryTypeIndex == info.memoryTypeIndex
    && n.record.allocSize == info.allocationSize && n.record.mapAddress == Null && n.record.mapSize == 0
    && n.trace.acquired == Held(n.record) && n.trace.released == multiset{} && !n.trace.handedOver
    && (n.exportRequest.LocalExport? ==> n.record == NewRecord(info.allocationSize))
  }

  /** The export structure of the application's chain, if any. */
  function AppRequest(info: AllocateInfo): (e: ExportRequest)
    ensures e.AppExport? <==> FindStruct(info.next, ExportType).Some?
    ensures e.AppExport? ==> FindStruct(info.next, ExportType) == Some(ExportAllocateInfo(e.handleTypes))
    ensures !e.LocalExport?
  {
    var s := FindStruct(info.next, ExportType);
    if s.Some? then AppExport(s.value.handleTypes) else NoExport
  }

  /** Lines 163-186: start the record and take what the request imports: a
      reference on an imported AHardwareBuffer, or a duplicate of an imported
      descriptor. With neither an import nor an export in the chain, a dma-buf
      export is put in front of it. */
  function TakeImport(info: AllocateInfo, env: AllocEnv): (n: Negotiation)
    ensures Started(n, info)
    ensures n.exportRequest.LocalExport? <==>
              FindStruct(info.next, ImportAhbType).None? && FindStruct(info.next, ImportFdType).None?
              && FindStruct(info.next, ExportType).None?
    ensures n.exportRequest.LocalExport? ==>
              n.exportRequest.handleTypes == HandleTypeDmaBuf
              && n.info == info.(next := [ExportAllocateInfo(HandleTypeDmaBuf)] + info.next)
    ensures !n.exportRequest.LocalExport? ==> n.exportRequest == AppRequest(info) && n.info == info
    ensures FindStruct(info.next, ImportAhbType).Some? ==>
              var b := FindStruct(info.next, ImportAhbType).value.buffer;
              n.record == NewRecord(info.allocationSize).(ahb := Some(b)) && n.trace.calls == [AhbAcquire(b)]
    ensures FindStruct(info.next, ImportAhbType).None? && FindStruct(info.next, ImportFdType).Some? ==>
              var fd := FindStruct(info.next, ImportFdType).value.fd;
              n.record == NewRecord(info.allocationSize).(dmabufFd := env.dup(fd))
              && n.trace.calls == [DupCloexec(fd, env.dup(fd))]
    ensures FindStruct(info.next, ImportAhbType).None? && FindStruct(info.next, ImportFdType).None? ==>
              n.record == NewRecord(info.allocationSize) && n.trace.calls == []
    ensures Overwrites(n) ==> ExportOverwritesImport(info)
  {
    var importAhb := FindStruct(info.next, ImportAhbType);
    if importAhb.Some? then TakeImportedAhb(info, importAhb.value.buffer)
    else TakeImportedFd(info, env)
  }

  /** Lines 174-176: take a reference on the imported AHardwareBuffer. */
  function TakeImportedAhb(info: AllocateInfo, b: Ahb): (n: Negotiation)
    requires FindStruct(info.next, ImportAhbType) == Some(ImportAhbInfo(b))
    ensures Started(n, info) && n.exportRequest == AppRequest(info) && n.info == info
    ensures n.record == NewRecord(info.allocationSize).(ahb := Some(b)) && n.trace.calls == [AhbAcquire(b)]
    ensures Overwrites(n) ==> ExportOverwritesImport(info)
  {
    Negotiation(NewRecord(info.allocationSize).(ahb := Some(b)), AppRequest(info), info, Success, NullHandle,
                Log(NoCalls, AhbAcquire(b)))
  }

  function TakeImportedFd(info: AllocateInfo, env: AllocEnv): (n: Negotiation)
    requires FindStruct(info.next, ImportAhbType).None?
    ensures Started(n, info)
    ensures n.exportRequest.LocalExport? <==>
              FindStruct(info.next, ImportFdType).None? && FindStruct(info.next, ExportType).None?
    ensures n.exportRequest.LocalExport? ==>
              n.exportRequest.handleTypes == HandleTypeDmaBuf
              && n.info == info.(next := [ExportAllocateInfo(HandleTypeDmaBuf)] + info.next)
    ensures !n.exportRequest.LocalExport? ==> n.exportRequest == AppRequest(info) && n.info == info
    ensures FindStruct(info.next, ImportFdType).Some? ==>
              var fd := FindStruct(info.next, ImportFdType).value.fd;
              n.record == NewRecord(info.allocationSize).(dmabufFd := env.dup(fd))
              && n.trace.calls == [DupCloexec(fd, env.dup(fd))]
    ensures FindStruct(info.next, ImportFdType).None? ==>
              n.record == NewRecord(info.allocationSize) && n.trace.calls == []
    ensures Overwrites(n) ==> ExportOverwritesImport(info)
  {
    var importFd := FindStruct(info.next, ImportFdType);
    if importFd.Some? then
      var fd := importFd.value.fd;
      Negotiation(NewRecord(info.allocationSize).(dmabufFd := env.dup(fd)), AppRequest(info), info, Success, NullHandle,
                  Log(NoCalls, DupCloexec(fd, env.dup(fd))))
    else
      DefaultExport(info)
  }

  function DefaultExport(info: AllocateInfo): (n: Negotiation)
    ensures Started(n, info) && n.record == NewRecord(info.allocationSize) && n.trace.calls == []
    ensures n.exportRequest.LocalExport? <==> FindStruct(info.next, ExportType).None?
    ensures n.exportRequest.LocalExport? ==>
              n.exportRequest.handleTypes == HandleTypeDmaBuf
              && n.info == info.(next := [ExportAllocateInfo(HandleTypeDmaBuf)] + info.next)
    ensures !n.exportRequest.LocalExport? ==> n.exportRequest == AppRequest(info) && n.info == info
    ensures !Overwrites(n)
  {
    if FindStruct(info.next, ExportType).None? then
      Negotiation(NewRecord(info.allocationSize), LocalExport(HandleTypeDmaBuf),
                  info.(next := [ExportAllocateInfo(HandleTypeDmaBuf)] + info.next), Success, NullHandle, NoCalls)
    else
      Negotiation(NewRecord(info.allocationSize), AppRequest(info), info, Success, NullHandle, NoCalls)
  }

  /** One native allocation with the request as it currently stands. A failing
      one changes nothing in the ledger. */
  function Attempt(n: Negotiation, env: AllocEnv): (n': Negotiation)
    ensures n'.record == n.record && n'.exportRequest == n.exportRequest && n'.info == n.info
    ensures n'.trace.calls == n.trace.calls + [NativeAllocateMemory(n.info, n'.result)]
    ensures n'.result == env.allocate(n.info).result && n'.memory == env.allocate(n.info).memory
    ensures FromDriver(n', env)
    ensures n'.result != Success ==>
              n'.trace.acquired == n.trace.acquired && n'.trace.released == n.trace.released
              && n'.trace.handedOver == n.trace.handedOver
  {
    var a := env.allocate(n.info);
    n.(result := a.result, memory := a.memory, trace := Log(n.trace, NativeAllocateMemory(n.info, a.result)))
  }

  // ---------------------------------------------------------------------------
  // The heap-import retry

  /** The outcome of wrapper_get_import_dmabuf_info: its result, the rewritten
      request, the heap descriptor it leaves open (-1 when none), and its calls. */
  datatype ImportInfo = ImportInfo(result: VkResult, info: AllocateInfo, fd: int, trace: Trace)

  /** What a failed wrapper_get_import_dmabuf_info leaves: the request untouched,
      no descriptor open, and every descriptor it acquired closed again. */
  predicate ImportFailed(r: ImportInfo, info: AllocateInfo) {
    && r.result == ErrorInvalidExternalHandle && r.info == info && r.fd == -1
    && r.trace.acquired == r.trace.released && !r.trace.handedOver
  }

  /** What a successful wrapper_get_import_dmabuf_info leaves: the heap
      descriptor `fd` open and imported at the front of the application's chain,
      after a successful properties query, with the memory type the selection chose. */
  predicate ImportReady(r: ImportInfo, types: seq<bv32>, info: AllocateInfo, appNext: seq<ChainStruct>, env: AllocEnv, fd: int)
    requires info.memoryTypeIndex < |types|
  {
    && r.result == Success && r.fd == fd >= 0
    && r.trace.acquired == multiset{Fd(fd)} && r.trace.released == multiset{} && !r.trace.handedOver
    && r.info == info.(memoryTypeIndex := r.info.memoryTypeIndex, next := [ImportFdInfo(HandleTypeDmaBuf, fd)] + appNext)
    && env.fdProperties(fd).result == Success
    && env.selectMemoryType(types[info.memoryTypeIndex] | env.fdProperties(fd).memoryTypeBits)
       == Some(r.info.memoryTypeIndex)
  }

  /** wrapper_get_import_dmabuf_info (lines 77-125): allocate a heap descriptor,
      ask the driver which memory types can import it, select one, and put an
      import structure in front of the application's chain. Every failure is
      VK_ERROR_INVALID_EXTERNAL_HANDLE and closes the descriptor if one exists. */
  function GetImportDmabufInfo(types: seq<bv32>, info: AllocateInfo, appNext: seq<ChainStruct>, env: AllocEnv): (r: ImportInfo)
    requires info.memoryTypeIndex < |types|
    ensures var heapFd := KernelHeap.DmabufAlloc(info.allocationSize, env.heap).fd;
      && (heapFd < 0 ==> ImportFailed(r, info))
      && (heapFd >= 0 ==>
            || ImportReady(r, types, info, appNext, env, heapFd)
            || (ImportFailed(r, info) && |r.trace.calls| > 0 && r.trace.calls[|r.trace.calls| - 1] == Close(heapFd)))
  {
    var heap := KernelHeap.DmabufAlloc(info.allocationSize, env.heap);
    var heapTrace := DmabufTrace(info.allocationSize, env.heap);
    if heap.fd < 0 then ImportInfo(ErrorInvalidExternalHandle, info, -1, heapTrace)
    else ImportHeapFd(types, info, appNext, env, heapTrace, heap.fd)
  }

  /** The import is ready whenever the heap, the properties query and the
      memory-type selection all succeed. */
  lemma ImportReadyWhenSelectable(types: seq<bv32>, info: AllocateInfo, appNext: seq<ChainStruct>, env: AllocEnv, fd: int)
    requires info.memoryTypeIndex < |types| && fd == KernelHeap.DmabufAlloc(info.allocationSize, env.heap).fd
    requires fd >= 0 && env.fdProperties(fd).result == Success
    requires env.selectMemoryType(types[info.memoryTypeIndex] | env.fdProperties(fd).memoryTypeBits).Some?
    ensures ImportReady(GetImportDmabufInfo(types, info, appNext, env), types, info, appNext, env, fd)
  {
    var heapTrace := DmabufTrace(info.allocationSize, env.heap);
    assert GetImportDmabufInfo(types, info, appNext, env) == ImportHeapFd(types, info, appNext, env, heapTrace, fd);
  }

  /** Lines 96-101, the converse: once the heap gave a descriptor, a failed
      properties query fails the import, and the last call closes the descriptor. */
  lemma ImportFailsWithoutProperties(types: seq<bv32>, info: AllocateInfo, appNext: seq<ChainStruct>, env: AllocEnv, fd: int)
    requires info.memoryTypeIndex < |types| && fd == KernelHeap.DmabufAlloc(info.allocationSize, env.heap).fd && fd >= 0
    requires env.fdProperties(fd).result != Success
    ensures var r := GetImportDmabufInfo(types, info, appNext, env);
            ImportFailed(r, info) && |r.trace.calls| > 0 && r.trace.calls[|r.trace.calls| - 1] == Close(fd)
  {
    var heapTrace := DmabufTrace(info.allocationSize, env.heap);
    assert GetImportDmabufInfo(types, info, appNext, env) == ImportHeapFd(types, info, appNext, env, heapTrace, fd);
  }

  /** Lines 104-112, the converse: a memory type the selection cannot find fails
      the import, and the last call closes the descriptor. */
  lemma ImportFailsWithoutType(types: seq<bv32>, info: AllocateInfo, appNext: seq<ChainStruct>, env: AllocEnv, fd: int)
    requires info.memoryTypeIndex < |types| && fd == KernelHeap.DmabufAlloc(info.allocationSize, env.heap).fd && fd >= 0
    requires env.fdProperties(fd).result == Success
    requires env.selectMemoryType(types[info.memoryTypeIndex] | env.fdProperties(fd).memoryTypeBits).None?
    ensures var r := GetImportDmabufInfo(types, info, appNext, env);
            ImportFailed(r, info) && |r.trace.calls| > 0 && r.trace.calls[|r.trace.calls| - 1] == Close(fd)
  {
    var heapTrace := DmabufTrace(info.allocationSize, env.heap);
    assert GetImportDmabufInfo(types, info, appNext, env) == ImportHeapFd(types, info, appNext, env, heapTrace, fd);
  }

  /** Close the heap descriptor: the calls then acquired exactly what they released. */
  function CloseHeapFd(t: Trace, fd: int): (t': Trace)
    requires fd >= 0 && t.acquired == multiset{Fd(fd)} && t.released == multiset{}
    ensures t'.acquired == t'.released && t'.handedOver == t.handedOver
    ensures |t'.calls| > 0 && t'.calls[|t'.calls| - 1] == Close(fd)
  {
    Log(t, Close(fd))
  }

  /** Lines 93-102: the driver's properties of the heap descriptor. */
  function ImportHeapFd(types: seq<bv32>, info: AllocateInfo, appNext: seq<ChainStruct>, env: AllocEnv,
                        heapTrace: Trace, fd: int): (r: ImportInfo)
    requires info.memoryTypeIndex < |types| && fd >= 0
    requires heapTrace.acquired == multiset{Fd(fd)} && heapTrace.released == multiset{} && !heapTrace.handedOver
    ensures || ImportReady(r, types, info, appNext, env, fd)
            || (ImportFailed(r, info) && |r.trace.calls| > 0 && r.trace.calls[|r.trace.calls| - 1] == Close(fd))
    ensures env.fdProperties(fd).result == Success
            && env.selectMemoryType(types[info.memoryTypeIndex] | env.fdProperties(fd).memoryTypeBits).Some? ==>
              ImportReady(r, types, info, appNext, env, fd)
  {
    var queried := Log(heapTrace, GetMemoryFdProperties(HandleTypeDmaBuf, fd));
    if env.fdProperties(fd).result != Success then
      ImportInfo(ErrorInvalidExternalHandle, info, -1, CloseHeapFd(queried, fd))
    else
      SelectImportType(types, info, appNext, env, queried, fd)
  }

  /** Lines 104-124: pick a memory type that can import the descriptor. */
  function SelectImportType(types: seq<bv32>, info: AllocateInfo, appNext: seq<ChainStruct>, env: AllocEnv,
                            queried: Trace, fd: int): (r: ImportInfo)
    requires info.memoryTypeIndex < |types| && fd >= 0 && env.fdProperties(fd).result == Success
    requires queried.acquired == multiset{Fd(fd)} && queried.released == multiset{} && !queried.handedOver
    ensures || ImportReady(r, types, info, appNext, env, fd)
            || (ImportFailed(r, info) && |r.trace.calls| > 0 && r.trace.calls[|r.trace.calls| - 1] == Close(fd))
    ensures env.selectMemoryType(types[info.memoryTypeIndex] | env.fdProperties(fd).memoryTypeBits).Some? ==>
              ImportReady(r, types, info, appNext, env, fd)
  {
    var selected := env.selectMemoryType(types[info.memoryTypeIndex] | env.fdProperties(fd).memoryTypeBits);
    if selected.None? then
      ImportInfo(ErrorInvalidExternalHandle, info, -1, CloseHeapFd(queried, fd))
    else
      ImportSelected(types, info, appNext, env, queried, fd, selected.value)
  }

  /** Lines 114-123: the import structure, with the selected memory type, goes in
      front of the application's chain. */
  function ImportSelected(types: seq<bv32>, info: AllocateInfo, appNext: seq<ChainStruct>, env: AllocEnv,
                          queried: Trace, fd: int, index: nat): (r: ImportInfo)
    requires info.memoryTypeIndex < |types| && fd >= 0 && env.fdProperties(fd).result == Success
    requires queried.acquired == multiset{Fd(fd)} && queried.released == multiset{} && !queried.handedOver
    requires env.selectMemoryType(types[info.memoryTypeIndex] | env.fdProperties(fd).memoryTypeBits) == Some(index)
    ensures ImportReady(r, types, info, appNext, env, fd) && r.info.memoryTypeIndex == index
  {
    ImportInfo(Success, info.(memoryTypeIndex := index, next := [ImportFdInfo(HandleTypeDmaBuf, fd)] + appNext),
               fd, queried)
  }

  /** A failed retry leaves the record as it was, except that a refused import
      resets its descriptor to -1. */
  predicate ResetOrKept(before: MemoryRecord, after: MemoryRecord) {
    after == before || after == before.(dmabufFd := -1)
  }

  /** The retries apply while the allocation fails with the layer's own export. */
  predicate Retrying(n: Negotiation) {
    n.exportRequest.LocalExport? && n.result != Success
  }

  /** Lines 197-220: when the layer's own dma-buf export failed, import a heap
      descriptor instead. The record keeps a duplicate of it; a successful import
      hands the heap descriptor itself to the driver and drops the export request,
      a failed one closes both descriptors. */
  function ImportRetry(types: seq<bv32>, n: Negotiation, appNext: seq<ChainStruct>, env: AllocEnv): (n': Negotiation)
    requires n.info.memoryTypeIndex < |types|
    ensures n'.info.allocationSize == n.info.allocationSize
    ensures Accounted(n, n.info.allocationSize) ==> Accounted(n', n.info.allocationSize)
    ensures Accounted(n, n.info.allocationSize) && n.exportRequest.LocalExport? ==> !Overwrites(n')
    ensures FromDriver(n, env) ==> FromDriver(n', env)
    ensures !Retrying(n) ==> n' == n
    ensures n'.result != Success ==> n'.exportRequest == n.exportRequest && ResetOrKept(n.record, n'.record)
    ensures Retrying(n) && n'.result == Success ==>
              var heapFd := KernelHeap.DmabufAlloc(n.info.allocationSize, env.heap).fd;
              && n'.exportRequest == NoExport && heapFd >= 0
              && n'.info.next == [ImportFdInfo(HandleTypeDmaBuf, heapFd)] + appNext
              && n'.record == n.record.(dmabufFd := env.dup(heapFd))
  {
    if !Retrying(n) then n
    else RetryWithImport(types, n, appNext, env)
  }

  function RetryWithImport(types: seq<bv32>, n: Negotiation, appNext: seq<ChainStruct>, env: AllocEnv): (n': Negotiation)
    requires n.info.memoryTypeIndex < |types| && Retrying(n)
    ensures n'.info.allocationSize == n.info.allocationSize
    ensures Accounted(n, n.info.allocationSize) ==> Accounted(n', n.info.allocationSize) && !Overwrites(n')
    ensures FromDriver(n', env)
    ensures n'.result != Success ==> n'.exportRequest == n.exportRequest && ResetOrKept(n.record, n'.record)
    ensures n'.result == Success ==>
              var heapFd := KernelHeap.DmabufAlloc(n.info.allocationSize, env.heap).fd;
              && n'.exportRequest == NoExport && heapFd >= 0
              && n'.info.next == [ImportFdInfo(HandleTypeDmaBuf, heapFd)] + appNext
              && n'.record == n.record.(dmabufFd := env.dup(heapFd))
  {
    var imp := GetImportDmabufInfo(types, n.info, appNext, env);
    if imp.result != Success then
      JoinBalanced(n.trace, imp.trace, Held(n.record));
      n.(result := imp.result, trace := Join(n.trace, imp.trace))
    else AllocateImported(n, imp, env)
  }

  /** Lines 203-219: duplicate the heap descriptor into the record and allocate
      with the import. */
  function AllocateImported(n: Negotiation, imp: ImportInfo, env: AllocEnv): (n': Negotiation)
    requires Retrying(n) && imp.result == Success && imp.fd >= 0
    requires imp.trace.acquired == multiset{Fd(imp.fd)} && imp.trace.released == multiset{} && !imp.trace.handedOver
    requires imp.info.allocationSize == n.info.allocationSize
    ensures n'.info == imp.info
    ensures Accounted(n, n.info.allocationSize) ==> Accounted(n', n.info.allocationSize) && !Overwrites(n')
    ensures FromDriver(n', env)
    ensures n'.result != Success ==> n'.exportRequest == n.exportRequest && n'.record == n.record.(dmabufFd := -1)
    ensures n'.result == Success ==> n'.exportRequest == NoExport && n'.record == n.record.(dmabufFd := env.dup(imp.fd))
  {
    var d := env.dup(imp.fd);
    var a := env.allocate(imp.info);
    var tried := ImportTried(n.trace, imp, d, a.result);
    if a.result != Success then
      ImportRefused(n, imp, d, a, tried)
    else
      n.(record := n.record.(dmabufFd := d), exportRequest := NoExport, info := imp.info,
         result := a.result, memory := a.memory, trace := tried)
  }

  /** Lines 211-216: the driver refused the import; both descriptors are closed
      and the record's descriptor is reset to -1. */
  function ImportRefused(n: Negotiation, imp: ImportInfo, d: int, a: NativeAllocation, tried: Trace): (n': Negotiation)
    requires imp.fd >= 0 && a.result != Success
    requires imp.info.allocationSize == n.info.allocationSize
    requires tried.acquired == n.trace.acquired + (multiset{Fd(imp.fd)} + FdRef(d))
    requires tried.released == n.trace.released && tried.handedOver == n.trace.handedOver
    ensures n'.info == imp.info && n'.result == a.result
    ensures n'.record == n.record.(dmabufFd := -1) && n'.exportRequest == n.exportRequest
    ensures Accounted(n, n.info.allocationSize) && Retrying(n) ==> Accounted(n', n.info.allocationSize)
  {
    TakeBackBalanced(n.trace.acquired, n.trace.released, Held(n.record), multiset{Fd(imp.fd)} + FdRef(d));
    n.(record := n.record.(dmabufFd := -1), info := imp.info, result := a.result, memory := a.memory,
       trace := CloseImported(tried, imp.fd, d))
  }

  /** Lines 203-209: the import's calls, the duplicate, and the allocation with the import. */
  function ImportTried(t: Trace, imp: ImportInfo, d: int, result: VkResult): (t': Trace)
    requires imp.fd >= 0 && imp.trace.acquired == multiset{Fd(imp.fd)} && imp.trace.released == multiset{}
    ensures t'.acquired == t.acquired + (multiset{Fd(imp.fd)} + FdRef(d)) && t'.released == t.released
    ensures t'.handedOver == (t.handedOver || imp.trace.handedOver || result == Success)
    ensures t'.calls == t.calls + (imp.trace.calls + [DupCloexec(imp.fd, d), NativeAllocateMemory(imp.info, result)])
  {
    Log(Log(Join(t, imp.trace), DupCloexec(imp.fd, d)), NativeAllocateMemory(imp.info, result))
  }

  /** Lines 212-215: close the heap descriptor and the record's duplicate of it. */
  function CloseImported(t: Trace, fd: int, d: int): (t': Trace)
    requires fd >= 0
    ensures t'.acquired == t.acquired && t'.released == t.released + multiset{Fd(fd)} + FdRef(d)
    ensures t'.handedOver == t.handedOver
    ensures t'.calls == t.calls + [Close(fd), Close(d)]
  {
    Log(Log(t, Close(fd)), Close(d))
  }

  /** Lines 222-232: if the allocation is still failing and the export is the
      layer's own, ask for an AHardwareBuffer export instead. The memory-type
      index stays whatever the import retry left in the request. */
  function AhbRetry(n: Negotiation, appNext: seq<ChainStruct>, env: AllocEnv): (n': Negotiation)
    ensures Accounted(n, n.info.allocationSize) ==> Accounted(n', n.info.allocationSize)
    ensures Accounted(n, n.info.allocationSize) && n.exportRequest.LocalExport? ==> !Overwrites(n')
    ensures FromDriver(n, env) ==> FromDriver(n', env)
    ensures !Retrying(n) ==> n' == n
    ensures Retrying(n) ==>
              && n'.exportRequest == LocalExport(HandleTypeAndroidHardwareBuffer)
              && n'.info == n.info.(next := [ExportAllocateInfo(HandleTypeAndroidHardwareBuffer)] + appNext)
              && n'.record == n.record
              && n'.trace.calls == n.trace.calls + [NativeAllocateMemory(n'.info, n'.result)]
  {
    if !Retrying(n) then n
    else
      Attempt(n.(exportRequest := LocalExport(HandleTypeAndroidHardwareBuffer),
                 info := n.info.(next := [ExportAllocateInfo(HandleTypeAndroidHardwareBuffer)] + appNext)), env)
  }

  /** Lines 163-232: the three stages of the negotiation with the driver. Only a
      request whose export is fetched into the slot its import filled
      (ExportOverwritesImport) can end with a fetch that overwrites what the
      record holds. */
  function Negotiate(config: DeviceConfig, info: AllocateInfo, env: AllocEnv): (n: Negotiation)
    requires ValidRequest(config, info)
    ensures Accounted(n, info.allocationSize) && FromDriver(n, env)
    ensures Overwrites(n) ==> ExportOverwritesImport(info)
  {
    var n1 := Attempt(TakeImport(info, env), env);
    var n2 := ImportRetry(config.memoryTypes, n1, info.next, env);
    AhbRetry(n2, info.next, env)
  }

  /** The exports the layer fetches back after the allocation: exactly a dma-buf,
      or exactly an AHardwareBuffer. */
  predicate FetchesDmabuf(e: ExportRequest) { ExportTypes(e) == Some(HandleTypeDmaBuf) }
  predicate FetchesAhb(e: ExportRequest) { ExportTypes(e) == Some(HandleTypeAndroidHardwareBuffer) }

  // ---------------------------------------------------------------------------
  // Freeing

  /** Lines 292-295: give back the record's AHardwareBuffer reference, then its descriptor. */
  function Release(t: Trace, rec: MemoryRecord): (t': Trace)
    ensures t'.acquired == t.acquired && t'.released == t.released + Held(rec) && t'.handedOver == t.handedOver
  {
    ReleaseFd(ReleaseAhb(t, rec.ahb), rec.dmabufFd)
  }

  function ReleaseAhb(t: Trace, ahb: Option<Ahb>): (t': Trace)
    ensures t'.acquired == t.acquired && t'.released == t.released + AhbRefs(ahb) && t'.handedOver == t.handedOver
  {
    if ahb.Some? then Log(t, AhbRelease(ahb.value)) else t
  }

  function ReleaseFd(t: Trace, fd: int): (t': Trace)
    ensures t'.acquired == t.acquired && t'.released == t.released + FdRef(fd) && t'.handedOver == t.handedOver
  {
    if fd != -1 then Log(t, Close(fd)) else t
  }

  /** Lines 290-291: undo a placed mapping that is still in place. */
  function UnmapPlaced(rec: MemoryRecord): (t: Trace)
    ensures t.acquired == multiset{} && t.released == multiset{} && !t.handedOver
  {
    if rec.mapAddress != Null && rec.mapSize != 0 then Log(NoCalls, Munmap(rec.mapAddress, rec.mapSize)) else NoCalls
  }

  datatype FreeOutput = FreeOutput(state: MemoryState, trace: Trace)

  /** The handle is one the layer tracks (the null handle never is). */
  predicate Tracked(state: MemoryState, memory: Handle) {
    memory != NullHandle && memory in state.records
  }

  /** wrapper_FreeMemory (lines 277-303): for a tracked handle, unmap a placed
      mapping, give back what the record holds and drop the record; in every case
      call the driver's vkFreeMemory. */
  function FreeMemory(state: MemoryState, memory: Handle): (out: FreeOutput)
    ensures |out.trace.calls| >= 1 && out.trace.calls[|out.trace.calls| - 1] == NativeFreeMemory(memory)
    ensures out.trace.acquired == multiset{} && !out.trace.handedOver
    ensures !Tracked(state, memory) ==>
              out.state == state && out.trace.calls == [NativeFreeMemory(memory)] && out.trace.released == multiset{}
    ensures Tracked(state, memory) ==>
              && out.state.records == state.records - {memory}
              && out.state.live == state.live - Held(state.records[memory])
              && out.trace.released == Held(state.records[memory])
  {
    if Tracked(state, memory) then FreeTracked(state, memory)
    else FreeOutput(state, Log(NoCalls, NativeFreeMemory(memory)))
  }

  function FreeTracked(state: MemoryState, memory: Handle): (out: FreeOutput)
    requires memory in state.records
    ensures |out.trace.calls| >= 1 && out.trace.calls[|out.trace.calls| - 1] == NativeFreeMemory(memory)
    ensures out.trace.acquired == multiset{} && !out.trace.handedOver
    ensures out.state.records == state.records - {memory}
    ensures out.state.live == state.live - Held(state.records[memory])
    ensures out.trace.released == Held(state.records[memory])
  {
    var rec := state.records[memory];
    FreeOutput(MemoryState(state.records - {memory}, state.live - Held(rec)),
               Log(Release(UnmapPlaced(rec), rec), NativeFreeMemory(memory)))
  }

  // ---------------------------------------------------------------------------
  // Concluding an allocation

  /** What *pMemory holds afterwards (None: not written), the result, the registry, and the trace. */
  datatype AllocOutput = AllocOutput(result: VkResult, memory: Option<Handle>, state: MemoryState, trace: Trace)

  /** Lines 234-240: a failed negotiation registers nothing and gives back what
      the record holds. */
  predicate Abandoned(state: MemoryState, n: Negotiation, out: AllocOutput) {
    && out.result == n.result && out.memory == Some(n.memory) && out.state == state
    && out.trace.acquired == n.trace.acquired && out.trace.handedOver == n.trace.handedOver
    && out.trace.released == n.trace.released + Held(n.record)
  }

  /** Lines 241-266: the record is registered under the driver's handle, with
      what the fetch returned. Unless the fetch overwrote what the record held,
      the registry's ledger grows by exactly what the registered record holds,
      and that is all the calls acquired beyond the record's first holdings. */
  predicate Registered(state: MemoryState, n: Negotiation, out: AllocOutput) {
    && out.result == Success && out.memory == Some(n.memory) && n.memory in out.state.records
    && out.state.records == state.records[n.memory := out.state.records[n.memory]]
    && var rec := out.state.records[n.memory];
    && rec.allocSize == n.record.allocSize && rec.mapAddress == n.record.mapAddress && rec.mapSize == n.record.mapSize
    && out.trace.released == n.trace.released && out.trace.handedOver == n.trace.handedOver
    && (!Overwrites(n) ==>
          out.state.live == state.live + Held(rec) && out.trace.acquired + Held(n.record) == n.trace.acquired + Held(rec))
  }

  /** Lines 268-272: the fetch failed, so the new object is freed again through
      wrapper_FreeMemory and *pMemory is nulled. */
  predicate FetchFailed(state: MemoryState, n: Negotiation, out: AllocOutput) {
    && out.result != Success && out.memory == Some(NullHandle)
    && out.trace.acquired == n.trace.acquired && out.trace.handedOver == n.trace.handedOver
    && |out.trace.calls| > 0 && out.trace.calls[|out.trace.calls| - 1] == NativeFreeMemory(n.memory)
    && (n.memory != NullHandle ==>
          && out.state.records == state.records - {n.memory} && out.state.live == state.live
          && out.trace.released == n.trace.released + Held(n.record))
  }

  /** Lines 234-274: on failure give back what the record holds and register
      nothing; on success register the record, then fetch the exported descriptor
      or AHardwareBuffer if an export of exactly that type was asked for. A failed
      fetch frees the new memory object again and reports the fetch's error. */
  function Conclude(state: MemoryState, n: Negotiation, env: AllocEnv): (out: AllocOutput)
    ensures n.result != Success ==> Abandoned(state, n, out)
    ensures n.result == Success ==> Registered(state, n, out) || FetchFailed(state, n, out)
    ensures n.result == Success && !FetchesDmabuf(n.exportRequest) && !FetchesAhb(n.exportRequest) ==>
              out.result == Success && out.state.records[n.memory] == n.record && out.trace == n.trace
    ensures n.result == Success && FetchesDmabuf(n.exportRequest) ==>
              var q := env.getMemoryFd(n.memory);
              && (q.result == Success ==> out.result == Success && out.state.records[n.memory] == n.record.(dmabufFd := q.fd))
              && (q.result != Success ==> out.result == q.result)
    ensures n.result == Success && FetchesAhb(n.exportRequest) ==>
              var q := env.getMemoryAhb(n.memory);
              && (q.result == Success ==> out.result == Success && out.state.records[n.memory] == n.record.(ahb := Some(q.buffer)))
              && (q.result != Success ==> out.result == q.result)
  {
    if n.result != Success then AllocOutput(n.result, Some(n.memory), state, Release(n.trace, n.record))
    else Register(state, n, env)
  }

  function Register(state: MemoryState, n: Negotiation, env: AllocEnv): (out: AllocOutput)
    requires n.result == Success
    ensures Registered(state, n, out) || FetchFailed(state, n, out)
    ensures !FetchesDmabuf(n.exportRequest) && !FetchesAhb(n.exportRequest) ==>
              out.result == Success && out.state.records[n.memory] == n.record && out.trace == n.trace
    ensures FetchesDmabuf(n.exportRequest) ==>
              var q := env.getMemoryFd(n.memory);
              && (q.result == Success ==> out.result == Success && out.state.records[n.memory] == n.record.(dmabufFd := q.fd))
              && (q.result != Success ==> out.result == q.result)
    ensures FetchesAhb(n.exportRequest) ==>
              var q := env.getMemoryAhb(n.memory);
              && (q.result == Success ==> out.result == Success && out.state.records[n.memory] == n.record.(ahb := Some(q.buffer)))
              && (q.result != Success ==> out.result == q.result)
  {
    if FetchesDmabuf(n.exportRequest) then FetchFd(state, n, env) else RegisterOther(state, n, env)
  }

  function RegisterOther(state: MemoryState, n: Negotiation, env: AllocEnv): (out: AllocOutput)
    requires n.result == Success && !FetchesDmabuf(n.exportRequest)
    ensures Registered(state, n, out) || FetchFailed(state, n, out)
    ensures !FetchesAhb(n.exportRequest) ==>
              out.result == Success && out.state.records[n.memory] == n.record && out.trace == n.trace
    ensures FetchesAhb(n.exportRequest) ==>
              var q := env.getMemoryAhb(n.memory);
              && (q.result == Success ==> out.result == Success && out.state.records[n.memory] == n.record.(ahb := Some(q.buffer)))
              && (q.result != Success ==> out.result == q.result)
  {
    if FetchesAhb(n.exportRequest) then FetchAhb(state, n, env)
    else RegisterFetched(state, n, n.record, multiset{}, n.trace)
  }

  /** Lines 241-266: register the record, completed with what the fetch
      returned (`fetched`), and take those resources into the ledger. */
  function RegisterFetched(state: MemoryState, n: Negotiation, rec: MemoryRecord, fetched: multiset<Resource>, t: Trace): (out: AllocOutput)
    requires n.result == Success
    requires rec.allocSize == n.record.allocSize && rec.mapAddress == n.record.mapAddress && rec.mapSize == n.record.mapSize
    requires t.acquired == n.trace.acquired + fetched && t.released == n.trace.released && t.handedOver == n.trace.handedOver
    requires !Overwrites(n) ==> Held(rec) == Held(n.record) + fetched
    ensures Registered(state, n, out) && out.state.records[n.memory] == rec && out.trace == t
  {
    AllocOutput(Success, Some(n.memory), MemoryState(state.records[n.memory := rec], state.live + Held(n.record) + fetched), t)
  }

  /** Lines 248-258: vkGetMemoryFdKHR writes straight into the record's descriptor. */
  function FetchFd(state: MemoryState, n: Negotiation, env: AllocEnv): (out: AllocOutput)
    requires n.result == Success && FetchesDmabuf(n.exportRequest)
    ensures Registered(state, n, out) || FetchFailed(state, n, out)
    ensures var q := env.getMemoryFd(n.memory);
            && (q.result == Success ==> out.result == Success && out.state.records[n.memory] == n.record.(dmabufFd := q.fd))
            && (q.result != Success ==> out.result == q.result)
  {
    var q := env.getMemoryFd(n.memory);
    var t := Log(n.trace, GetMemoryFd(n.memory, HandleTypeDmaBuf, q.result, q.fd));
    if q.result == Success then
      RegisterFetched(state, n, n.record.(dmabufFd := q.fd), FdRef(q.fd), t)
    else
      QueryFailed(state, n, q.result, t)
  }

  /** Lines 259-266: vkGetMemoryAndroidHardwareBufferANDROID writes straight into
      the record's AHardwareBuffer. */
  function FetchAhb(state: MemoryState, n: Negotiation, env: AllocEnv): (out: AllocOutput)
    requires n.result == Success && FetchesAhb(n.exportRequest)
    ensures Registered(state, n, out) || FetchFailed(state, n, out)
    ensures var q := env.getMemoryAhb(n.memory);
            && (q.result == Success ==> out.result == Success && out.state.records[n.memory] == n.record.(ahb := Some(q.buffer)))
            && (q.result != Success ==> out.result == q.result)
  {
    var q := env.getMemoryAhb(n.memory);
    var t := Log(n.trace, GetMemoryAhb(n.memory, q.result, q.buffer));
    if q.result == Success then
      RegisterFetched(state, n, n.record.(ahb := Some(q.buffer)), multiset{AhbRef(q.buffer)}, t)
    else
      QueryFailed(state, n, q.result, t)
  }

  /** Lines 268-272: free the just-registered object, null *pMemory, report the error. */
  function QueryFailed(state: MemoryState, n: Negotiation, err: VkResult, t: Trace): (out: AllocOutput)
    requires err != Success
    requires t.acquired == n.trace.acquired && t.released == n.trace.released && t.handedOver == n.trace.handedOver
    ensures out.result == err
    ensures FetchFailed(state, n, out)
  {
    var freed := FreeRegistered(state, n);
    FreedAfterQuery(state, n, t, freed);
    AllocOutput(err, Some(NullHandle), freed.state, Join(t, freed.trace))
  }

  /** The query's trace followed by the free gives back exactly what the record held. */
  lemma FreedAfterQuery(state: MemoryState, n: Negotiation, t: Trace, freed: FreeOutput)
    requires t.acquired == n.trace.acquired && t.released == n.trace.released && t.handedOver == n.trace.handedOver
    requires |freed.trace.calls| >= 1 && freed.trace.calls[|freed.trace.calls| - 1] == NativeFreeMemory(n.memory)
    requires freed.trace.acquired == multiset{} && !freed.trace.handedOver
    requires n.memory != NullHandle ==>
               && freed.state.records == state.records - {n.memory} && freed.state.live == state.live
               && freed.trace.released == Held(n.record)
    ensures var j := Join(t, freed.trace);
            && j.acquired == n.trace.acquired && j.handedOver == n.trace.handedOver
            && |j.calls| > 0 && j.calls[|j.calls| - 1] == NativeFreeMemory(n.memory)
            && (n.memory != NullHandle ==> j.released == n.trace.released + Held(n.record))
  {
    JoinEndsWith(t, freed.trace, NativeFreeMemory(n.memory));
    assert t.acquired + multiset{} == t.acquired;
  }

  /** Joining keeps the last call of the trace joined on. */
  lemma JoinEndsWith(t: Trace, u: Trace, c: Call)
    requires |u.calls| >= 1 && u.calls[|u.calls| - 1] == c
    ensures var j := Join(t, u); |j.calls| >= 1 && j.calls[|j.calls| - 1] == c
  {
  }

  /** wrapper_FreeMemory right after the record was registered: the registry
      and its ledger are back where they were before the registration. */
  function FreeRegistered(state: MemoryState, n: Negotiation): (out: FreeOutput)
    ensures |out.trace.calls| >= 1 && out.trace.calls[|out.trace.calls| - 1] == NativeFreeMemory(n.memory)
    ensures out.trace.acquired == multiset{} && !out.trace.handedOver
    ensures n.memory != NullHandle ==>
              && out.state.records == state.records - {n.memory} && out.state.live == state.live
              && out.trace.released == Held(n.record)
  {
    var inserted := MemoryState(state.records[n.memory := n.record], state.live + Held(n.record));
    assert inserted.records - {n.memory} == state.records - {n.memory};
    assert inserted.live - Held(n.record) == state.live;
    FreeMemory(inserted, n.memory)
  }

  // ---------------------------------------------------------------------------
  // vkAllocateMemory

  /** wrapper_AllocateMemory (lines 127-275). */
  function AllocateMemory(config: DeviceConfig, state: MemoryState, info: AllocateInfo, env: AllocEnv): (out: AllocOutput)
    requires ValidRequest(config, info)
    ensures !Intercepts(config, info) ==>
              && out.state == state
              && out.trace.calls == [NativeAllocateMemory(info, out.result)]
              && out.result == env.allocate(info).result
              && out.memory == Some(env.allocate(info).memory)
    ensures Intercepts(config, info) && !env.recordAllocated ==>
              out.result == ErrorOutOfHostMemory && out.state == state && out.trace == NoCalls && out.memory == None
    ensures out.result != Success && NonNullOnSuccess(env) ==>
              && out.state.records.Keys <= state.records.Keys
              && (forall h :: h in out.state.records ==> out.state.records[h] == state.records[h])
              && out.state.live == state.live
    ensures out.result != Success && !out.trace.handedOver ==> out.trace.acquired == out.trace.released
    ensures Intercepts(config, info) && out.result == Success ==>
              && out.memory.Some? && out.memory.value in out.state.records
              && out.state.records == state.records[out.memory.value := out.state.records[out.memory.value]]
              && out.state.records[out.memory.value].allocSize == info.allocationSize
              && out.state.records[out.memory.value].mapAddress == Null
              && out.state.records[out.memory.value].mapSize == 0
              && (!ExportOverwritesImport(info) ==>
                    out.state.live == state.live + Held(out.state.records[out.memory.value]))
  {
    if !Intercepts(config, info) then
      var a := env.allocate(info);
      AllocOutput(a.result, Some(a.memory), state, Log(NoCalls, NativeAllocateMemory(info, a.result)))
    else
      InterceptAllocation(config, state, info, env)
  }

  /** Lines 146-275: the intercepted path. */
  function InterceptAllocation(config: DeviceConfig, state: MemoryState, info: AllocateInfo, env: AllocEnv): (out: AllocOutput)
    requires ValidRequest(config, info) && Intercepts(config, info)
    ensures !env.recordAllocated ==>
              out.result == ErrorOutOfHostMemory && out.state == state && out.trace == NoCalls && out.memory == None
    ensures out.result != Success && NonNullOnSuccess(env) ==>
              && out.state.records.Keys <= state.records.Keys
              && (forall h :: h in out.state.records ==> out.state.records[h] == state.records[h])
              && out.state.live == state.live
    ensures out.result != Success && !out.trace.handedOver ==> out.trace.acquired == out.trace.released
    ensures out.result == Success ==>
              && out.memory.Some? && out.memory.value in out.state.records
              && out.state.records == state.records[out.memory.value := out.state.records[out.memory.value]]
              && out.state.records[out.memory.value].allocSize == info.allocationSize
              && out.state.records[out.memory.value].mapAddress == Null
              && out.state.records[out.memory.value].mapSize == 0
              && (!ExportOverwritesImport(info) ==>
                    out.state.live == state.live + Held(out.state.records[out.memory.value]))
  {
    if !env.recordAllocated then AllocOutput(ErrorOutOfHostMemory, None, state, NoCalls)
    else
      var n := Negotiate(config, info, env);
      ConcludeFailureFrame(state, n, env);
      ConcludeBalance(state, n, env, info.allocationSize);
      ConcludeRegisters(state, n, env, info.allocationSize);
      Conclude(state, n, env)
  }

  /** A failed conclusion registers nothing new and leaves the ledger alone. */
  lemma ConcludeFailureFrame(state: MemoryState, n: Negotiation, env: AllocEnv)
    requires FromDriver(n, env)
    ensures var out := Conclude(state, n, env);
            out.result != Success && NonNullOnSuccess(env) ==>
              && out.state.records.Keys <= state.records.Keys
              && (forall h :: h in out.state.records ==> out.state.records[h] == state.records[h])
              && out.state.live == state.live
  {
    var out := Conclude(state, n, env);
    if out.result != Success && n.result == Success && NonNullOnSuccess(env) {
      assert env.allocate(n.info).memory != NullHandle;
      assert FetchFailed(state, n, out);
    }
  }

  /** A failed conclusion without a native success gives back what it took. */
  lemma ConcludeBalance(state: MemoryState, n: Negotiation, env: AllocEnv, size: nat)
    requires Accounted(n, size) && FromDriver(n, env)
    ensures var out := Conclude(state, n, env);
            out.result != Success && !out.trace.handedOver ==> out.trace.acquired == out.trace.released
  {
    var out := Conclude(state, n, env);
    if out.result != Success && n.result != Success {
      assert Abandoned(state, n, out);
    }
  }

  /** A successful conclusion registers an unmapped record of the requested size. */
  lemma ConcludeRegisters(state: MemoryState, n: Negotiation, env: AllocEnv, size: nat)
    requires Accounted(n, size)
    ensures var out := Conclude(state, n, env);
            out.result == Success ==>
              && out.memory.Some? && out.memory.value in out.state.records
              && out.state.records == state.records[out.memory.value := out.state.records[out.memory.value]]
              && out.state.records[out.memory.value].allocSize == size
              && out.state.records[out.memory.value].mapAddress == Null
              && out.state.records[out.memory.value].mapSize == 0
              && (!Overwrites(n) ==> out.state.live == state.live + Held(out.state.records[out.memory.value]))
  {
    var out := Conclude(state, n, env);
    if out.result == Success {
      assert Registered(state, n, out);
    }
  }
}

=== FILE: kernel_heap.dfy ===
/** Shareable memory straight from the kernel: the dma-heap allocation ioctl, its
    legacy ION fallback, and the retry loop that hides interrupted ioctls. The
    kernel itself is an oracle: the sequence of answers it gives to successive
    issues of the same ioctl. */
module KernelHeap {

  const EINTR: int := 4
  const EAGAIN: int := 11
  const O_RDWR: bv32 := 0x2
  const O_CLOEXEC: bv32 := 0x80000
  /** ION_HEAP_SYSTEM | ION_SYSTEM_HEAP_ID: bits 0 and 25 of the heap mask. */
  const IonSystemHeapMask: bv32 := 0x0200_0001
  /** ION allocation flags: 0, uncached. */
  const IonUncached: bv32 := 0

  /** A file descriptor number as the kernel hands it out. */
  type Descriptor = x: int | 0 <= x < 0x8000_0000

  /** One answer of the kernel to one ioctl: the return value, errno, and the
      descriptor written into the request's `fd` field. */
  datatype IoctlAnswer = IoctlAnswer(ret: int, errno: int, fd: Descriptor)

  /** The two allocation requests, with the fields the layer fills in. */
  datatype HeapRequest =
    | DmaHeapAllocation(len: nat, fdFlags: bv32)
    | IonAllocation(len: nat, heapIdMask: bv32, flags: bv32)

  /** One issued ioctl and the answer it got. */
  datatype Ioctl = Ioctl(request: HeapRequest, answer: IoctlAnswer)

  /** The kernel's answers to successive issues of one ioctl, ending with one that
      is not interrupted (answers after it are never asked for). A kernel that
      keeps answering EINTR or EAGAIN forever is not modelled: safe_ioctl would spin. */
  type KernelAnswers = a: seq<IoctlAnswer> | |a| > 0 && !Interrupted(a[|a| - 1])
    witness [IoctlAnswer(0, 0, 0)]

  /** The kernel's answers to the dma-heap ioctl and to the ION ioctl, in issue order. */
  datatype HeapAnswers = HeapAnswers(dmaHeap: KernelAnswers, ion: KernelAnswers)

  /** What a heap allocation returns (a descriptor, or -1) and the ioctls it issued. */
  datatype HeapAlloc = HeapAlloc(fd: int, ioctls: seq<Ioctl>)

  /** An answer safe_ioctl swallows and retries: -1 with EINTR or EAGAIN. */
  predicate Interrupted(a: IoctlAnswer) {
    a.ret == -1 && (a.errno == EINTR || a.errno == EAGAIN)
  }

  /** The kernel eventually gives an answer that is not interrupted; otherwise
      safe_ioctl never returns. */
  predicate Settles(answers: seq<IoctlAnswer>) {
    exists k :: 0 <= k < |answers| && !Interrupted(answers[k])
  }

  lemma KernelAnswersSettle(answers: KernelAnswers)
    ensures Settles(answers)
  {
    assert !Interrupted(answers[|answers| - 1]);
  }

  lemma SettlesTail(answers: seq<IoctlAnswer>)
    requires Settles(answers) && Interrupted(answers[0])
    ensures Settles(answers[1..])
  {
    var k :| 0 <= k < |answers| && !Interrupted(answers[k]);
    assert answers[1..][k - 1] == answers[k];
  }

  /** safe_ioctl: the number of ioctls issued before it returns. The answer it
      returns is the first one that is not interrupted; every earlier one was. */
  function SafeIoctl(answers: seq<IoctlAnswer>): (issued: nat)
    requires Settles(answers)
    ensures 1 <= issued <= |answers|
    ensures !Interrupted(answers[issued - 1])
    ensures forall j :: 0 <= j < issued - 1 ==> Interrupted(answers[j])
  {
    if !Interrupted(answers[0]) then 1
    else
      SettlesTail(answers);
      1 + SafeIoctl(answers[1..])
  }

  /** The answer safe_ioctl returns. */
  function SettledAnswer(answers: KernelAnswers): IoctlAnswer
  {
    KernelAnswersSettle(answers);
    answers[SafeIoctl(answers) - 1]
  }

  /** Issue `request` through safe_ioctl; a negative return becomes -1, otherwise
      the descriptor the kernel wrote is returned. Shared by dma_heap_alloc and
      ion_heap_alloc. */
  function HeapIoctl(request: HeapRequest, answers: KernelAnswers): (r: HeapAlloc)
    ensures |r.ioctls| >= 1 && (KernelAnswersSettle(answers); |r.ioctls| == SafeIoctl(answers))
    ensures forall i :: 0 <= i < |r.ioctls| ==> r.ioctls[i] == Ioctl(request, answers[i])
    ensures r.fd == -1 || (r.fd >= 0 && SettledAnswer(answers).ret >= 0)
    ensures r.fd < 0 <==> SettledAnswer(answers).ret < 0
    ensures r.fd >= 0 ==> r.fd == SettledAnswer(answers).fd
  {
    KernelAnswersSettle(answers);
    var issued := SafeIoctl(answers);
    var ioctls := seq(issued, i requires 0 <= i < issued => Ioctl(request, answers[i]));
    if answers[issued - 1].ret < 0 then HeapAlloc(-1, ioctls)
    else HeapAlloc(answers[issued - 1].fd, ioctls)
  }

  function DmaHeapAlloc(size: nat, answers: KernelAnswers): HeapAlloc
  {
    HeapIoctl(DmaHeapAllocation(size, O_RDWR | O_CLOEXEC), answers)
  }

  function IonHeapAlloc(size: nat, answers: KernelAnswers): HeapAlloc
  {
    HeapIoctl(IonAllocation(size, IonSystemHeapMask, IonUncached), answers)
  }

  /** wrapper_dmabuf_alloc: dma-heap first; ION only when dma-heap returned a
      negative value. The result is negative only when both failed. */
  function DmabufAlloc(size: nat, h: HeapAnswers): (r: HeapAlloc)
    ensures |r.ioctls| >= 1
    ensures r.fd < 0 <==> SettledAnswer(h.dmaHeap).ret < 0 && SettledAnswer(h.ion).ret < 0
    ensures r.fd == -1 || r.fd >= 0
    ensures SettledAnswer(h.dmaHeap).ret >= 0 ==> r.fd == SettledAnswer(h.dmaHeap).fd
    ensures SettledAnswer(h.dmaHeap).ret < 0 && r.fd >= 0 ==> r.fd == SettledAnswer(h.ion).fd
  {
    var dma := DmaHeapAlloc(size, h.dmaHeap);
    if dma.fd < 0 then
      var ion := IonHeapAlloc(size, h.ion);
      HeapAlloc(ion.fd, dma.ioctls + ion.ioctls)
    else dma
  }

  /** The ioctls wrapper_dmabuf_alloc issues: the dma-heap request first, with
      O_RDWR | O_CLOEXEC; nothing but that and the ION request (system heap, no
      flags); and an ION request exactly when the dma-heap one failed. */
  lemma DmabufAllocOrder(size: nat, h: HeapAnswers)
    ensures var r := DmabufAlloc(size, h);
            && r.ioctls[0].request == DmaHeapAllocation(size, O_RDWR | O_CLOEXEC)
            && (forall i :: 0 <= i < |r.ioctls| ==>
                  r.ioctls[i].request in {DmaHeapAllocation(size, O_RDWR | O_CLOEXEC),
                                          IonAllocation(size, IonSystemHeapMask, IonUncached)})
            && ((exists i :: 0 <= i < |r.ioctls| && r.ioctls[i].request.IonAllocation?)
                <==> SettledAnswer(h.dmaHeap).ret < 0)
  {
    var dma := DmaHeapAlloc(size, h.dmaHeap);
    if dma.fd < 0 {
      var ion := IonHeapAlloc(size, h.ion);
      assert (dma.ioctls + ion.ioctls)[|dma.ioctls|] == ion.ioctls[0];
    }
  }
}

=== FILE: memory_map.dfy ===
/** Placed vkMapMemory2KHR and vkUnmapMemory2KHR over the registry of intercepted
    allocations. */
module MemoryMap {
  import opened Wrappers
  import opened Vk
  import opened MemoryRecords
  import opened DeviceMemory

  // ---------------------------------------------------------------------------
  // Placed mapping

  /** VkMemoryMapInfoKHR: `placedAddress` is the pPlacedAddress of a
      VkMemoryMapPlacedInfoEXT in the chain, if there is one. */
  datatype MapInfo = MapInfo(memory: Handle, offset: nat, size: nat, flags: bv32, placedAddress: Option<Address>)

  datatype NativeMapping = NativeMapping(result: VkResult, data: Address)

  datatype MapEnv = MapEnv(
    nativeMap: (Handle, nat, nat) -> NativeMapping,  // the driver's vkMapMemory with flags 0
    nativeHandleFds: Ahb -> seq<int>,                // the fds of AHardwareBuffer_getNativeHandle
    lseekEnd: int -> int,                            // lseek(fd, 0, SEEK_END)
    mmap: (Address, nat, int) -> Address)            // mmap(addr, len, RW, MAP_SHARED | MAP_FIXED, fd, 0)

  /** What *ppData holds afterwards (None: not written), the result, the registry, and the trace. */
  datatype MapOutput = MapOutput(result: VkResult, data: Option<Address>, state: MemoryState, calls: seq<Call>)

  /** The conversion of an off_t to size_t or VkDeviceSize: -1 becomes 2^64 - 1. */
  function ToSize(offset: int): nat {
    offset % 0x1_0000_0000_0000_0000
  }

  /** The loop of lines 354-359 from index `from` on: the first descriptor whose
      end-of-file offset, as a size_t, is at least `allocSize`. */
  function FirstLargeEnough(fds: seq<int>, from: nat, allocSize: nat, lseekEnd: int -> int): (r: Option<nat>)
    requires from <= |fds|
    ensures r.Some? ==> from <= r.value < |fds| && ToSize(lseekEnd(fds[r.value])) >= allocSize
    ensures r.Some? ==> forall j :: from <= j < r.value ==> ToSize(lseekEnd(fds[j])) < allocSize
    ensures r.None? ==> forall j :: from <= j < |fds| ==> ToSize(lseekEnd(fds[j])) < allocSize
    decreases |fds| - from
  {
    if from == |fds| then None
    else if ToSize(lseekEnd(fds[from])) >= allocSize then Some(from)
    else FirstLargeEnough(fds, from + 1, allocSize, lseekEnd)
  }

  /** The descriptor to map and the calls made to find it. */
  datatype Backing = Backing(fd: int, calls: seq<Call>)

  function LseekCalls(fds: seq<int>, count: nat, lseekEnd: int -> int): (calls: seq<Call>)
    requires count <= |fds|
    ensures |calls| == count
    ensures forall j :: 0 <= j < count ==> calls[j] == LseekEnd(fds[j], lseekEnd(fds[j]))
  {
    seq(count, j requires 0 <= j < count => LseekEnd(fds[j], lseekEnd(fds[j])))
  }

  /** Lines 346-364: a record holding an AHardwareBuffer maps the first
      descriptor of its native handle that is large enough; otherwise the record's
      own descriptor is mapped. */
  function BackingFd(rec: MemoryRecord, env: MapEnv): (b: Backing)
    ensures rec.ahb.None? ==> b == Backing(rec.dmabufFd, [])
    ensures rec.ahb.Some? ==>
              var fds := env.nativeHandleFds(rec.ahb.value);
              var idx := FirstLargeEnough(fds, 0, rec.allocSize, env.lseekEnd);
              && |b.calls| >= 1 && b.calls[0] == AhbGetNativeHandle(rec.ahb.value)
              && (idx.Some? ==> b.fd == fds[idx.value] && |b.calls| == idx.value + 2)
              && (idx.None? ==> b.fd == -1 && |b.calls| == |fds| + 1)
              && forall j :: 1 <= j < |b.calls| ==> b.calls[j] == LseekEnd(fds[j - 1], env.lseekEnd(fds[j - 1]))
  {
    if rec.ahb.None? then Backing(rec.dmabufFd, [])
    else
      var fds := env.nativeHandleFds(rec.ahb.value);
      match FirstLargeEnough(fds, 0, rec.allocSize, env.lseekEnd)
      case Some(idx) => Backing(fds[idx], [AhbGetNativeHandle(rec.ahb.value)] + LseekCalls(fds, idx + 1, env.lseekEnd))
      case None => Backing(-1, [AhbGetNativeHandle(rec.ahb.value)] + LseekCalls(fds, |fds|, env.lseekEnd))
  }

  /** Lines 366-370: the mapped length. WHOLE_SIZE means the allocation size,
      or the descriptor's end-of-file offset when the size is 0. */
  function MapLength(rec: MemoryRecord, size: nat, fd: int, lseekEnd: int -> int): (len: nat)
    ensures size != WholeSize ==> len == size
    ensures size == WholeSize && rec.allocSize > 0 ==> len == rec.allocSize
    ensures size == WholeSize && rec.allocSize == 0 ==> len == ToSize(lseekEnd(fd)) && len < 0x1_0000_0000_0000_0000
  {
    if size == WholeSize then (if rec.allocSize > 0 then rec.allocSize else ToSize(lseekEnd(fd)))
    else size
  }

  /** The placed address a request carries: only with VK_MEMORY_MAP_PLACED_BIT_EXT set. */
  function PlacedAddress(m: MapInfo): Option<Address> {
    if m.flags & MemoryMapPlacedBit != 0 then m.placedAddress else None
  }

  /** Only the map state of the record under `memory` may differ between the two registries. */
  predicate OnlyMapStateChanged(s: MemoryState, s': MemoryState, memory: Handle)
    requires memory in s.records
  {
    && s'.live == s.live
    && s'.records.Keys == s.records.Keys
    && (forall h :: h in s.records && h != memory ==> s'.records[h] == s.records[h])
    && s'.records[memory].allocSize == s.records[memory].allocSize
    && s'.records[memory].dmabufFd == s.records[memory].dmabufFd
    && s'.records[memory].ahb == s.records[memory].ahb
  }

  /** The request is placed and names a tracked handle: only then does the layer act itself. */
  predicate PlacesTracked(state: MemoryState, m: MapInfo) {
    PlacedAddress(m).Some? && m.memory != NullHandle && m.memory in state.records
  }

  /** wrapper_MapMemory2KHR (lines 305-387). */
  function MapMemory2(state: MemoryState, m: MapInfo, env: MapEnv): (out: MapOutput)
    ensures !PlacesTracked(state, m) ==>
              && out.state == state
              && out.calls == [NativeMapMemory(m.memory, m.offset, m.size, 0)]
              && out.result == env.nativeMap(m.memory, m.offset, m.size).result
              && out.data == Some(env.nativeMap(m.memory, m.offset, m.size).data)
    ensures PlacesTracked(state, m) ==> OnlyMapStateChanged(state, out.state, m.memory)
    ensures PlacesTracked(state, m) && state.records[m.memory].mapAddress != Null ==>
              var rec := state.records[m.memory];
              && out.state == state && out.calls == []
              && (PlacedAddress(m).value == rec.mapAddress ==>
                    out.result == Success && out.data == Some(rec.mapAddress + m.offset))
              && (PlacedAddress(m).value != rec.mapAddress ==>
                    out.result == ErrorMemoryMapFailed && out.data == None)
    ensures PlacesTracked(state, m) && state.records[m.memory].mapAddress == Null ==>
              var rec := state.records[m.memory];
              var b := BackingFd(rec, env);
              var len := MapLength(rec, m.size, b.fd, env.lseekEnd);
              var mapped := env.mmap(PlacedAddress(m).value, len, b.fd);
              && |out.calls| >= 1
              && out.calls[|out.calls| - 1] == MmapShared(PlacedAddress(m).value, len, b.fd, mapped)
              && (mapped == MapFailed ==>
                    && out.result == ErrorMemoryMapFailed && out.data == None
                    && out.state.records[m.memory] == rec.(mapAddress := Null, mapSize := 0))
              && (mapped != MapFailed ==>
                    && out.result == Success && out.data == Some(mapped + m.offset)
                    && out.state.records[m.memory] == rec.(mapAddress := mapped, mapSize := len))
  {
    if !PlacesTracked(state, m) then
      var r := env.nativeMap(m.memory, m.offset, m.size);
      MapOutput(r.result, Some(r.data), state, [NativeMapMemory(m.memory, m.offset, m.size, 0)])
    else if state.records[m.memory].mapAddress != Null then
      MapAgain(state, m)
    else
      MapFresh(state, m, env)
  }

  /** Lines 333-341: a mapping already exists; only the same placed address is accepted. */
  function MapAgain(state: MemoryState, m: MapInfo): (out: MapOutput)
    requires PlacesTracked(state, m) && state.records[m.memory].mapAddress != Null
    ensures out.state == state && out.calls == []
    ensures PlacedAddress(m).value == state.records[m.memory].mapAddress ==>
              out.result == Success && out.data == Some(state.records[m.memory].mapAddress + m.offset)
    ensures PlacedAddress(m).value != state.records[m.memory].mapAddress ==>
              out.result == ErrorMemoryMapFailed && out.data == None
  {
    var rec := state.records[m.memory];
    if PlacedAddress(m).value != rec.mapAddress then MapOutput(ErrorMemoryMapFailed, None, state, [])
    else MapOutput(Success, Some(rec.mapAddress + m.offset), state, [])
  }

  /** Lines 342-386: find the descriptor to map, size the mapping, and mmap it
      shared at the placed address. A failed mmap leaves the record unmapped. */
  function MapFresh(state: MemoryState, m: MapInfo, env: MapEnv): (out: MapOutput)
    requires PlacesTracked(state, m) && state.records[m.memory].mapAddress == Null
    ensures OnlyMapStateChanged(state, out.state, m.memory)
    ensures var rec := state.records[m.memory];
            var b := BackingFd(rec, env);
            var len := MapLength(rec, m.size, b.fd, env.lseekEnd);
            var mapped := env.mmap(PlacedAddress(m).value, len, b.fd);
            && |out.calls| >= 1
            && out.calls[|out.calls| - 1] == MmapShared(PlacedAddress(m).value, len, b.fd, mapped)
            && (mapped == MapFailed ==>
                  && out.result == ErrorMemoryMapFailed && out.data == None
                  && out.state.records[m.memory] == rec.(mapAddress := Null, mapSize := 0))
            && (mapped != MapFailed ==>
                  && out.result == Success && out.data == Some(mapped + m.offset)
                  && out.state.records[m.memory] == rec.(mapAddress := mapped, mapSize := len))
  {
    var rec := state.records[m.memory];
    var placed := PlacedAddress(m).value;
    var b := BackingFd(rec, env);
    var len := MapLength(rec, m.size, b.fd, env.lseekEnd);
    var sized := if m.size == WholeSize && rec.allocSize == 0 then [LseekEnd(b.fd, env.lseekEnd(b.fd))] else [];
    var mapped := env.mmap(placed, len, b.fd);
    var calls := b.calls + sized + [MmapShared(placed, len, b.fd, mapped)];
    if mapped == MapFailed then
      MapOutput(ErrorMemoryMapFailed, None,
                state.(records := state.records[m.memory := rec.(mapAddress := Null, mapSize := 0)]), calls)
    else
      MapOutput(Success, Some(mapped + m.offset),
                state.(records := state.records[m.memory := rec.(mapAddress := mapped, mapSize := len)]), calls)
  }

  /** VkMemoryUnmapInfoKHR. */
  datatype UnmapInfo = UnmapInfo(memory: Handle, flags: bv32)

  datatype UnmapOutput = UnmapOutput(result: VkResult, state: MemoryState, calls: seq<Call>)

  /** wrapper_UnmapMemory2KHR (lines 394-426). `reserve` is the kernel's answer to
      mmap(addr, len, PROT_NONE, MAP_PRIVATE | MAP_ANONYMOUS | MAP_FIXED, -1, 0). */
  function UnmapMemory2(state: MemoryState, u: UnmapInfo, reserve: (Address, nat) -> Address): (out: UnmapOutput)
    ensures u.memory == NullHandle || u.memory !in state.records ==>
              out == UnmapOutput(Success, state, [NativeUnmapMemory(u.memory)])
    ensures u.memory != NullHandle && u.memory in state.records ==>
              var rec := state.records[u.memory];
              var reserved := reserve(rec.mapAddress, rec.mapSize);
              && OnlyMapStateChanged(state, out.state, u.memory)
              && (u.flags & MemoryUnmapReserveBit == 0 ==>
                    out.calls == [Munmap(rec.mapAddress, rec.mapSize), NativeUnmapMemory(u.memory)])
              && (u.flags & MemoryUnmapReserveBit != 0 ==>
                    |out.calls| >= 1 && out.calls[0] == MmapReserve(rec.mapAddress, rec.mapSize, reserved))
              && (u.flags & MemoryUnmapReserveBit != 0 && reserved == MapFailed ==>
                    && out.result == ErrorMemoryMapFailed
                    && out.calls == [MmapReserve(rec.mapAddress, rec.mapSize, reserved)]
                    && out.state.records[u.memory] == rec.(mapAddress := MapFailed))
              && (u.flags & MemoryUnmapReserveBit == 0 || reserved != MapFailed ==>
                    && out.result == Success
                    && |out.calls| >= 1 && out.calls[|out.calls| - 1] == NativeUnmapMemory(u.memory)
                    && out.state.records[u.memory] == rec.(mapAddress := Null, mapSize := 0))
  {
    if u.memory != NullHandle && u.memory in state.records then
      var rec := state.records[u.memory];
      var cleared := state.(records := state.records[u.memory := rec.(mapAddress := Null, mapSize := 0)]);
      if u.flags & MemoryUnmapReserveBit != 0 then
        var reserved := reserve(rec.mapAddress, rec.mapSize);
        if reserved == MapFailed then
          UnmapOutput(ErrorMemoryMapFailed,
                      state.(records := state.records[u.memory := rec.(mapAddress := MapFailed)]),
                      [MmapReserve(rec.mapAddress, rec.mapSize, reserved)])
        else
          UnmapOutput(Success, cleared, [MmapReserve(rec.mapAddress, rec.mapSize, reserved), NativeUnmapMemory(u.memory)])
      else
        UnmapOutput(Success, cleared, [Munmap(rec.mapAddress, rec.mapSize), NativeUnmapMemory(u.memory)])
    else
      UnmapOutput(Success, state, [NativeUnmapMemory(u.memory)])
  }
}

=== FILE: memory_properties.dfy ===
/** Properties of the device-memory layer that span several calls: the traces
    are faithful summaries of the calls made, a failed allocation leaks nothing
    and changes nothing, the ledger stays exact, an allocation is undone by its
    free, the order of the allocation fallbacks, and the placed-mapping rules. */
module MemoryProperties {
  import opened Wrappers
  import opened Vk
  import opened MemoryRecords
  import opened DeviceMemory
  import opened MemoryMap
  import KernelHeap

  // ---------------------------------------------------------------------------
  // The trace summaries are faithful to the calls

  lemma NoCallsFaithful()
    ensures Faithful(NoCalls)
  {
  }

  lemma TakeImportFaithful(info: AllocateInfo, env: AllocEnv)
    ensures Faithful(TakeImport(info, env).trace)
  {
    NoCallsFaithful();
    var importAhb := FindStruct(info.next, ImportAhbType);
    var importFd := FindStruct(info.next, ImportFdType);
    if importAhb.Some? {
      LogFaithful(NoCalls, AhbAcquire(importAhb.value.buffer));
    } else if importFd.Some? {
      LogFaithful(NoCalls, DupCloexec(importFd.value.fd, env.dup(importFd.value.fd)));
    } else {
      assert DefaultExport(info).trace == NoCalls;
    }
  }

  lemma AttemptFaithful(n: Negotiation, env: AllocEnv)
    requires Faithful(n.trace)
    ensures Faithful(Attempt(n, env).trace)
  {
    LogFaithful(n.trace, NativeAllocateMemory(n.info, env.allocate(n.info).result));
  }

  lemma ImportInfoFaithful(types: seq<bv32>, info: AllocateInfo, appNext: seq<ChainStruct>, env: AllocEnv)
    requires info.memoryTypeIndex < |types|
    ensures Faithful(GetImportDmabufInfo(types, info, appNext, env).trace)
  {
    var heap := KernelHeap.DmabufAlloc(info.allocationSize, env.heap);
    DmabufTraceFaithful(info.allocationSize, env.heap);
    if heap.fd >= 0 {
      ImportHeapFdFaithful(types, info, appNext, env, DmabufTrace(info.allocationSize, env.heap), heap.fd);
    }
  }

  lemma ImportHeapFdFaithful(types: seq<bv32>, info: AllocateInfo, appNext: seq<ChainStruct>, env: AllocEnv,
                             heapTrace: Trace, fd: int)
    requires info.memoryTypeIndex < |types| && fd >= 0
    requires heapTrace.acquired == multiset{Fd(fd)} && heapTrace.released == multiset{} && !heapTrace.handedOver
    requires Faithful(heapTrace)
    ensures Faithful(ImportHeapFd(types, info, appNext, env, heapTrace, fd).trace)
  {
    var queried := Log(heapTrace, GetMemoryFdProperties(HandleTypeDmaBuf, fd));
    LogFaithful(heapTrace, GetMemoryFdProperties(HandleTypeDmaBuf, fd));
    LogFaithful(queried, Close(fd));
    if env.fdProperties(fd).result == Success {
      assert ImportHeapFd(types, info, appNext, env, heapTrace, fd) == SelectImportType(types, info, appNext, env, queried, fd);
    }
  }

  lemma AllocateImportedFaithful(n: Negotiation, imp: ImportInfo, env: AllocEnv)
    requires Retrying(n) && imp.result == Success && imp.fd >= 0
    requires imp.trace.acquired == multiset{Fd(imp.fd)} && imp.trace.released == multiset{} && !imp.trace.handedOver
    requires imp.info.allocationSize == n.info.allocationSize
    requires Faithful(n.trace) && Faithful(imp.trace)
    ensures Faithful(AllocateImported(n, imp, env).trace)
  {
    var d := env.dup(imp.fd);
    var a := env.allocate(imp.info);
    var joined := Join(n.trace, imp.trace);
    var duped := Log(joined, DupCloexec(imp.fd, d));
    var tried := Log(duped, NativeAllocateMemory(imp.info, a.result));
    JoinFaithful(n.trace, imp.trace);
    LogFaithful(joined, DupCloexec(imp.fd, d));
    LogFaithful(duped, NativeAllocateMemory(imp.info, a.result));
    LogFaithful(tried, Close(imp.fd));
    LogFaithful(Log(tried, Close(imp.fd)), Close(d));
  }

  lemma ImportRetryFaithful(types: seq<bv32>, n: Negotiation, appNext: seq<ChainStruct>, env: AllocEnv)
    requires n.info.memoryTypeIndex < |types| && Faithful(n.trace)
    ensures Faithful(ImportRetry(types, n, appNext, env).trace)
  {
    if Retrying(n) {
      var imp := GetImportDmabufInfo(types, n.info, appNext, env);
      ImportInfoFaithful(types, n.info, appNext, env);
      if imp.result != Success {
        JoinFaithful(n.trace, imp.trace);
      } else {
        AllocateImportedFaithful(n, imp, env);
      }
    }
  }

  lemma NegotiateFaithful(config: DeviceConfig, info: AllocateInfo, env: AllocEnv)
    requires ValidRequest(config, info)
    ensures Faithful(Negotiate(config, info, env).trace)
  {
    var n0 := TakeImport(info, env);
    TakeImportFaithful(info, env);
    var n1 := Attempt(n0, env);
    AttemptFaithful(n0, env);
    var n2 := ImportRetry(config.memoryTypes, n1, info.next, env);
    ImportRetryFaithful(config.memoryTypes, n1, info.next, env);
    if Retrying(n2) {
      AttemptFaithful(n2.(exportRequest := LocalExport(HandleTypeAndroidHardwareBuffer),
                          info := n2.info.(next := [ExportAllocateInfo(HandleTypeAndroidHardwareBuffer)] + info.next)), env);
    }
  }

  lemma ReleaseFaithful(t: Trace, rec: MemoryRecord)
    requires Faithful(t)
    ensures Faithful(Release(t, rec))
  {
    var t1 := ReleaseAhb(t, rec.ahb);
    if rec.ahb.Some? {
      LogFaithful(t, AhbRelease(rec.ahb.value));
    }
    if rec.dmabufFd != -1 {
      LogFaithful(t1, Close(rec.dmabufFd));
    }
  }

  lemma FreeFaithful(state: MemoryState, memory: Handle)
    ensures Faithful(FreeMemory(state, memory).trace)
  {
    NoCallsFaithful();
    if Tracked(state, memory) {
      var rec := state.records[memory];
      if rec.mapAddress != Null && rec.mapSize != 0 {
        LogFaithful(NoCalls, Munmap(rec.mapAddress, rec.mapSize));
      }
      ReleaseFaithful(UnmapPlaced(rec), rec);
      LogFaithful(Release(UnmapPlaced(rec), rec), NativeFreeMemory(memory));
    } else {
      LogFaithful(NoCalls, NativeFreeMemory(memory));
    }
  }

  lemma FetchFaithful(state: MemoryState, n: Negotiation, env: AllocEnv)
    requires n.result == Success && Faithful(n.trace)
    ensures Faithful(Register(state, n, env).trace)
  {
    if FetchesDmabuf(n.exportRequest) {
      FetchFdFaithful(state, n, env);
    } else if FetchesAhb(n.exportRequest) {
      FetchAhbFaithful(state, n, env);
    }
  }

  lemma FetchFdFaithful(state: MemoryState, n: Negotiation, env: AllocEnv)
    requires n.result == Success && FetchesDmabuf(n.exportRequest) && Faithful(n.trace)
    ensures Faithful(FetchFd(state, n, env).trace)
  {
    var q := env.getMemoryFd(n.memory);
    var c := GetMemoryFd(n.memory, HandleTypeDmaBuf, q.result, q.fd);
    LogFaithful(n.trace, c);
    if q.result != Success {
      QueryFailedFaithful(state, n, q.result, Log(n.trace, c));
    }
  }

  lemma FetchAhbFaithful(state: MemoryState, n: Negotiation, env: AllocEnv)
    requires n.result == Success && FetchesAhb(n.exportRequest) && Faithful(n.trace)
    ensures Faithful(FetchAhb(state, n, env).trace)
  {
    var q := env.getMemoryAhb(n.memory);
    var c := GetMemoryAhb(n.memory, q.result, q.buffer);
    LogFaithful(n.trace, c);
    if q.result != Success {
      QueryFailedFaithful(state, n, q.result, Log(n.trace, c));
    }
  }

  lemma QueryFailedFaithful(state: MemoryState, n: Negotiation, err: VkResult, t: Trace)
    requires err != Success && Faithful(t)
    requires t.acquired == n.trace.acquired && t.released == n.trace.released && t.handedOver == n.trace.handedOver
    ensures Faithful(QueryFailed(state, n, err, t).trace)
  {
    var inserted := MemoryState(state.records[n.memory := n.record], state.live + Held(n.record));
    FreeFaithful(inserted, n.memory);
    assert FreeRegistered(state, n) == FreeMemory(inserted, n.memory);
    JoinFaithful(t, FreeRegistered(state, n).trace);
  }

  /** The summary AllocateMemory keeps of its calls is exact: what it says was
      acquired, released and handed to the driver is what its calls did. */
  lemma AllocateFaithful(config: DeviceConfig, state: MemoryState, info: AllocateInfo, env: AllocEnv)
    requires ValidRequest(config, info)
    ensures Faithful(AllocateMemory(config, state, info, env).trace)
  {
    NoCallsFaithful();
    if !Intercepts(config, info) {
      LogFaithful(NoCalls, NativeAllocateMemory(info, env.allocate(info).result));
    } else if env.recordAllocated {
      var n := Negotiate(config, info, env);
      NegotiateFaithful(config, info, env);
      if n.result != Success {
        ReleaseFaithful(n.trace, n.record);
      } else {
        FetchFaithful(state, n, env);
      }
    }
  }

  /** No leak on failure: when vkAllocateMemory fails and the driver never
      accepted an allocation, every descriptor and AHardwareBuffer reference its
      calls acquired was given back, as often as it was acquired. */
  lemma FailedAllocationLeaksNothing(config: DeviceConfig, state: MemoryState, info: AllocateInfo, env: AllocEnv)
    requires ValidRequest(config, info)
    ensures var out := AllocateMemory(config, state, info, env);
            out.result != Success && NoNativeSuccess(out.trace.calls) ==>
              AcquiredBy(out.trace.calls) == ReleasedBy(out.trace.calls)
  {
    AllocateFaithful(config, state, info, env);
  }

  /** No leak on any failure, including a failed fetch after the driver accepted
      the allocation (lines 268-272): every descriptor and AHardwareBuffer
      reference the calls acquired was given back, as often as it was acquired.
      A successful import retry drops the export request, so no failure follows
      the heap descriptor being handed to the driver. */
  lemma FailedAllocationBalances(config: DeviceConfig, state: MemoryState, info: AllocateInfo, env: AllocEnv)
    requires ValidRequest(config, info) && NonNullOnSuccess(env)
    ensures var out := AllocateMemory(config, state, info, env);
            out.result != Success ==> AcquiredBy(out.trace.calls) == ReleasedBy(out.trace.calls)
  {
    AllocateFaithful(config, state, info, env);
    if Intercepts(config, info) && env.recordAllocated {
      InterceptedPath(config, state, info, env);
      var n := Negotiate(config, info, env);
      if n.result == Success {
        NegotiateBalanced(config, info, env);
        FetchFailureBalanced(state, n, Conclude(state, n, env));
      }
    }
  }

  /** A failed fetch frees the object and gives back what the record held; when
      the negotiation kept its balance, the whole allocation then has. */
  lemma FetchFailureBalanced(state: MemoryState, n: Negotiation, out: AllocOutput)
    requires n.result == Success && n.memory != NullHandle
    requires Registered(state, n, out) || FetchFailed(state, n, out)
    requires n.exportRequest != NoExport ==> n.trace.acquired == n.trace.released + Held(n.record)
    requires !FetchesDmabuf(n.exportRequest) && !FetchesAhb(n.exportRequest) ==> out.result == Success
    ensures out.result != Success ==> out.trace.acquired == out.trace.released
  {
  }

  /** A native allocation attempt acquires and releases nothing and keeps the record. */
  lemma AttemptKeepsLedger(n: Negotiation, env: AllocEnv)
    ensures var n' := Attempt(n, env);
            && n'.trace.acquired == n.trace.acquired && n'.trace.released == n.trace.released
            && n'.record == n.record && n'.exportRequest == n.exportRequest
  {
  }

  /** A successful heap import (lines 197-219) acquires the heap descriptor and
      the record's duplicate of it, and releases nothing. */
  lemma ImportRetryLedger(types: seq<bv32>, n: Negotiation, appNext: seq<ChainStruct>, env: AllocEnv)
    requires n.info.memoryTypeIndex < |types| && Retrying(n)
    requires ImportRetry(types, n, appNext, env).result == Success
    ensures var n' := ImportRetry(types, n, appNext, env);
            var heapFd := KernelHeap.DmabufAlloc(n.info.allocationSize, env.heap).fd;
            && n'.trace.acquired == n.trace.acquired + multiset{Fd(heapFd)} + FdRef(env.dup(heapFd))
            && n'.trace.released == n.trace.released
  {
    var imp := GetImportDmabufInfo(types, n.info, appNext, env);
    assert RetryWithImport(types, n, appNext, env) == AllocateImported(n, imp, env);
    assert imp.fd == KernelHeap.DmabufAlloc(n.info.allocationSize, env.heap).fd;
    ImportAcceptedLedger(n, imp, env);
  }

  /** Lines 203-209: an accepted import adds the heap descriptor and its
      duplicate to what the calls acquired. */
  lemma ImportAcceptedLedger(n: Negotiation, imp: ImportInfo, env: AllocEnv)
    requires Retrying(n) && imp.result == Success && imp.fd >= 0
    requires imp.trace.acquired == multiset{Fd(imp.fd)} && imp.trace.released == multiset{} && !imp.trace.handedOver
    requires imp.info.allocationSize == n.info.allocationSize
    requires env.allocate(imp.info).result == Success
    ensures var n' := AllocateImported(n, imp, env);
            && n'.trace.acquired == n.trace.acquired + multiset{Fd(imp.fd)} + FdRef(env.dup(imp.fd))
            && n'.trace.released == n.trace.released
  {
    var tried := ImportTried(n.trace, imp, env.dup(imp.fd), Success);
    assert AllocateImported(n, imp, env).trace == tried;
  }

  /** The negotiation after a successful heap import: the calls acquired what
      they released, what the record holds, and the heap descriptor. */
  lemma HeapImportLedger(config: DeviceConfig, info: AllocateInfo, env: AllocEnv)
    requires ValidRequest(config, info)
    requires var n1 := Attempt(TakeImport(info, env), env);
             Retrying(n1) && ImportRetry(config.memoryTypes, n1, info.next, env).result == Success
    ensures var n := Negotiate(config, info, env);
            var heapFd := KernelHeap.DmabufAlloc(info.allocationSize, env.heap).fd;
            n.trace.acquired == n.trace.released + Held(n.record) + multiset{Fd(heapFd)}
  {
    var n0 := TakeImport(info, env);
    var n1 := Attempt(n0, env);
    AttemptKeepsLedger(n0, env);
    var n2 := ImportRetry(config.memoryTypes, n1, info.next, env);
    ImportRetryLedger(config.memoryTypes, n1, info.next, env);
    var heapFd := KernelHeap.DmabufAlloc(info.allocationSize, env.heap).fd;
    assert Held(n2.record) == FdRef(env.dup(heapFd));
    assert Negotiate(config, info, env) == n2;
  }

  /** Whenever the negotiation still carries an export request, what its calls
      acquired is what they released plus what the record holds. Without an
      export request the same holds, except after a successful import retry:
      that one has also handed the heap descriptor itself to the driver. */
  lemma {:induction false} NegotiateBalanced(config: DeviceConfig, info: AllocateInfo, env: AllocEnv)
    requires ValidRequest(config, info)
    ensures var n := Negotiate(config, info, env);
            n.exportRequest != NoExport ==> n.trace.acquired == n.trace.released + Held(n.record)
    ensures var n := Negotiate(config, info, env);
            var heapFd := KernelHeap.DmabufAlloc(info.allocationSize, env.heap).fd;
            n.exportRequest == NoExport ==>
              n.trace.acquired == n.trace.released + Held(n.record)
                                  + (if Retrying(Attempt(TakeImport(info, env), env)) then multiset{Fd(heapFd)} else multiset{})
  {
    var n0 := TakeImport(info, env);
    var n1 := Attempt(n0, env);
    AttemptKeepsLedger(n0, env);
    assert n0.trace.acquired == multiset{} + Held(n0.record);
    var n2 := ImportRetry(config.memoryTypes, n1, info.next, env);
    if Retrying(n1) && n2.result != Success {
      assert Accounted(n2, info.allocationSize);
      var m := n2.(exportRequest := LocalExport(HandleTypeAndroidHardwareBuffer),
                   info := n2.info.(next := [ExportAllocateInfo(HandleTypeAndroidHardwareBuffer)] + info.next));
      AttemptKeepsLedger(m, env);
    } else if Retrying(n1) {
      HeapImportLedger(config, info, env);
    }
  }

  // ---------------------------------------------------------------------------
  // Allocation and the registry

  /** The driver answers a successful allocation with a handle that is not null
      and not already registered. */
  ghost predicate FreshFromDriver(state: MemoryState, env: AllocEnv) {
    forall info :: env.allocate(info).result == Success ==>
      env.allocate(info).memory != NullHandle && env.allocate(info).memory !in state.records
  }

  /** The intercepted path with its tracking record allocated is the negotiation
      followed by its conclusion. */
  lemma InterceptedPath(config: DeviceConfig, state: MemoryState, info: AllocateInfo, env: AllocEnv)
    requires ValidRequest(config, info) && Intercepts(config, info) && env.recordAllocated
    ensures AllocateMemory(config, state, info, env) == Conclude(state, Negotiate(config, info, env), env)
  {
    assert AllocateMemory(config, state, info, env) == InterceptAllocation(config, state, info, env);
  }

  /** Concluding a negotiation the driver's fresh handle came from: a failure
      leaves the registry as it was, a success registers the handle anew. */
  lemma ConcludeFresh(state: MemoryState, n: Negotiation, env: AllocEnv)
    requires FromDriver(n, env) && FreshFromDriver(state, env)
    ensures var out := Conclude(state, n, env);
            && (out.result != Success ==> out.state == state)
            && (n.result == Success ==> n.memory != NullHandle && n.memory !in state.records)
  {
    if n.result == Success {
      assert env.allocate(n.info).memory == n.memory;
      ConcludeUnregistered(state, n, env);
    }
  }

  lemma RemoveAbsent(records: map<Handle, MemoryRecord>, h: Handle)
    requires h !in records
    ensures records - {h} == records
  {
  }

  lemma ConcludeUnregistered(state: MemoryState, n: Negotiation, env: AllocEnv)
    requires n.result == Success && n.memory != NullHandle && n.memory !in state.records
    ensures var out := Conclude(state, n, env); out.result != Success ==> out.state == state
  {
    RemoveAbsent(state.records, n.memory);
    var out := Conclude(state, n, env);
    if out.result != Success {
      assert FetchFailed(state, n, out);
      assert out.state == MemoryState(state.records, state.live);
    }
  }

  /** A failed vkAllocateMemory leaves the registry and its ledger exactly as they
      were, including when a fetch failed after the record had been registered. */
  lemma FailedAllocationChangesNothing(config: DeviceConfig, state: MemoryState, info: AllocateInfo, env: AllocEnv)
    requires ValidRequest(config, info) && FreshFromDriver(state, env)
    ensures var out := AllocateMemory(config, state, info, env);
            out.result != Success ==> out.state == state
  {
    if Intercepts(config, info) && env.recordAllocated {
      InterceptedPath(config, state, info, env);
      ConcludeFresh(state, Negotiate(config, info, env), env);
    }
  }

  /** vkAllocateMemory keeps the ledger exact: afterwards the layer owns precisely
      what the registered records hold. A request whose export is fetched into the
      slot its import filled is excluded (see ImportExportOverwrite). */
  lemma AllocationKeepsLedger(config: DeviceConfig, state: MemoryState, info: AllocateInfo, env: AllocEnv)
    requires ValidRequest(config, info) && FreshFromDriver(state, env) && Consistent(state)
    requires !ExportOverwritesImport(info)
    ensures Consistent(AllocateMemory(config, state, info, env).state)
  {
    var out := AllocateMemory(config, state, info, env);
    FailedAllocationChangesNothing(config, state, info, env);
    if Intercepts(config, info) && out.result == Success {
      InterceptedPath(config, state, info, env);
      var n := Negotiate(config, info, env);
      ConcludeFresh(state, n, env);
      HoldingsInsert(state.records, n.memory, out.state.records[n.memory]);
    }
  }

  /** Freeing a record registered under a new handle restores the registry. */
  lemma FreeRegisteredRestores(state: MemoryState, s': MemoryState, m: Handle)
    requires m != NullHandle && m !in state.records && m in s'.records
    requires s'.records == state.records[m := s'.records[m]]
    requires s'.live == state.live + Held(s'.records[m])
    ensures FreeMemory(s', m).state == state
    ensures FreeMemory(s', m).trace.released == Held(s'.records[m])
  {
    assert s'.records - {m} == state.records;
    assert s'.live - Held(s'.records[m]) == state.live;
  }

  /** The registry half of AllocateThenFree, for every request: freeing the
      handle a successful allocation returned leaves exactly the records there
      were before. */
  lemma AllocateThenFreeRegistry(config: DeviceConfig, state: MemoryState, info: AllocateInfo, env: AllocEnv)
    requires ValidRequest(config, info) && FreshFromDriver(state, env)
    ensures var out := AllocateMemory(config, state, info, env);
            out.result == Success ==>
              && out.memory.Some?
              && FreeMemory(out.state, out.memory.value).state.records == state.records
  {
    var out := AllocateMemory(config, state, info, env);
    if out.result == Success {
      if Intercepts(config, info) {
        InterceptedPath(config, state, info, env);
        var n := Negotiate(config, info, env);
        ConcludeFresh(state, n, env);
        assert Registered(state, n, out);
        assert out.state.records - {n.memory} == state.records;
      } else {
        assert env.allocate(info).memory !in state.records;
      }
    }
  }

  /** Freeing what vkAllocateMemory just returned puts the registry and its ledger
      back where they were, and gives back what the new record held. */
  lemma AllocateThenFree(config: DeviceConfig, state: MemoryState, info: AllocateInfo, env: AllocEnv)
    requires ValidRequest(config, info) && FreshFromDriver(state, env)
    requires !ExportOverwritesImport(info)
    ensures var out := AllocateMemory(config, state, info, env);
            out.result == Success ==>
              && out.memory.Some?
              && FreeMemory(out.state, out.memory.value).state == state
              && FreeMemory(out.state, out.memory.value).trace.released
                 == (if Intercepts(config, info) then Held(out.state.records[out.memory.value]) else multiset{})
  {
    var out := AllocateMemory(config, state, info, env);
    if out.result == Success {
      if Intercepts(config, info) {
        InterceptedPath(config, state, info, env);
        ConcludeFresh(state, Negotiate(config, info, env), env);
        FreeRegisteredRestores(state, out.state, out.memory.value);
      } else {
        assert env.allocate(info).memory !in state.records;
      }
    }
  }

  // ---------------------------------------------------------------------------
  // The order of the fallbacks

  /** The retries run only for the layer's own export: a request carrying an
      import or an export structure gets exactly one native allocation. */
  lemma NoRetryForApplicationChains(config: DeviceConfig, info: AllocateInfo, env: AllocEnv)
    requires ValidRequest(config, info)
    requires || FindStruct(info.next, ImportAhbType).Some? || FindStruct(info.next, ImportFdType).Some?
             || FindStruct(info.next, ExportType).Some?
    ensures Negotiate(config, info, env) == Attempt(TakeImport(info, env), env)
  {
    var n1 := Attempt(TakeImport(info, env), env);
    assert !Retrying(n1);
    assert ImportRetry(config.memoryTypes, n1, info.next, env) == n1;
  }

  /** The retries run only while the allocation is failing. */
  lemma NoRetryAfterSuccess(config: DeviceConfig, info: AllocateInfo, env: AllocEnv)
    requires ValidRequest(config, info)
    requires env.allocate(TakeImport(info, env).info).result == Success
    ensures Negotiate(config, info, env) == Attempt(TakeImport(info, env), env)
  {
    var n1 := Attempt(TakeImport(info, env), env);
    assert !Retrying(n1);
    assert ImportRetry(config.memoryTypes, n1, info.next, env) == n1;
  }

  /** A successful heap import clears the export request, so nothing is fetched
      afterwards: concluding the allocation adds no call. */
  lemma ImportedMemoryIsNotFetched(config: DeviceConfig, state: MemoryState, info: AllocateInfo, env: AllocEnv)
    requires ValidRequest(config, info)
    requires var n1 := Attempt(TakeImport(info, env), env);
             Retrying(n1) && ImportRetry(config.memoryTypes, n1, info.next, env).result == Success
    ensures var n := Negotiate(config, info, env);
            && n.exportRequest == NoExport && n.result == Success
            && n.info.next == [ImportFdInfo(HandleTypeDmaBuf, KernelHeap.DmabufAlloc(info.allocationSize, env.heap).fd)] + info.next
            && Conclude(state, n, env).trace == n.trace
  {
    ImportedNegotiation(config, info, env);
    ConcludeWithoutExport(state, Negotiate(config, info, env), env);
  }

  /** The request the import retry sends: the application's chain behind a dma-buf
      import of the heap descriptor, with the memory type the selection chose. */
  function HeapImportRequest(info: AllocateInfo, fd: int, index: nat): AllocateInfo {
    info.(memoryTypeIndex := index, next := [ImportFdInfo(HandleTypeDmaBuf, fd)] + info.next)
  }

  /** The kernel-heap fallback (lines 197-220): when the driver refuses the
      layer's dma-buf export but accepts an import of a kernel-heap descriptor,
      the memory is backed by that descriptor's duplicate and holds no
      AHardwareBuffer, and nothing is exported. */
  lemma HeapImportBacksMemory(config: DeviceConfig, info: AllocateInfo, env: AllocEnv, fd: int, index: nat)
    requires ValidRequest(config, info)
    requires && FindStruct(info.next, ImportAhbType).None? && FindStruct(info.next, ImportFdType).None?
             && FindStruct(info.next, ExportType).None?
    requires env.allocate(info.(next := [ExportAllocateInfo(HandleTypeDmaBuf)] + info.next)).result != Success
    requires fd == KernelHeap.DmabufAlloc(info.allocationSize, env.heap).fd && fd >= 0
    requires env.fdProperties(fd).result == Success
    requires env.selectMemoryType(config.memoryTypes[info.memoryTypeIndex] | env.fdProperties(fd).memoryTypeBits) == Some(index)
    requires env.allocate(HeapImportRequest(info, fd, index)).result == Success
    ensures var n := Negotiate(config, info, env);
            && n.result == Success && n.exportRequest == NoExport
            && n.info == HeapImportRequest(info, fd, index)
            && n.record.dmabufFd == env.dup(fd) && n.record.ahb.None?
  {
    FirstExportRefused(info, env);
    var n1 := Attempt(TakeImport(info, env), env);
    HeapImportAccepted(config.memoryTypes, n1, info.next, env, fd, index);
    ImportedNegotiation(config, info, env);
  }

  /** With no import and no export in the chain, a refused first attempt leaves
      the layer's dma-buf export failing and the record fresh. */
  lemma FirstExportRefused(info: AllocateInfo, env: AllocEnv)
    requires && FindStruct(info.next, ImportAhbType).None? && FindStruct(info.next, ImportFdType).None?
             && FindStruct(info.next, ExportType).None?
    requires env.allocate(info.(next := [ExportAllocateInfo(HandleTypeDmaBuf)] + info.next)).result != Success
    ensures var n1 := Attempt(TakeImport(info, env), env);
            && Retrying(n1) && n1.record == NewRecord(info.allocationSize)
            && n1.info == info.(next := [ExportAllocateInfo(HandleTypeDmaBuf)] + info.next)
  {
  }

  /** The import retry with a selectable heap descriptor the driver accepts. */
  lemma HeapImportAccepted(types: seq<bv32>, n: Negotiation, appNext: seq<ChainStruct>, env: AllocEnv, fd: int, index: nat)
    requires n.info.memoryTypeIndex < |types| && Retrying(n)
    requires fd == KernelHeap.DmabufAlloc(n.info.allocationSize, env.heap).fd && fd >= 0
    requires env.fdProperties(fd).result == Success
    requires env.selectMemoryType(types[n.info.memoryTypeIndex] | env.fdProperties(fd).memoryTypeBits) == Some(index)
    requires env.allocate(n.info.(memoryTypeIndex := index, next := [ImportFdInfo(HandleTypeDmaBuf, fd)] + appNext)).result == Success
    ensures var n' := ImportRetry(types, n, appNext, env);
            && n'.result == Success && n'.exportRequest == NoExport
            && n'.info == n.info.(memoryTypeIndex := index, next := [ImportFdInfo(HandleTypeDmaBuf, fd)] + appNext)
            && n'.record == n.record.(dmabufFd := env.dup(fd))
  {
    ImportSelectedOutcome(types, n.info, appNext, env, fd, index);
    RetryAllocatesImport(types, n, appNext, env);
    ImportAllocationAccepted(n, GetImportDmabufInfo(types, n.info, appNext, env), env);
  }

  /** The successful import, stated with the selected index. */
  lemma ImportSelectedOutcome(types: seq<bv32>, info: AllocateInfo, appNext: seq<ChainStruct>, env: AllocEnv, fd: int, index: nat)
    requires info.memoryTypeIndex < |types|
    requires fd == KernelHeap.DmabufAlloc(info.allocationSize, env.heap).fd && fd >= 0
    requires env.fdProperties(fd).result == Success
    requires env.selectMemoryType(types[info.memoryTypeIndex] | env.fdProperties(fd).memoryTypeBits) == Some(index)
    ensures var imp := GetImportDmabufInfo(types, info, appNext, env);
            && imp.result == Success && imp.fd == fd
            && imp.trace.acquired == multiset{Fd(fd)} && imp.trace.released == multiset{} && !imp.trace.handedOver
            && imp.info == info.(memoryTypeIndex := index, next := [ImportFdInfo(HandleTypeDmaBuf, fd)] + appNext)
  {
    ImportReadyWhenSelectable(types, info, appNext, env, fd);
  }

  /** A successful wrapper_get_import_dmabuf_info leads to the allocation with the import. */
  lemma RetryAllocatesImport(types: seq<bv32>, n: Negotiation, appNext: seq<ChainStruct>, env: AllocEnv)
    requires n.info.memoryTypeIndex < |types| && Retrying(n)
    requires GetImportDmabufInfo(types, n.info, appNext, env).result == Success
    ensures var imp := GetImportDmabufInfo(types, n.info, appNext, env);
            imp.fd >= 0 && ImportRetry(types, n, appNext, env) == AllocateImported(n, imp, env)
  {
  }

  /** The driver accepts the import: the record keeps the duplicate and nothing
      is exported. */
  lemma ImportAllocationAccepted(n: Negotiation, imp: ImportInfo, env: AllocEnv)
    requires Retrying(n) && imp.result == Success && imp.fd >= 0
    requires imp.trace.acquired == multiset{Fd(imp.fd)} && imp.trace.released == multiset{} && !imp.trace.handedOver
    requires imp.info.allocationSize == n.info.allocationSize
    requires env.allocate(imp.info).result == Success
    ensures var n' := AllocateImported(n, imp, env);
            && n'.result == Success && n'.exportRequest == NoExport && n'.info == imp.info
            && n'.record == n.record.(dmabufFd := env.dup(imp.fd))
  {
  }

  /** A successful heap import ends the negotiation: the AHardwareBuffer retry
      does not run. */
  lemma ImportedNegotiation(config: DeviceConfig, info: AllocateInfo, env: AllocEnv)
    requires ValidRequest(config, info)
    requires var n1 := Attempt(TakeImport(info, env), env);
             Retrying(n1) && ImportRetry(config.memoryTypes, n1, info.next, env).result == Success
    ensures var n := Negotiate(config, info, env);
            && n == ImportRetry(config.memoryTypes, Attempt(TakeImport(info, env), env), info.next, env)
            && n.exportRequest == NoExport && n.result == Success
            && n.info.next == [ImportFdInfo(HandleTypeDmaBuf, KernelHeap.DmabufAlloc(info.allocationSize, env.heap).fd)] + info.next
  {
    var n1 := Attempt(TakeImport(info, env), env);
    var n2 := ImportRetry(config.memoryTypes, n1, info.next, env);
    assert n1.info.allocationSize == info.allocationSize;
    assert !Retrying(n2);
    assert AhbRetry(n2, info.next, env) == n2;
  }

  /** Without an export request a successful allocation fetches nothing, so
      concluding it adds no call. */
  lemma ConcludeWithoutExport(state: MemoryState, n: Negotiation, env: AllocEnv)
    requires n.result == Success && n.exportRequest == NoExport
    ensures Conclude(state, n, env).trace == n.trace
  {
  }

  /** With no import and no export in the chain and a driver that refuses every
      allocation, the layer tries the dma-buf export first and the
      AHardwareBuffer export last, and gives up with the last error. */
  lemma FallbackOrder(config: DeviceConfig, info: AllocateInfo, env: AllocEnv)
    requires ValidRequest(config, info)
    requires && FindStruct(info.next, ImportAhbType).None? && FindStruct(info.next, ImportFdType).None?
             && FindStruct(info.next, ExportType).None?
    requires forall i :: env.allocate(i).result != Success
    ensures var n := Negotiate(config, info, env);
            && n.result != Success
            && n.exportRequest == LocalExport(HandleTypeAndroidHardwareBuffer)
            && n.info.next == [ExportAllocateInfo(HandleTypeAndroidHardwareBuffer)] + info.next
            && |n.trace.calls| >= 2
            && n.trace.calls[0].NativeAllocateMemory?
            && n.trace.calls[0].info == info.(next := [ExportAllocateInfo(HandleTypeDmaBuf)] + info.next)
            && n.trace.calls[|n.trace.calls| - 1] == NativeAllocateMemory(n.info, n.result)
  {
    var n0 := TakeImport(info, env);
    var n1 := Attempt(n0, env);
    assert n1.trace.calls == [NativeAllocateMemory(n0.info, n1.result)];
    var n2 := ImportRetry(config.memoryTypes, n1, info.next, env);
    assert n2.exportRequest == n1.exportRequest;
    ImportRetryPrefix(config.memoryTypes, n1, info.next, env);
  }

  /** The import retry only adds calls. */
  lemma ImportRetryPrefix(types: seq<bv32>, n: Negotiation, appNext: seq<ChainStruct>, env: AllocEnv)
    requires n.info.memoryTypeIndex < |types|
    ensures var n' := ImportRetry(types, n, appNext, env);
            |n'.trace.calls| >= |n.trace.calls| && n'.trace.calls[..|n.trace.calls|] == n.trace.calls
  {
    if Retrying(n) {
      var imp := GetImportDmabufInfo(types, n.info, appNext, env);
      if imp.result == Success {
        AllocateImportedPrefix(n, imp, env);
      } else {
        assert (n.trace.calls + imp.trace.calls)[..|n.trace.calls|] == n.trace.calls;
      }
    }
  }

  lemma AllocateImportedPrefix(n: Negotiation, imp: ImportInfo, env: AllocEnv)
    requires Retrying(n) && imp.result == Success && imp.fd >= 0
    requires imp.trace.acquired == multiset{Fd(imp.fd)} && imp.trace.released == multiset{} && !imp.trace.handedOver
    requires imp.info.allocationSize == n.info.allocationSize
    ensures var n' := AllocateImported(n, imp, env);
            |n'.trace.calls| >= |n.trace.calls| && n'.trace.calls[..|n.trace.calls|] == n.trace.calls
  {
    var d := env.dup(imp.fd);
    var a := env.allocate(imp.info);
    var tried := ImportTried(n.trace, imp, d, a.result);
    var rest := imp.trace.calls + [DupCloexec(imp.fd, d), NativeAllocateMemory(imp.info, a.result)];
    PrefixOf(n.trace.calls, rest);
    if a.result != Success {
      assert tried.calls + [Close(imp.fd), Close(d)] == n.trace.calls + (rest + [Close(imp.fd), Close(d)]);
      PrefixOf(n.trace.calls, rest + [Close(imp.fd), Close(d)]);
    }
  }

  lemma PrefixOf(a: seq<Call>, b: seq<Call>)
    ensures |a + b| >= |a| && (a + b)[..|a|] == a
  {
  }

  // ---------------------------------------------------------------------------
  // An export fetched over the import

  /** A request that imports dma-buf descriptor 5 and asks to export a dma-buf. */
  function OverwriteInfo(): AllocateInfo {
    AllocateInfo(4096, 0, [ImportFdInfo(HandleTypeDmaBuf, 5), ExportAllocateInfo(HandleTypeDmaBuf)])
  }

  /** A driver that accepts everything, duplicates descriptor d as d + 2 and exports descriptor 9. */
  function OverwriteEnv(): AllocEnv {
    var answers: KernelHeap.KernelAnswers := [KernelHeap.IoctlAnswer(0, 0, 3)];
    AllocEnv(true, _ => NativeAllocation(Success, 1), KernelHeap.HeapAnswers(answers, answers),
             _ => FdProperties(Success, 1), _ => Some(0), fd => fd + 2,
             _ => FdQuery(Success, 9), _ => AhbQuery(Success, 0))
  }

  /** As written, a request that imports a descriptor of any handle type and
      also asks to export a dma-buf has the record's duplicate of the imported descriptor
      (line 178) overwritten by the exported one (lines 248-258). Unless
      the driver exports the very number of the duplicate, the duplicate is
      acquired, never closed, and no record holds it, so freeing the memory
      gives back only the exported descriptor. */
  lemma ImportExportOverwrite(config: DeviceConfig, state: MemoryState, info: AllocateInfo, env: AllocEnv)
    requires ValidRequest(config, info) && Intercepts(config, info) && env.recordAllocated
    requires FindStruct(info.next, ImportAhbType).None? && FindStruct(info.next, ImportFdType).Some?
    requires FindStruct(info.next, ExportType) == Some(ExportAllocateInfo(HandleTypeDmaBuf))
    requires env.allocate(info).result == Success && env.getMemoryFd(env.allocate(info).memory).result == Success
    requires var d := env.dup(FindStruct(info.next, ImportFdType).value.fd);
             d >= 0 && d != env.getMemoryFd(env.allocate(info).memory).fd
    ensures var out := AllocateMemory(config, state, info, env);
            var m := env.allocate(info).memory;
            var d := env.dup(FindStruct(info.next, ImportFdType).value.fd);
            && out.result == Success && out.memory == Some(m)
            && out.state.records[m].dmabufFd == env.getMemoryFd(m).fd
            && Fd(d) in out.trace.acquired && Fd(d) !in out.trace.released
            && Fd(d) !in Held(out.state.records[m])
            && (m != NullHandle ==> FreeMemory(out.state, m).trace.released == FdRef(env.getMemoryFd(m).fd))
  {
    InterceptedPath(config, state, info, env);
    NoRetryForApplicationChains(config, info, env);
    var n := Negotiate(config, info, env);
    assert n.info == info && n.record.ahb.None?;
    FetchedFdTrace(state, n, env);
  }

  /** The same with numbers: the imported descriptor 5 is duplicated as 7 and
      the driver exports 9, so descriptor 7 is acquired, never closed, and
      freeing the memory closes only 9. */
  lemma ImportExportOverwriteExample()
    ensures var config := DeviceConfig(true, true, [MemoryPropertyHostVisible]);
            var state := MemoryState(map[], multiset{});
            var out := AllocateMemory(config, state, OverwriteInfo(), OverwriteEnv());
            && ExportOverwritesImport(OverwriteInfo())
            && out.result == Success && out.memory == Some(1)
            && out.state.records[1].dmabufFd == 9
            && Fd(7) in out.trace.acquired && Fd(7) !in out.trace.released
            && Fd(7) !in Held(out.state.records[1])
            && FreeMemory(out.state, 1).trace.released == multiset{Fd(9)}
  {
    var config := DeviceConfig(true, true, [MemoryPropertyHostVisible]);
    var info := OverwriteInfo();
    assert MemoryPropertyHostVisible & MemoryPropertyHostVisible != 0;
    assert FindStruct(info.next, ImportAhbType) == None;
    assert FindStruct(info.next, ImportFdType) == Some(ImportFdInfo(HandleTypeDmaBuf, 5));
    assert FindStruct(info.next, ExportType) == Some(ExportAllocateInfo(HandleTypeDmaBuf));
    ImportExportOverwrite(config, MemoryState(map[], multiset{}), info, OverwriteEnv());
  }

  /** A successful dma-buf fetch adds exactly its query to the negotiation's calls. */
  lemma FetchedFdTrace(state: MemoryState, n: Negotiation, env: AllocEnv)
    requires n.result == Success && FetchesDmabuf(n.exportRequest) && env.getMemoryFd(n.memory).result == Success
    ensures Conclude(state, n, env).trace
            == Log(n.trace, GetMemoryFd(n.memory, HandleTypeDmaBuf, Success, env.getMemoryFd(n.memory).fd))
  {
    assert Conclude(state, n, env) == FetchFd(state, n, env);
  }

  // ---------------------------------------------------------------------------
  // Freeing

  /** wrapper_FreeMemory's calls for a tracked handle, in order: the munmap of a
      placed mapping exactly when one is in place, the AHardwareBuffer release,
      the close of the descriptor, then the driver's vkFreeMemory. */
  lemma FreeCalls(state: MemoryState, memory: Handle)
    requires Tracked(state, memory)
    ensures var rec := state.records[memory];
            FreeMemory(state, memory).trace.calls
            == (if rec.mapAddress != Null && rec.mapSize != 0 then [Munmap(rec.mapAddress, rec.mapSize)] else [])
               + (if rec.ahb.Some? then [AhbRelease(rec.ahb.value)] else [])
               + (if rec.dmabufFd != -1 then [Close(rec.dmabufFd)] else [])
               + [NativeFreeMemory(memory)]
  {
    assert FreeMemory(state, memory) == FreeTracked(state, memory);
    FreeTrackedCalls(state, memory);
  }

  lemma FreeTrackedCalls(state: MemoryState, memory: Handle)
    requires memory in state.records
    ensures var rec := state.records[memory];
            FreeTracked(state, memory).trace.calls
            == UnmapPlaced(rec).calls
               + (if rec.ahb.Some? then [AhbRelease(rec.ahb.value)] else [])
               + (if rec.dmabufFd != -1 then [Close(rec.dmabufFd)] else [])
               + [NativeFreeMemory(memory)]
    ensures var rec := state.records[memory];
            UnmapPlaced(rec).calls == (if rec.mapAddress != Null && rec.mapSize != 0 then [Munmap(rec.mapAddress, rec.mapSize)] else [])
  {
    var rec := state.records[memory];
    var u := UnmapPlaced(rec);
    ReleaseAhbCalls(u, rec.ahb);
    ReleaseFdCalls(ReleaseAhb(u, rec.ahb), rec.dmabufFd);
  }

  lemma ReleaseAhbCalls(t: Trace, ahb: Option<Ahb>)
    ensures ReleaseAhb(t, ahb).calls == t.calls + (if ahb.Some? then [AhbRelease(ahb.value)] else [])
  {
  }

  lemma ReleaseFdCalls(t: Trace, fd: int)
    ensures ReleaseFd(t, fd).calls == t.calls + (if fd != -1 then [Close(fd)] else [])
  {
  }

  /** Freeing keeps the ledger exact. */
  lemma FreeKeepsLedger(state: MemoryState, memory: Handle)
    requires Consistent(state)
    ensures Consistent(FreeMemory(state, memory).state)
  {
    if Tracked(state, memory) {
      HoldingsRemove(state.records, memory);
    }
  }

  // ---------------------------------------------------------------------------
  // Mapping

  /** Changing only the map state of one record keeps the ledger exact. */
  lemma MapStateKeepsLedger(s: MemoryState, s': MemoryState, memory: Handle)
    requires memory in s.records && OnlyMapStateChanged(s, s', memory) && Consistent(s)
    ensures Consistent(s')
  {
    HoldingsOfFrame(s'.records, s.records, s.records.Keys);
  }

  lemma MapKeepsLedger(state: MemoryState, m: MapInfo, env: MapEnv)
    requires Consistent(state)
    ensures Consistent(MapMemory2(state, m, env).state)
  {
    if PlacesTracked(state, m) {
      MapStateKeepsLedger(state, MapMemory2(state, m, env).state, m.memory);
    }
  }

  lemma UnmapKeepsLedger(state: MemoryState, u: UnmapInfo, reserve: (Address, nat) -> Address)
    requires Consistent(state)
    ensures Consistent(UnmapMemory2(state, u, reserve).state)
  {
    if u.memory != NullHandle && u.memory in state.records {
      MapStateKeepsLedger(state, UnmapMemory2(state, u, reserve).state, u.memory);
    }
  }

  /** After a successful placed mapping, mapping again at the same address
      returns the same pointer without any call, and mapping at another address
      fails, in both cases leaving the registry alone. */
  lemma MapAgainAfterMap(state: MemoryState, m1: MapInfo, m2: MapInfo, env: MapEnv)
    requires PlacesTracked(state, m1) && state.records[m1.memory].mapAddress == Null
    requires MapMemory2(state, m1, env).result == Success
    requires MapMemory2(state, m1, env).state.records[m1.memory].mapAddress != Null
    requires m2.memory == m1.memory && PlacedAddress(m2).Some?
    ensures var s1 := MapMemory2(state, m1, env).state;
            var mapped := s1.records[m1.memory].mapAddress;
            && (PlacedAddress(m2).value == mapped ==>
                  MapMemory2(s1, m2, env) == MapOutput(Success, Some(mapped + m2.offset), s1, []))
            && (PlacedAddress(m2).value != mapped ==>
                  MapMemory2(s1, m2, env) == MapOutput(ErrorMemoryMapFailed, None, s1, []))
  {
    var s1 := MapMemory2(state, m1, env).state;
    assert PlacesTracked(s1, m2);
  }

  /** A plain unmap after a successful placed mapping of an unmapped record
      munmaps exactly that mapping and restores the registry. */
  lemma UnmapAfterMap(state: MemoryState, m: MapInfo, env: MapEnv, reserve: (Address, nat) -> Address)
    requires PlacesTracked(state, m)
    requires state.records[m.memory].mapAddress == Null && state.records[m.memory].mapSize == 0
    requires MapMemory2(state, m, env).result == Success
    ensures var s1 := MapMemory2(state, m, env).state;
            var out := UnmapMemory2(s1, UnmapInfo(m.memory, 0), reserve);
            && out.result == Success && out.state == state
            && out.calls == [Munmap(s1.records[m.memory].mapAddress, s1.records[m.memory].mapSize), NativeUnmapMemory(m.memory)]
  {
    var s1 := MapMemory2(state, m, env).state;
    var rec := state.records[m.memory];
    assert rec.(mapAddress := Null, mapSize := 0) == rec;
    assert s1.records[m.memory := rec] == state.records;
  }

  /** After vkFreeMemory the handle is no longer the layer's: a later map request
      for it goes to the driver. */
  lemma MapAfterFreeForwards(state: MemoryState, m: MapInfo, env: MapEnv)
    ensures var freed := FreeMemory(state, m.memory).state;
            MapMemory2(freed, m, env).calls == [NativeMapMemory(m.memory, m.offset, m.size, 0)]
            && MapMemory2(freed, m, env).state == freed
  {
    var freed := FreeMemory(state, m.memory).state;
    assert !PlacesTracked(freed, m);
  }

  /** As written, a failed reserve remap leaves MAP_FAILED as the record's map
      address: every later placed mapping at a real address fails, and the later
      vkFreeMemory munmaps at MAP_FAILED. */
  lemma FailedReserveSticks(state: MemoryState, u: UnmapInfo, reserve: (Address, nat) -> Address, m: MapInfo, env: MapEnv)
    requires u.memory != NullHandle && u.memory in state.records && u.flags & MemoryUnmapReserveBit != 0
    requires reserve(state.records[u.memory].mapAddress, state.records[u.memory].mapSize) == MapFailed
    requires m.memory == u.memory && PlacedAddress(m).Some? && PlacedAddress(m).value != MapFailed
    ensures var s1 := UnmapMemory2(state, u, reserve).state;
            && MapMemory2(s1, m, env) == MapOutput(ErrorMemoryMapFailed, None, s1, [])
            && (s1.records[u.memory].mapSize != 0 ==>
                  FreeMemory(s1, u.memory).trace.calls[0] == Munmap(MapFailed, s1.records[u.memory].mapSize))
  {
    var s1 := UnmapMemory2(state, u, reserve).state;
    assert s1.records[u.memory] == state.records[u.memory].(mapAddress := MapFailed);
    MapElsewhereFails(s1, m, env);
    if s1.records[u.memory].mapSize != 0 {
      FreeStartsWithMunmap(s1, u.memory);
    }
  }

  /** A placed map at another address than the existing mapping fails without a call. */
  lemma MapElsewhereFails(s: MemoryState, m: MapInfo, env: MapEnv)
    requires PlacesTracked(s, m) && s.records[m.memory].mapAddress != Null
    requires PlacedAddress(m).value != s.records[m.memory].mapAddress
    ensures MapMemory2(s, m, env) == MapOutput(ErrorMemoryMapFailed, None, s, [])
  {
  }

  /** Freeing a record with a placed mapping starts by unmapping it. */
  lemma FreeStartsWithMunmap(s: MemoryState, memory: Handle)
    requires Tracked(s, memory) && s.records[memory].mapAddress != Null && s.records[memory].mapSize != 0
    ensures FreeMemory(s, memory).trace.calls[0] == Munmap(s.records[memory].mapAddress, s.records[memory].mapSize)
  {
    FreeCalls(s, memory);
  }
}

=== FILE: memory_records.dfy ===
/** The handle registry: one record per intercepted memory object, keyed by the
    driver's VkDeviceMemory handle, and the ledger of kernel resources the layer
    owns through those records. */
module MemoryRecords {
  import opened Wrappers
  import opened Vk

  /** Identity of an AHardwareBuffer object. */
  type Ahb = nat

  /** A resource the layer must give back: an open descriptor or one AHardwareBuffer reference. */
  datatype Resource = Fd(fd: int) | AhbRef(buffer: Ahb)

  /** struct wrapper_device_memory: `dmabufFd` is -1 when no descriptor is held,
      `mapAddress` is NULL when no placed mapping exists. */
  datatype MemoryRecord = MemoryRecord(
    allocSize: nat,
    dmabufFd: int,
    ahb: Option<Ahb>,
    mapAddress: Address,
    mapSize: nat)

  /** The registry (device->memorys) and the resources the layer currently owns. */
  datatype MemoryState = MemoryState(records: map<Handle, MemoryRecord>, live: multiset<Resource>)

  /** A fresh record as the allocation path starts it: zeroed, no descriptor. */
  function NewRecord(allocSize: nat): MemoryRecord {
    MemoryRecord(allocSize, -1, None, Null, 0)
  }

  /** The descriptor a `dmabuf_fd`-style field owns: nothing for -1. */
  function FdRef(fd: int): multiset<Resource> {
    if fd == -1 then multiset{} else multiset{Fd(fd)}
  }

  function AhbRefs(buffer: Option<Ahb>): multiset<Resource> {
    if buffer.Some? then multiset{AhbRef(buffer.value)} else multiset{}
  }

  /** What freeing a record must release. */
  function Held(rec: MemoryRecord): multiset<Resource> {
    AhbRefs(rec.ahb) + FdRef(rec.dmabufFd)
  }

  /** Everything the records of a registry hold, summed over the given keys. */
  ghost function HoldingsOf(records: map<Handle, MemoryRecord>, keys: set<Handle>): multiset<Resource>
    requires keys <= records.Keys
    decreases keys
  {
    if keys == {} then multiset{}
    else
      var k :| k in keys;
      Held(records[k]) + HoldingsOf(records, keys - {k})
  }

  ghost function Holdings(records: map<Handle, MemoryRecord>): multiset<Resource> {
    HoldingsOf(records, records.Keys)
  }

  /** The ledger is exact: the layer owns precisely what its records hold. */
  ghost predicate Consistent(s: MemoryState) {
    s.live == Holdings(s.records)
  }

  /** The sum does not depend on which key the definition happens to pick first. */
  lemma {:induction false} HoldingsOfPick(records: map<Handle, MemoryRecord>, keys: set<Handle>, h: Handle)
    requires keys <= records.Keys && h in keys
    ensures HoldingsOf(records, keys) == Held(records[h]) + HoldingsOf(records, keys - {h})
    decreases keys
  {
    var k :| k in keys && HoldingsOf(records, keys) == Held(records[k]) + HoldingsOf(records, keys - {k});
    if k != h {
      HoldingsOfPick(records, keys - {k}, h);
      HoldingsOfPick(records, keys - {h}, k);
      assert keys - {k} - {h} == keys - {h} - {k};
    }
  }

  /** Two registries that agree on what each key holds have the same holdings. */
  lemma {:induction false} HoldingsOfFrame(r1: map<Handle, MemoryRecord>, r2: map<Handle, MemoryRecord>, keys: set<Handle>)
    requires keys <= r1.Keys && keys <= r2.Keys
    requires forall k :: k in keys ==> Held(r1[k]) == Held(r2[k])
    ensures HoldingsOf(r1, keys) == HoldingsOf(r2, keys)
    decreases keys
  {
    if keys != {} {
      var k :| k in keys && HoldingsOf(r1, keys) == Held(r1[k]) + HoldingsOf(r1, keys - {k});
      HoldingsOfPick(r2, keys, k);
      HoldingsOfFrame(r1, r2, keys - {k});
    }
  }

  /** Inserting a record under a new key adds exactly what it holds. */
  lemma HoldingsInsert(records: map<Handle, MemoryRecord>, h: Handle, rec: MemoryRecord)
    requires h !in records
    ensures Holdings(records[h := rec]) == Holdings(records) + Held(rec)
  {
    var r2 := records[h := rec];
    var before := HoldingsOf(records, records.Keys);
    HoldingsOfPick(r2, r2.Keys, h);
    assert r2.Keys - {h} == records.Keys;
    HoldingsOfNewKey(records, h, rec);
    assert Holdings(r2) == Held(rec) + before;
    assert Held(rec) + before == before + Held(rec);
  }

  /** A record under a new key does not change the sum over the old keys. */
  lemma HoldingsOfNewKey(records: map<Handle, MemoryRecord>, h: Handle, rec: MemoryRecord)
    requires h !in records
    ensures HoldingsOf(records[h := rec], records.Keys) == HoldingsOf(records, records.Keys)
  {
    HoldingsOfFrame(records[h := rec], records, records.Keys);
  }

  /** Removing a key subtracts exactly what its record held. */
  lemma HoldingsRemove(records: map<Handle, MemoryRecord>, h: Handle)
    requires h in records
    ensures Holdings(records - {h}) == Holdings(records) - Held(records[h])
  {
    var r2 := records - {h};
    HoldingsOfPick(records, records.Keys, h);
    assert r2.Keys == records.Keys - {h};
    HoldingsOfFrame(r2, records, r2.Keys);
  }

  /** Replacing a record by one holding the same resources leaves the holdings alone. */
  lemma HoldingsUpdate(records: map<Handle, MemoryRecord>, h: Handle, rec: MemoryRecord)
    requires h in records && Held(rec) == Held(records[h])
    ensures Holdings(records[h := rec]) == Holdings(records)
  {
    var r2 := records[h := rec];
    assert r2.Keys == records.Keys;
    HoldingsOfFrame(r2, records, records.Keys);
  }
}

=== FILE: queue_submit.dfy ===
/** vkQueueSubmit and vkQueueSubmit2 through the layer: the submits handed to the
    driver are the application's, with every wrapper command buffer replaced by
    the driver's handle behind it. */
module QueueSubmit {
  import opened Wrappers
  import opened Vk
  import opened CommandBuffers

  /** As written, the size of the per-submit scratch array the layer copies
      command buffers into (wrapper_device.c lines 237 and 261). */
  const ScratchCapacity: nat := 32

  /** VkSubmitInfo. The fields other than pCommandBuffers are passed through as they are. */
  datatype SubmitInfo = SubmitInfo(
    next: seq<nat>,
    waitSemaphores: seq<Handle>,
    waitDstStageMasks: seq<nat>,
    commandBuffers: seq<Handle>,
    signalSemaphores: seq<Handle>)

  /** VkCommandBufferSubmitInfo. */
  datatype CommandBufferSubmitInfo = CommandBufferSubmitInfo(next: seq<nat>, commandBuffer: Handle, deviceMask: nat)

  /** VkSubmitInfo2. */
  datatype SubmitInfo2 = SubmitInfo2(
    next: seq<nat>,
    flags: nat,
    waitSemaphoreInfos: seq<nat>,
    commandBufferInfos: seq<CommandBufferSubmitInfo>,
    signalSemaphoreInfos: seq<nat>)

  /** The wrapper queue: its own handle and the driver's. */
  datatype Queue = Queue(handle: Handle, dispatch: Handle)

  /** The call the layer makes on the driver's dispatch table. */
  datatype NativeSubmit<S> = NativeSubmit(queue: Handle, submits: seq<S>, fence: Handle)

  /** Every command buffer named in a submit is a live wrapper. */
  predicate AllTracked(list: seq<CommandBuffer>, cbs: seq<Handle>) {
    forall j :: 0 <= j < |cbs| ==> Tracks(list, cbs[j])
  }

  /** Reference definition: the driver's handle behind each wrapper, in order. */
  function Dispatches(list: seq<CommandBuffer>, cbs: seq<Handle>): (ds: seq<Handle>)
    requires AllTracked(list, cbs)
    ensures |ds| == |cbs|
  {
    if |cbs| == 0 then [] else Dispatches(list, cbs[..|cbs| - 1]) + [Lookup(list, cbs[|cbs| - 1]).dispatch]
  }

  lemma {:induction false} DispatchesAt(list: seq<CommandBuffer>, cbs: seq<Handle>, j: nat)
    requires AllTracked(list, cbs) && j < |cbs|
    ensures Dispatches(list, cbs)[j] == Lookup(list, cbs[j]).dispatch
    decreases |cbs|
  {
    if j < |cbs| - 1 {
      DispatchesAt(list, cbs[..|cbs| - 1], j);
    }
  }

  /** Reference definition of one rewritten VkSubmitInfo. */
  function Rewritten(list: seq<CommandBuffer>, s: SubmitInfo): SubmitInfo
    requires AllTracked(list, s.commandBuffers)
  {
    s.(commandBuffers := Dispatches(list, s.commandBuffers))
  }

  predicate Submittable(list: seq<CommandBuffer>, submits: seq<SubmitInfo>) {
    forall i :: 0 <= i < |submits| ==> AllTracked(list, submits[i].commandBuffers)
  }

  /** Some submit names more command buffers than the scratch array holds. */
  predicate ScratchOverflows(submits: seq<SubmitInfo>) {
    exists i :: 0 <= i < |submits| && |submits[i].commandBuffers| > ScratchCapacity
  }

  /** wrapper_QueueSubmit (wrapper_device.c lines 232-254), with a scratch array
      as long as each submit's command buffer list. */
  method Submit(list: seq<CommandBuffer>, queue: Queue, submits: seq<SubmitInfo>, fence: Handle)
    returns (call: NativeSubmit<SubmitInfo>)
    requires Submittable(list, submits)
    ensures call.queue == queue.dispatch && call.fence == fence && |call.submits| == |submits|
    ensures forall i :: 0 <= i < |submits| ==>
              call.submits[i] == Rewritten(list, submits[i])
              && |call.submits[i].commandBuffers| == |submits[i].commandBuffers|
    ensures forall i, j :: 0 <= i < |submits| && 0 <= j < |submits[i].commandBuffers| ==>
              call.submits[i].commandBuffers[j] == Lookup(list, submits[i].commandBuffers[j]).dispatch
  {
    var out: seq<SubmitInfo> := [];
    var i := 0;
    while i < |submits|
      invariant 0 <= i <= |submits| && |out| == i
      invariant forall k :: 0 <= k < i ==> out[k] == Rewritten(list, submits[k])
    {
      var cbs := submits[i].commandBuffers;
      var scratch: seq<Handle> := [];
      var j := 0;
      while j < |cbs|
        invariant 0 <= j <= |cbs| && scratch == Dispatches(list, cbs[..j])
      {
        assert cbs[..j + 1][..j] == cbs[..j];
        scratch := scratch + [Lookup(list, cbs[j]).dispatch];
        j := j + 1;
      }
      assert cbs[..j] == cbs;
      out := out + [submits[i].(commandBuffers := scratch)];
      i := i + 1;
    }
    call := NativeSubmit(queue.dispatch, out, fence);
    forall i, j | 0 <= i < |submits| && 0 <= j < |submits[i].commandBuffers|
      ensures call.submits[i].commandBuffers[j] == Lookup(list, submits[i].commandBuffers[j]).dispatch
    {
      DispatchesAt(list, submits[i].commandBuffers, j);
    }
  }

  /** Every command buffer info names a live wrapper. */
  predicate InfosTracked(list: seq<CommandBuffer>, infos: seq<CommandBufferSubmitInfo>) {
    forall j :: 0 <= j < |infos| ==> Tracks(list, infos[j].commandBuffer)
  }

  /** Reference definition: each info copied with its command buffer swapped for the driver's. */
  function DispatchInfos(list: seq<CommandBuffer>, infos: seq<CommandBufferSubmitInfo>): (out: seq<CommandBufferSubmitInfo>)
    requires InfosTracked(list, infos)
    ensures |out| == |infos|
  {
    if |infos| == 0 then []
    else DispatchInfos(list, infos[..|infos| - 1])
         + [infos[|infos| - 1].(commandBuffer := Lookup(list, infos[|infos| - 1].commandBuffer).dispatch)]
  }

  lemma {:induction false} DispatchInfosAt(list: seq<CommandBuffer>, infos: seq<CommandBufferSubmitInfo>, j: nat)
    requires InfosTracked(list, infos) && j < |infos|
    ensures DispatchInfos(list, infos)[j] == infos[j].(commandBuffer := Lookup(list, infos[j].commandBuffer).dispatch)
    decreases |infos|
  {
    if j < |infos| - 1 {
      DispatchInfosAt(list, infos[..|infos| - 1], j);
    }
  }

  function Rewritten2(list: seq<CommandBuffer>, s: SubmitInfo2): SubmitInfo2
    requires InfosTracked(list, s.commandBufferInfos)
  {
    s.(commandBufferInfos := DispatchInfos(list, s.commandBufferInfos))
  }

  predicate Submittable2(list: seq<CommandBuffer>, submits: seq<SubmitInfo2>) {
    forall i :: 0 <= i < |submits| ==> InfosTracked(list, submits[i].commandBufferInfos)
  }

  predicate ScratchOverflows2(submits: seq<SubmitInfo2>) {
    exists i :: 0 <= i < |submits| && |submits[i].commandBufferInfos| > ScratchCapacity
  }

  /** wrapper_QueueSubmit2 (lines 256-279), with a scratch array as long as each
      submit's info list: the device mask and chain of each command buffer info
      are kept; only the command buffer changes. */
  method Submit2(list: seq<CommandBuffer>, queue: Queue, submits: seq<SubmitInfo2>, fence: Handle)
    returns (call: NativeSubmit<SubmitInfo2>)
    requires Submittable2(list, submits)
    ensures call.queue == queue.dispatch && call.fence == fence && |call.submits| == |submits|
    ensures forall i :: 0 <= i < |submits| ==>
              call.submits[i] == Rewritten2(list, submits[i])
              && |call.submits[i].commandBufferInfos| == |submits[i].commandBufferInfos|
    ensures forall i, j :: 0 <= i < |submits| && 0 <= j < |submits[i].commandBufferInfos| ==>
              var info := submits[i].commandBufferInfos[j];
              call.submits[i].commandBufferInfos[j] == info.(commandBuffer := Lookup(list, info.commandBuffer).dispatch)
  {
    var out: seq<SubmitInfo2> := [];
    var i := 0;
    while i < |submits|
      invariant 0 <= i <= |submits| && |out| == i
      invariant forall k :: 0 <= k < i ==> out[k] == Rewritten2(list, submits[k])
    {
      var infos := submits[i].commandBufferInfos;
      var scratch: seq<CommandBufferSubmitInfo> := [];
      var j := 0;
      while j < |infos|
        invariant 0 <= j <= |infos| && scratch == DispatchInfos(list, infos[..j])
      {
        assert infos[..j + 1][..j] == infos[..j];
        var copy := infos[j];
        copy := copy.(commandBuffer := Lookup(list, infos[j].commandBuffer).dispatch);
        scratch := scratch + [copy];
        j := j + 1;
      }
      assert infos[..j] == infos;
      out := out + [submits[i].(commandBufferInfos := scratch)];
      i := i + 1;
    }
    call := NativeSubmit(queue.dispatch, out, fence);
    forall i, j | 0 <= i < |submits| && 0 <= j < |submits[i].commandBufferInfos|
      ensures call.submits[i].commandBufferInfos[j]
              == submits[i].commandBufferInfos[j].(commandBuffer := Lookup(list, submits[i].commandBufferInfos[j].commandBuffer).dispatch)
    {
      DispatchInfosAt(list, submits[i].commandBufferInfos, j);
    }
  }

  /** The driver handed out a different command buffer for every wrapper. */
  predicate DistinctDispatch(list: seq<CommandBuffer>) {
    forall i, j :: 0 <= i < j < |list| ==> list[i].dispatch != list[j].dispatch
  }

  /** The rewrite loses nothing: with distinct driver handles, two submits that
      reach the driver identical named the same wrappers. */
  lemma {:induction false} DispatchesInjective(list: seq<CommandBuffer>, a: seq<Handle>, b: seq<Handle>)
    requires WellFormed(list) && DistinctDispatch(list)
    requires AllTracked(list, a) && AllTracked(list, b)
    requires Dispatches(list, a) == Dispatches(list, b)
    ensures a == b
  {
    forall j | 0 <= j < |a|
      ensures a[j] == b[j]
    {
      DispatchesAt(list, a, j);
      DispatchesAt(list, b, j);
      var wa := Lookup(list, a[j]);
      var wb := Lookup(list, b[j]);
      var ia :| 0 <= ia < |list| && list[ia] == wa;
      var ib :| 0 <= ib < |list| && list[ib] == wb;
      assert ia == ib;
    }
  }

  /** The same for vkQueueSubmit2: with distinct driver handles, two lists of
      command buffer infos that reach the driver identical were identical,
      wrappers, chains and device masks alike. */
  lemma {:induction false} DispatchInfosInjective(list: seq<CommandBuffer>, a: seq<CommandBufferSubmitInfo>,
                                                  b: seq<CommandBufferSubmitInfo>)
    requires WellFormed(list) && DistinctDispatch(list)
    requires InfosTracked(list, a) && InfosTracked(list, b)
    requires DispatchInfos(list, a) == DispatchInfos(list, b)
    ensures a == b
  {
    forall j | 0 <= j < |a|
      ensures a[j] == b[j]
    {
      DispatchInfosAt(list, a, j);
      DispatchInfosAt(list, b, j);
      var wa := Lookup(list, a[j].commandBuffer);
      var wb := Lookup(list, b[j].commandBuffer);
      var ia :| 0 <= ia < |list| && list[ia] == wa;
      var ib :| 0 <= ib < |list| && list[ib] == wb;
      assert ia == ib;
    }
  }

  // ---------------------------------------------------------------------------
  // The 32-entry scratch array as written

  /** wrapper_QueueSubmit as written: the copy goes into a 32-entry row per
      submit, so a submit with more command buffers writes past the row (None,
      undefined behaviour); every other call is the one Submit makes. */
  method SubmitAsWritten(list: seq<CommandBuffer>, queue: Queue, submits: seq<SubmitInfo>, fence: Handle)
    returns (r: Option<NativeSubmit<SubmitInfo>>)
    requires Submittable(list, submits)
    ensures r.None? <==> ScratchOverflows(submits)
    ensures r.Some? ==>
              && r.value.queue == queue.dispatch && r.value.fence == fence && |r.value.submits| == |submits|
              && forall i :: 0 <= i < |submits| ==> r.value.submits[i] == Rewritten(list, submits[i])
  {
    if exists i | 0 <= i < |submits| :: |submits[i].commandBuffers| > ScratchCapacity {
      return None;
    }
    var call := Submit(list, queue, submits, fence);
    return Some(call);
  }

  /** wrapper_QueueSubmit2 as written, with the same 32-entry rows. */
  method Submit2AsWritten(list: seq<CommandBuffer>, queue: Queue, submits: seq<SubmitInfo2>, fence: Handle)
    returns (r: Option<NativeSubmit<SubmitInfo2>>)
    requires Submittable2(list, submits)
    ensures r.None? <==> ScratchOverflows2(submits)
    ensures r.Some? ==>
              && r.value.queue == queue.dispatch && r.value.fence == fence && |r.value.submits| == |submits|
              && forall i :: 0 <= i < |submits| ==> r.value.submits[i] == Rewritten2(list, submits[i])
  {
    if exists i | 0 <= i < |submits| :: |submits[i].commandBufferInfos| > ScratchCapacity {
      return None;
    }
    var call := Submit2(list, queue, submits, fence);
    return Some(call);
  }

  /** The counterexample: one submit naming a live wrapper 33 times, which
      Vulkan allows, overflows the scratch row in both entry points, while the
      corrected rewrite hands the driver's handle over 33 times. */
  lemma OverflowingSubmit()
    ensures var list := [CommandBuffer(1, 2, 3)];
            var submit := SubmitInfo([], [], [], seq(33, _ => 1), []);
            && Submittable(list, [submit]) && ScratchOverflows([submit])
            && Rewritten(list, submit).commandBuffers == seq(33, _ => 3)
    ensures var list := [CommandBuffer(1, 2, 3)];
            var submit := SubmitInfo2([], 0, [], seq(33, _ => CommandBufferSubmitInfo([], 1, 1)), []);
            && Submittable2(list, [submit]) && ScratchOverflows2([submit])
            && Rewritten2(list, submit).commandBufferInfos == seq(33, _ => CommandBufferSubmitInfo([], 3, 1))
  {
    var list := [CommandBuffer(1, 2, 3)];
    assert Handles(list) == [1];
    var cbs: seq<Handle> := seq(33, _ => 1);
    assert AllTracked(list, cbs);
    forall j | 0 <= j < 33
      ensures Dispatches(list, cbs)[j] == 3
    {
      DispatchesAt(list, cbs, j);
    }
    var submit := SubmitInfo([], [], [], cbs, []);
    assert |[submit][0].commandBuffers| > ScratchCapacity;
    var infos := seq(33, _ => CommandBufferSubmitInfo([], 1, 1));
    assert InfosTracked(list, infos);
    forall j | 0 <= j < 33
      ensures DispatchInfos(list, infos)[j] == CommandBufferSubmitInfo([], 3, 1)
    {
      DispatchInfosAt(list, infos, j);
    }
    var submit2 := SubmitInfo2([], 0, [], infos, []);
    assert |[submit2][0].commandBufferInfos| > ScratchCapacity;
  }
}

=== FILE: vk.dfy ===
/** The few Vulkan constants and handle types the wrapper layer decides on. */
module Vk {

  /** A VkResult code; the layer only compares it with VK_SUCCESS or produces one of the codes below. */
  type VkResult = int

  const Success: VkResult := 0
  const ErrorOutOfHostMemory: VkResult := -1
  const ErrorMemoryMapFailed: VkResult := -5
  const ErrorInvalidExternalHandle: VkResult := -1000072003

  /** Dispatchable and non-dispatchable object handles; 0 is VK_NULL_HANDLE. */
  type Handle = nat

  const NullHandle: Handle := 0

  /** A host virtual address on a 64-bit host; 0 is NULL. */
  type Address = nat

  const Null: Address := 0
  /** MAP_FAILED, that is `(void *) -1`. */
  const MapFailed: Address := 0xFFFF_FFFF_FFFF_FFFF
  /** VK_WHOLE_SIZE, that is `~0ULL`. */
  const WholeSize: nat := 0xFFFF_FFFF_FFFF_FFFF

  const MemoryPropertyHostVisible: bv32 := 0x2
  const HandleTypeDmaBuf: bv32 := 0x200
  const HandleTypeAndroidHardwareBuffer: bv32 := 0x400
  const MemoryMapPlacedBit: bv32 := 0x1
  const MemoryUnmapReserveBit: bv32 := 0x1
}

=== FILE: wrappers.dfy ===
/** The optional value used wherever the layer looks something up that may be absent. */
module Wrappers {

  datatype Option<+T> = None | Some(value: T)
}
